=== FILE: README.md ===
# Authentication and session core of an education chat application

This project is a Dafny model of the authentication and session core of a
Next.js application. It also models the rule and utility modules around
that core. Every operation is a pure function over immutable data, and the
properties are proved about those functions.

- **Server token lifecycle.** `src/lib/auth.js` holds the JWT codec and the
  `Bearer` header gate. `src/lib/withAuth.js` is the role gate. The login,
  refresh and logout routes work over the refresh-token table, which is a
  map from token to `{jti, userId, expiresAt, isRevoked}`:
  - login inserts a row;
  - refresh only reads it;
  - logout deletes it.
- **JWT signing and verification.** This is the abstract `Jwt.Codec`, a pair
  of function values (`sign`, `open`). Its laws are collected in
  `Jwt.Lawful`:
  - a signed token opens to its payload, its `iat` and its `exp`;
  - only signed tokens open;
  - tokens are non-empty.

  Expiry follows section 4.1.4 of RFC 7519: a token is accepted only while
  the current second is before `exp`. `ReferenceCodec` is a concrete codec
  that is proved lawful, so the laws can be met.
- **The client wrapper of `src/utils/apiClient.js`.** It is a state record
  stepped by discrete events: a call, a first response, the refresh
  response, the replay response, and the response of a queued replay.
  It holds:
  - the in-memory token;
  - the `isRefreshing` flag;
  - the FIFO queue of waiters;
  - the requests it sent;
  - the window events it dispatched.
- **The React provider of `src/context/AuthContext.js`.** It is a record
  stepped by the provider's events. It delivers the wrapper's window events
  to its listeners. It steps the wrapper as written
  (`ApiClient.StepAsWritten`), because that is the wrapper the provider
  imports. Its invariant therefore keeps the wrapper's bookkeeping
  (`ApiClient.Consistent`). It does not keep the absence of stranded
  waiters, which only the corrected wrapper guarantees.
- **Routing rules:**
  - `src/middleware.js`;
  - `src/lib/authConfig.js`;
  - the redirect decision of `src/components/AuthGuard.js`.
- **Pure utilities:**
  - the response envelopes, pagination and error mapping of
    `src/utils/apiResponse.js`;
  - the validators of `src/utils/validation.js`;
  - the two cookie readers of `src/utils/cookieSync.js` and
    `src/utils/authUtils.js`.
- **Domain rules:**
  - the age calculation, the `[Q_ID=…]` tag and the scenario choice of the
    chat route;
  - the pending/active lifecycle and the role-scoped POST, GET and DELETE
    rules of the parent–child relationship route.

These are parameters of the model:
- clocks (`nowMs`, `today`);
- randomness (`random16`, `pick`);
- bcrypt's `compare`;
- `decodeURIComponent` and `encodeURIComponent`;
- `jwtDecode`;
- each LLM provider's request (`backend`); the router's dispatch and
  fallback around it are modelled.

A thrown JavaScript error is an `Err` value, or the route's catch branch
applied to its message. A database that fails is a `Db.Database` whose
`fault` is set: every query then throws that message.

Several routes send a failure to 401 when its message contains `token` or
`Authorization`. The model states two consequences of that rule as lemmas:
- `Refresh.DatabaseErrorNamingTableIs401`: in the refresh route, a database
  error that names the `refresh_tokens` table is answered 401, not 500.
- `Chat.MalformedBodyCanLookUnauthenticated`: in the chat route, a
  JSON-parse error that mentions `token` is answered 401.

`Session.RefreshAtStoredExpiryRejected` states a related boundary fact. The
stored `expires_at` is never the check that rejects a refresh: at that
instant the JWT's own `exp` has already passed.

## Model

| member | source | states |
|---|---|---|
| Jwt.LoadSecrets | src/lib/auth.js:7-12 | the module loads only when both secrets are set and non-empty, and otherwise fails with the fixed message |
| Jwt.VerifyWith | src/lib/auth.js:52-69 | verification succeeds exactly when the token opens under the key before its `exp`; every failure, expired or forged, carries the one fixed message given for that token kind |
| Jwt.VerifyAccessTokenFromHeader | src/lib/auth.js:76-83 | a missing header, or one not starting with the case-sensitive `Bearer `, gives the header message; otherwise the token after the first 7 characters is verified as an access token; no other error is possible |
| Jwt.TokenErrorsAreAuthMessages | src/lib/auth.js:56 | the access, refresh and header messages all contain `token` or `Authorization`, which callers map to 401 |
| Jwt.HeaderGateFailuresAreAuthMessages | src/lib/withAuth.js:27-29 | every failure of the Bearer gate falls on the 401 side of the callers' substring rule |
| Jwt.AccessTokenRoundTrip | src/lib/auth.js:18-28 | a generated access token verifies for 15 minutes to exactly the five fields id, email, role, first_name, last_name, with the iat and exp it was issued with, and is rejected afterwards |
| Jwt.RefreshTokenRoundTrip | src/lib/auth.js:33-39 | a generated refresh token verifies under the refresh secret for 7 days to exactly {id, jti}, and is rejected afterwards |
| Jwt.BearerHeaderRoundTrip | src/lib/auth.js:81 | prefixing a token with `Bearer ` and passing it through the gate is the same as verifying the token itself |
| Jwt.UnsignedTokenFails | src/lib/auth.test.js:31-34 | a token the codec never produced fails with "Invalid or expired access token" |
| Jwt.GenerateJti | src/lib/auth.js:44-46 | the jti is 32 lower-case hex characters that decode back to the 16 random bytes |
| Jwt.HexRoundTrip | src/lib/auth.js:45 | hex encoding loses nothing: decoding the hex string of any bytes returns them |
| Jwt.JtiInjective | src/lib/auth.js:44-46 | different random bytes give different jtis |
| WithAuth.Caught | src/lib/withAuth.js:27-40 | a caught error is 401 with its own message exactly when that message contains `token` or `Authorization`, and 500 otherwise |
| WithAuth.WithAuth | src/lib/withAuth.js:13-42 | the token is verified first; a role outside a non-empty allow-list gives 403; otherwise the handler runs with the decoded user and the unchanged params, its result is returned, and its error is caught: 401 exactly when the message mentions `token` or `Authorization`, else 500 |
| WithAuth.RejectionIgnoresHandler | src/lib/withAuth.js:16-23 | when verification or the role check fails, the reply does not depend on the handler, so the handler never runs |
| WithAuth.HandledMeansAuthenticated | src/lib/withAuth.js:16-25 | a handled request carried a `Bearer` header that verified, and its role is in the list when the list is non-empty |
| WithAuth.EmptyRoleListOnlyAuthenticates | src/lib/withAuth.js:18 | with an empty allow-list every authenticated role reaches the handler |
| Login.CheckCredentials | src/app/api/users/login/route.js:17-29 | a user is admitted only when it is the row found under the (ASCII) lower-cased, trimmed email and the password compares equal to its hash |
| Login.LoginChildProfileId | src/app/api/users/login/route.js:31-37 | a childProfileId is reported only for a child, and is reported whenever a profile row with that `user_id` exists |
| Login.Fail | src/app/api/users/login/route.js:12-29 | a refused login is an error envelope with its status and message, and sets no cookie |
| Login.OpenSession | src/app/api/users/login/route.js:39-74 | a successful login inserts one row keyed by the new refresh token, holding the jti, the user id and an expiry 7 days on; it sets that token as an httpOnly, lax, path `/` cookie expiring with the row; and it answers with the access token and the user summary |
| Login.Login | src/app/api/users/login/route.js:10-79 | a missing email or password is 400; an unknown email or a wrong password is 401; a store failure or a missing body is 500; success happens exactly when the credentials check; a failed login changes nothing and sets no cookie |
| Login.FailedLoginsAreIndistinguishable | src/app/api/users/login/route.js:21-29 | an unknown email and a wrong password give the identical reply |
| Login.NewTokenMatchesRow | src/app/api/users/login/route.js:40-47 | the token stored in the new row opens under the refresh secret to that row's user id and jti |
| Login.OpenSessionPreservesWellFormedStore | src/app/api/users/login/route.js:39-47 | inserting the new row keeps every row keyed by its own token, and every token openable to the row's user and jti |
| Login.LoginPreservesWellFormedStore | src/app/api/users/login/route.js:10-79 | every outcome of login keeps the refresh-token table well formed |
| Login.FreshSessionAddsOneRow | src/app/api/users/login/route.js:47 | a login whose token is new adds exactly one row and one jti to the table |
| Login.JtisOfInsert | src/app/api/users/login/route.js:47 | the jtis after an insert are the previous ones plus the new row's jti |
| Refresh.Caught | src/app/api/auth/refresh/route.js:60-66 | a caught error is 401 with its message exactly when the message contains `token`, and 500 with the fixed text otherwise |
| Refresh.RefreshChildProfileId | src/app/api/auth/refresh/route.js:38-44 | a childProfileId is reported only for a child, and is reported whenever a profile row with that `child_user_id` exists |
| Refresh.Refresh | src/app/api/auth/refresh/route.js:6-66 | 200 exactly when the cookie is present, its row exists, is not revoked and is not past `expires_at`, the token verifies, and the user still exists; the new access token is minted from the current user row; a missing cookie or a refused row is 401; 500 only for a store error without `token` in it; the store is never written |
| Refresh.RefreshMessageMentionsToken | src/app/api/auth/refresh/route.js:62-63 | the refresh-token failure message is routed to 401 by the substring rule |
| Refresh.RefreshServesRowOwner | src/app/api/auth/refresh/route.js:22-35 | on success the user answered is the owner of the stored row, in a well-formed table |
| Refresh.DatabaseErrorNamingTableIs401 | src/app/api/auth/refresh/route.js:60-66 | a store error whose message names the `refresh_tokens` table is answered 401 with that message, not 500 |
| Logout.ClearCookie | src/app/api/users/logout/route.js:22-28 | the cleared cookie is `refreshToken`, empty, expiring at the epoch, httpOnly, secure only in production, SameSite strict, on path `/` |
| Logout.Logout | src/app/api/users/logout/route.js:8-33 | the reply is always 200 "Logged out successfully" with the cleared cookie; with a cookie and a working store exactly that token's row is removed; a store failure or a missing cookie changes nothing; nothing but the token table changes |
| Logout.LogoutIdempotent | src/app/api/users/logout/route.js:12-33 | logging out twice with the same cookie gives the same reply and the same store as once |
| Logout.LogoutShrinksStore | src/app/api/users/logout/route.js:12-16 | logout never adds a token or a jti |
| Session.WithinTokenLifetime | src/app/api/auth/refresh/route.js:22-26 | any instant inside the refresh token's 7 days, in whole seconds, is also before the row's millisecond `expires_at` |
| Session.UserFindable | src/app/api/auth/refresh/route.js:27-30 | a user row in the table is found by its id |
| Session.LoginThenRefresh | src/app/api/auth/refresh/route.js:14-58 | the cookie a successful login sets is accepted by refresh for the whole lifetime of the refresh token, while the store works and no logout intervenes |
| Session.RefreshAtStoredExpiryRejected | src/app/api/auth/refresh/route.js:22-26 | at the row's own `expires_at` the store check still passes (`now > expires_at` is strict), but the JWT has already expired, so the refresh is 401 |
| Session.LogoutThenRefreshRejected | src/app/api/users/logout/route.js:15 | after logout with a token, refresh with that token is 401 whatever the token's lifetime |
| Session.LoginAccessTokenAuthenticates | src/app/api/users/login/route.js:42-44 | for 15 minutes the access token from a login passes the Bearer gate with exactly the logged-in user's five fields |
| ApiClient.TokenReachesNextRequest | src/utils/apiClient.js:21-42 | a token stored with `setAccessToken` changes nothing else, and the next new call's request carries `Bearer <token>` when it is non-empty and otherwise only the caller's own `Authorization` |
| ApiClient.PrepareHeaders | src/utils/apiClient.js:31-42 | `Authorization: Bearer <token>` is present exactly when a non-empty token is held; Content-Type is defaulted; every other caller header is kept and nothing else is added |
| ApiClient.RefreshError | src/utils/apiClient.js:60-64 | a non-ok refresh reports the body's `error` when it is non-empty, else the session-expired text; a thrown refresh reports its own error |
| ApiClient.ResolveQueue | src/utils/apiClient.js:9-18 | every queued waiter is resumed exactly once with the new token, in queue order, and nothing else changes |
| ApiClient.RejectQueue | src/utils/apiClient.js:9-18 | every queued waiter is rejected with the same error, and nothing else changes |
| ApiClient.StepAsWritten | src/utils/apiClient.js:44-116 | one event of the wrapper as written: a non-401 first response is returned; a 401 while idle sends exactly one refresh POST and sets the flag; a 401 while refreshing only enqueues; a refresh success stores the token, dispatches `tokenRefreshed`, replays the owner once and resumes each waiter with the new token; a failure rejects the waiters, dispatches `logout` and clears the flag; the flag is cleared only after the replay; a network error on the first fetch touches nothing |
| ApiClient.FinishRefresh | src/utils/apiClient.js:67-81 | a successful refresh stores the new token, dispatches `tokenRefreshed` with the response body, empties the queue, resumes every waiter with `Bearer <new token>` and sends the owner's replay with that header and no second refresh POST; when the queue holds distinct waiting calls, one request per waiter follows the replay, in queue order |
| ApiClient.RefreshOkResumesWaiters | src/utils/apiClient.js:76-101 | with consistent bookkeeping, a refresh success sends exactly the owner's replay followed by one request per queued call, in queue order, each with the new bearer header |
| ApiClient.FailRefresh | src/utils/apiClient.js:83-91 | a failed refresh rejects the owner and every waiter with the one error, dispatches exactly one `logout`, empties the queue and clears the flag |
| ApiClient.Step | src/utils/apiClient.js:77-91 | the corrected wrapper: identical to the original except that, when the owner's replay returns, every waiter queued during the replay is resumed with `Bearer <new token>` and sends its request again, in queue order, before the flag is cleared; the token and the dispatched events are kept |
| ApiClient.InitialInv | src/utils/apiClient.js:4-6 | the initial state (no token, no refresh, empty queue) satisfies the invariant |
| ApiClient.FailRefreshConsistent | src/utils/apiClient.js:83-91 | after a refresh failure no owner or waiter remains and the state stays consistent |
| ApiClient.RefreshOkConsistent | src/utils/apiClient.js:67-81 | after a refresh success the state stays consistent: the queue is drained and only the owner is active |
| ApiClient.ReplayDoneConsistent | src/utils/apiClient.js:80-91 | in the corrected wrapper, the end of the owner's replay leaves no waiter stranded |
| ApiClient.FirstResponseConsistent | src/utils/apiClient.js:46-49 | a first response keeps the flag, the owner and the queue consistent |
| ApiClient.StepAsWrittenConsistent | src/utils/apiClient.js:44-116 | every step of the original keeps at most one refresh in flight, with the flag set exactly while an owner exists |
| ApiClient.StepInv | src/utils/apiClient.js:44-116 | every step of the corrected wrapper keeps that invariant and never leaves a waiter with no refresh in flight |
| ApiClient.RunInv | src/utils/apiClient.js:44-116 | every sequence of events keeps the invariant of the corrected wrapper |
| ApiClient.OwnerResponseDrainsQueue | src/utils/apiClient.js:9-18 | when the owner's refresh settles, whether ok or failed, the queue is emptied and every waiter is settled once, in FIFO order |
| ApiClient.RunAppend | src/utils/apiClient.js:44-116 | running two event sequences one after the other is running their concatenation |
| ApiClient.RunAgree | src/utils/apiClient.js:80-91 | on traces where no replay returns a response, the corrected wrapper and the original agree |
| ApiClient.PrefixState | src/utils/apiClient.js:94-105 | after two calls, a 401 on the first, a refresh success, and a 401 on the second during the replay, the second call is queued behind a replay still in flight |
| ApiClient.AsWrittenStrandsWaiter | src/utils/apiClient.js:80-91 | as written, once that replay returns, the flag is clear, no refresh is in flight, and the queued call is still waiting |
| ApiClient.ReplayReturnsAsWritten | src/utils/apiClient.js:80-91 | as written, the replay's return only clears the flag and settles the owner; the queue is not processed |
| ApiClient.StrandedUntilAnother401 | src/utils/apiClient.js:94-105 | as written, a stranded waiter stays waiting through any events in which no other request receives a 401 |
| ApiClient.CorrectedResumesWaiter | src/utils/apiClient.js:77-81 | with the correction, the same trace ends with the waiter replaying with the new token and the queue empty |
| AuthContext.Initial | src/context/AuthContext.js:14-17 | the provider starts with no user, not authenticated, loading, not initialised, and the wrapper in its initial state |
| AuthContext.HandleLogout | src/context/AuthContext.js:20-28 | logout clears the token, the user and the flag before the logout request goes out (without a bearer header), and leaves loading and initialisation alone |
| AuthContext.OnTokenRefreshed | src/context/AuthContext.js:65-70 | the `tokenRefreshed` listener overwrites the token and the user only when the event carries them, and always sets authenticated |
| AuthContext.FinishCheck | src/context/AuthContext.js:30-60 | checkAuthStatus ends with loading false and initialised true; success installs the response's token and user; a non-ok response or a throw clears token, user and authenticated |
| AuthContext.LogoutEventIsLogout | src/context/AuthContext.js:72-75 | the `logout` event performs exactly the logout transition |
| AuthContext.LogoutAlwaysNavigates | src/context/AuthContext.js:25-27 | once the logout request has settled, whether it succeeded or failed, the provider navigates to /login |
| AuthContext.InitialInv | src/context/AuthContext.js:14-17 | the initial provider satisfies the provider invariant |
| AuthContext.HandleLogoutInv | src/context/AuthContext.js:20-28 | logout keeps the provider invariant |
| AuthContext.Deliver | src/context/AuthContext.js:65-75 | the window-event listeners leave loading, initialisation, navigation and the wrapper's event log alone; only `logout` queues a logout request; a final `tokenRefreshed` leaves the visitor authenticated and a final `logout` leaves neither token nor user |
| AuthContext.DeliverInv | src/context/AuthContext.js:65-75 | delivering the wrapper's window events keeps the provider invariant |
| AuthContext.ClientStepToken | src/utils/apiClient.js:71 | a wrapper step changes the token only on a successful refresh, which then dispatches `tokenRefreshed` as its first event; events are only ever appended |
| AuthContext.Step | src/context/AuthContext.js:20-91 | checkAuthStatus starts by setting only loading; login stores the token in the wrapper, the user, and authenticated, and nothing else; a wrapper step (the as-written wrapper) with no dispatched event changes only the wrapper; a settled logout request navigates to /login and changes nothing else |
| AuthContext.StepInv | src/context/AuthContext.js:20-91 | every provider event, including login, keeps the invariant: a provider reporting the visitor as logged out holds neither a token nor a user, and the as-written wrapper's bookkeeping holds |
| AuthContext.Lookup | src/context/AuthContext.js:11 | outside a provider, the context value is the `createContext` default, null |
| AuthContext.UseAuthAsWritten | src/context/AuthContext.js:110-116 | as written, `useAuth` throws exactly when the context value is undefined |
| AuthContext.GuardNeverFires | src/context/AuthContext.js:11 | because the default is null, not undefined, the `useAuth` guard never fires, and outside a provider `useAuth` returns null |
| AuthContext.UseAuth | src/context/AuthContext.js:110-116 | corrected: `useAuth` returns the provider's value, and throws the "must be used within an AuthProvider" error otherwise |
| AuthContext.UseAuthOutsideProviderThrows | src/context/AuthContext.js:110-116 | with the correction, use outside a provider throws and use inside returns that provider |
| AuthConfig.PublicPathShape | src/lib/authConfig.js:28-40 | a public path is a public page or starts with `/api/`, so every public page is a public path |
| AuthConfig.PrefixesExtend | src/lib/authConfig.js:14-21 | prefix matching makes anything that extends a listed prefix public, `/api/auth/refresh` included |
| AuthConfig.PublicIsNeverAdmin | src/lib/authConfig.js:6-11 | no public path is an admin page |
| Middleware.Middleware | src/middleware.js:7-41 | a redirect happens exactly when the path is not one of `/api/`, `/_next`, `.ico` or the four public pages and no refreshToken cookie is present; the redirect goes to /login with the path as `redirectTo` |
| Middleware.Edge | src/middleware.js:43-45 | paths the matcher excludes are never redirected; a redirect needs a matched path and no cookie |
| Middleware.PassPagesArePublicPages | src/middleware.js:16 | the middleware's public list is exactly the public pages of the configuration |
| Middleware.PublicPathsPass | src/middleware.js:20-28 | a public page passes with or without a cookie |
| Middleware.NoRedirectLoop | src/middleware.js:16 | /login itself always passes, so the redirect cannot loop |
| Middleware.OnlyPresenceMatters | src/middleware.js:39-40 | any cookie value lets a page through; validity is not checked |
| Middleware.RedirectRemembersPath | src/middleware.js:33-34 | two different paths redirect to different locations when the encoder is injective |
| Middleware.MatcherSkipsApiLikePages | src/middleware.js:43-45 | a page such as `/apidocs` would be redirected by the function, but the matcher excludes it, so it is never checked |
| AuthGuard.Dashboard | src/components/AuthGuard.js:24-25 | admin goes to /admin/users, parent to /children, child to /chat, and any other role to / |
| AuthGuard.ReturnTo | src/components/AuthGuard.js:33 | the return target is the path, followed by `?query` only when the query is non-empty |
| AuthGuard.Decide | src/components/AuthGuard.js:15-36 | nothing happens before initialisation; an authenticated user on an auth page goes to the role dashboard; a non-admin on an admin page goes to /; an anonymous user on a non-public page goes to `/login?redirectTo=`; every other case stays |
| AuthGuard.DashboardFitsRole | src/components/AuthGuard.js:24-30 | a dashboard is an admin page exactly for admins, and is never an auth page |
| AuthGuard.AuthenticatedRedirectSettles | src/components/AuthGuard.js:21-30 | after one redirect an authenticated user stays where sent |
| AuthGuard.AnonymousRedirectSettles | src/components/AuthGuard.js:31-35 | an anonymous user stays on /login and on public pages, and is sent under /login from anything else |
| AuthGuard.AgreesWithMiddleware | src/components/AuthGuard.js:31-35 | for a visitor without a session, the guard redirects exactly when the middleware does |
| ApiResponse.KeepTruthy | src/utils/apiResponse.js:38-60 | an optional key is kept exactly when its value is truthy |
| ApiResponse.SuccessResponse | src/utils/apiResponse.js:38-60 | the success envelope carries the status, the data, and message and meta only when truthy |
| ApiResponse.ErrorResponse | src/utils/apiResponse.js:70-101 | the error envelope always carries error.message, carries code only when truthy, and carries details and meta as given |
| ApiResponse.AuthErrorResponse | src/utils/apiResponse.js:108-113 | the auth builder answers 401 with the given message or the default one, no details and no meta; an omitted code becomes `AUTH_REQUIRED`, and a given code is kept exactly when it is non-empty |
| ApiResponse.ForbiddenResponse | src/utils/apiResponse.js:120-125 | the forbidden builder answers 403 with the given message or the default one, no details and no meta; an omitted code becomes `FORBIDDEN`, and a given code is kept exactly when it is non-empty |
| ApiResponse.ValidationErrorResponse | src/utils/apiResponse.js:132-144 | validation errors answer 400 VALIDATION_ERROR; a string is wrapped as `{general}` and per-field errors are kept |
| ApiResponse.NotFoundResponse | src/utils/apiResponse.js:151-163 | not-found answers 404 NOT_FOUND with details `{resource}`, and the message defaults to "<resource>が見つかりません" |
| ApiResponse.ConflictResponse | src/utils/apiResponse.js:170-182 | conflict answers 409 CONFLICT with details `{resource}`, and the message defaults to "<resource>は既に存在します" |
| ApiResponse.ServerErrorResponse | src/utils/apiResponse.js:189-207 | a server error answers 500 INTERNAL_ERROR and has details only in development when an error is given |
| ApiResponse.CeilDiv | src/utils/apiResponse.js:224 | totalPages is the least page count whose pages hold all the items |
| ApiResponse.PaginatedResponse | src/utils/apiResponse.js:217-240 | the pagination meta carries the inputs, totalPages = ceil(total/limit), hasNext exactly when page < totalPages, and hasPrev exactly when page > 1 |
| ApiResponse.HasNextIffItemsRemain | src/utils/apiResponse.js:224-225 | hasNext holds exactly when items remain beyond the current page |
| ApiResponse.HandleAuthError | src/utils/apiResponse.js:246-251 | 401 TOKEN_INVALID with a prefixed message exactly when the message contains `token` or `Authorization`, else 500 |
| ApiResponse.HandleDatabaseError | src/utils/apiResponse.js:258-284 | 23505 gives 409; 23503 and 23502 give 400; 42703 gives 500 without details; any other code gives 500 naming the operation |
| Validation.IsValidUuid | src/utils/validation.js:4-7 | true exactly for a string of length 36 over hex digits and `-` |
| Validation.DashesAreNotPositional | src/utils/validation.js:6 | dash positions are not checked: 36 dashes pass |
| Validation.JtiIsNotUuid | src/lib/auth.js:44-46 | a 32-character jti is never a valid UUID |
| Validation.IndexOf | src/utils/validation.js:11 | the first position of a character, or -1 exactly when it is absent |
| Validation.EmailScanIsPattern | src/utils/validation.js:11 | the single-pass scan accepts exactly the strings the email pattern describes |
| Validation.IsValidEmail | src/utils/validation.js:9-12 | true exactly for strings matching the pattern, and false for every non-string |
| Validation.EmailInWords | src/utils/validation.js:11 | the pattern means exactly one `@`, no whitespace, a non-empty local part, and a `.` in the domain that is neither its first nor its last character |
| Validation.Sanitize | src/utils/validation.js:18-21 | non-strings give ""; strings give their trimmed slice with no space at either end |
| Validation.SanitizeIdempotent | src/utils/validation.js:18-21 | sanitising twice is the same as once |
| Strings.TrimIsTrimmedSlice | src/utils/validation.js:20 | trim yields a contiguous slice that drops only whitespace at both ends |
| Strings.TrimIdempotent | src/utils/validation.js:20 | trimming twice is the same as once |
| Strings.SplitJoin | src/utils/cookieSync.js:46 | `split` loses nothing: joining the pieces with the separator restores the string |
| Strings.SplitFirstPiece | src/utils/cookieSync.js:48 | without the separator `split` gives the whole string; with it, at least two pieces, the first being a prefix |
| CookieSync.PieceValue | src/utils/cookieSync.js:48 | a piece without `=` has an undefined value; otherwise the value is the trimmed run that starts right after the first `=` and ends at the next `=` or the end of the piece |
| CookieSync.ReadCookieHeader | src/utils/cookieSync.js:44-54 | the header is split on `;`, each piece on `=` and trimmed, and the first piece whose name equals the target gives the decoded value |
| CookieSync.GetCookieClientSide | src/utils/cookieSync.js:108-124 | without a document the result is null; otherwise it is the first piece with the target name, by the same rule |
| CookieSync.SetCookieMatch | src/utils/cookieSync.js:29-30 | the Set-Cookie regex finds the first occurrence of `name=` followed by a non-`;` character, anywhere in the header |
| CookieSync.SetCookieSource | src/utils/cookieSync.js:24-39 | the Set-Cookie source decodes the run of non-`;` characters after the first match, and is null when there is no header or a present header has no match |
| CookieSync.GetServerCookie | src/utils/cookieSync.js:8-62 | the cookies API value wins, then the Set-Cookie header, then the Cookie header; the result is null exactly when no source yields a value |
| CookieSync.ServerAndClientReadersAgree | src/utils/cookieSync.js:44-54 | the server's Cookie-header reader and the client reader give the same result on the same string |
| CookieSync.FirstSourceWins | src/utils/cookieSync.js:12-22 | a present cookies-API value is returned whatever the headers say |
| CookieSync.SetCookieMatchIsUnanchored | src/utils/cookieSync.js:29 | the Set-Cookie regex is unanchored: a longer cookie name that ends in the target name matches |
| CookieSync.PieceWithoutEqualsIsUndefined | src/utils/cookieSync.js:48-50 | a bare name with no `=` decodes the string "undefined" |
| CookieSync.DeletionStrings | src/utils/cookieSync.js:129-151 | there are 4 deletion strings on localhost and 6 elsewhere, each for the name with an empty value and either max-age=0 or the epoch expiry |
| CookieSync.DeletionShapes | src/utils/cookieSync.js:135-145 | every deletion string carries max-age=0 or the epoch expiry |
| AuthUtils.CookieMatch | src/utils/authUtils.js:23 | the name matches only at the start of the string or after `;` and optional whitespace, and the first such match is taken |
| AuthUtils.GetCookie | src/utils/authUtils.js:19-25 | without a document or a match the result is null; otherwise the decoded run up to the next `;`, which may be empty or contain `=` |
| AuthUtils.IsTokenValid | src/utils/authUtils.js:54-71 | valid exactly when a non-empty cookie decodes and its exp is missing, zero or still ahead; an expired or undecodable token also removes the cookie |
| AuthUtils.GetUserFromToken | src/utils/authUtils.js:73-92 | null unless the token is valid, otherwise the projection onto id, email, first_name, last_name and role |
| AuthUtils.ValidTokenYieldsUser | src/utils/authUtils.js:73-87 | a valid token always yields a user |
| AuthUtils.ClientExpiryMatchesServer | src/utils/authUtils.js:60-62 | the client's `now >= exp` test rejects at exactly the instant the server's verification does |
| AuthUtils.MissingExpNeverExpires | src/utils/authUtils.js:62 | a token without exp stays valid at every later time |
| AuthUtils.ReadersDisagreeOnLongerNames | src/utils/authUtils.js:23 | for a longer cookie name ending in the target, the anchored reader finds nothing while the Set-Cookie reader matches |
| AuthUtils.LeadingCookieFound | src/utils/authUtils.js:23 | a cookie at the start of the string is found at position 0 |
| Chat.CalculateAge | src/app/api/chat/route.js:13-23 | no birthday gives null; otherwise the age is the year difference less one if the birthday has not yet come this year, that is, the n with n years reached and n+1 not |
| Chat.AgeIsUnique | src/app/api/chat/route.js:17-22 | the computed age is the only n with n years reached and n+1 not |
| Chat.SuitableFor | src/app/api/chat/route.js:86-97 | the age filter keeps exactly the questions with both bounds set and min <= age <= max |
| Chat.Candidates | src/app/api/chat/route.js:86-97 | an age of 0 or null leaves every question a candidate, and any other age keeps exactly the suitable ones |
| Chat.Draw | src/app/api/chat/route.js:96 | the random draw always returns a row of the candidates |
| Chat.DrawReachesEveryRow | src/app/api/chat/route.js:96 | every candidate row can be drawn |
| Chat.IdRun | src/app/api/chat/route.js:28 | the id is the longest run of hex digits and `-` starting at the position |
| Chat.FindTag | src/app/api/chat/route.js:28 | finds the leftmost `[Q_ID=` with a non-empty id run closed by `]`, or reports none |
| Chat.ExtractQuestionId | src/app/api/chat/route.js:28 | null exactly when no tag occurs; otherwise a well-formed id taken at the leftmost tag |
| Chat.Tag | src/app/api/chat/route.js:102 | the tagged text begins with the question text and has room for exactly ` [Q_ID=`, the id and `]` |
| Chat.TagRoundTrip | src/app/api/chat/route.js:28 | for an id over hex digits and `-`, appended to a text that holds no tag, extraction returns the id |
| Chat.LastAssistant | src/app/api/chat/route.js:36-39 | finds the user's most recent assistant message, or reports none exists |
| Chat.ExchangeIsLastAssistant | src/app/api/chat/route.js:36-39 | after a logged turn, the next request sees that turn's reply as the last assistant message |
| Chat.ChooseScenario | src/app/api/chat/route.js:47-129 | evaluation exactly when the last reply's tag names an existing question; otherwise a question only when the message contains 問題 or クイズ and a suitable question exists; otherwise conversation; a missing message without a tag throws |
| Chat.Caught | src/app/api/chat/route.js:131-136 | an error is 401 with the auth prefix exactly when it contains `token` or `Authorization`, otherwise 500 with the fixed text, and nothing is logged |
| Chat.FetchLlm | src/lib/llmRouter.js:12-29 | `fetchLLM` never rejects: a known provider's reply is returned as is, and an unknown provider or any throw becomes the fallback text |
| Chat.Answered | src/app/api/chat/route.js:67-73 | a reply from the LLM is returned with 200, earlier log rows are kept, and the next request reads the reply back as the last assistant message; a rejected call would log nothing and go to the catch block, which `fetchLLM` never lets happen |
| Chat.LlmFailureIsAnswered | src/app/api/chat/route.js:118-128 | a failing LLM or an unknown provider in a conversation turn answers 200 with the fallback text, which is logged as the assistant's reply |
| Chat.Post | src/app/api/chat/route.js:30-137 | the status is 200, 401 or 500; failures log nothing; success logs exactly the turn; an authentication failure is 401; an unparsable body, and then a database fault, go to the catch block with their own message; an asked question is returned untagged while the log holds the tagged text; a turn that calls the LLM is always 200 |
| Chat.MessageUndefinedIsNotAuth | src/app/api/chat/route.js:80 | the TypeError from reading a missing message contains neither `token` nor `Authorization`, so it is 500 |
| Chat.QuestionByOwnId | src/app/api/chat/route.js:49-53 | with unique ids, a question is found by its own id |
| Chat.AskedQuestionIsEvaluatedNext | src/app/api/chat/route.js:47-115 | after a turn that asks question q, the next turn of the same user evaluates q |
| Chat.MalformedBodyCanLookUnauthenticated | src/app/api/chat/route.js:131-136 | a body-parse error that mentions `token` is answered 401 even with a valid access token |
| Relationships.Caught | src/app/api/parent-child-relationships/route.js:89-95 | an error is 401 with the auth prefix exactly when it contains `token` or `Authorization`, otherwise 500 with the route's text, and the rows are unchanged |
| Relationships.ChildUserByEmail | src/app/api/parent-child-relationships/route.js:23-30 | finds a child user under the (ASCII) lower-cased, trimmed email, or reports none exists |
| Relationships.HasProfileQuery | src/app/api/parent-child-relationships/route.js:35-42 | true exactly when a children row has that user id |
| Relationships.NewRow | src/app/api/parent-child-relationships/route.js:60-76 | a new row is active exactly when the creator is admin or autoApprove is set, and pending otherwise; approved_by and approved_at are set exactly when it is active |
| Relationships.Create | src/app/api/parent-child-relationships/route.js:45-87 | an existing active or pending pair gives 409 and no change; otherwise the new row is appended, with the message for its status |
| Relationships.Admit | src/app/api/parent-child-relationships/route.js:13-87 | a missing childEmail is 400 before the role is checked; a role other than parent or admin is 403; a failing database goes to the catch block; no child user is 404; no child profile is 400; otherwise the outcome is exactly `Create` for that child; a failure leaves the rows unchanged |
| Relationships.FindChild | src/app/api/parent-child-relationships/route.js:22-87 | past the two checks, on a working database: no child user with that email is 404, a child without a profile is 400, otherwise the outcome is `Create` for that child; a creation links the caller to a child user with a profile |
| Relationships.Post | src/app/api/parent-child-relationships/route.js:9-96 | authentication failures are 401; an unparsable body goes to the catch block with its message; any non-200 leaves the rows unchanged; an authenticated, parsed request is decided as above |
| Relationships.RepeatedRequestRefused | src/app/api/parent-child-relationships/route.js:45-57 | sending the same successful request again is refused with 409 |
| Relationships.InsertStatementAsWritten | src/app/api/parent-child-relationships/route.js:64-76 | as written, an active row's INSERT names $6 and $7 with six parameters, and a pending row's names $1 to $4 with four |
| Relationships.ActiveInsertFailsAsWritten | src/app/api/parent-child-relationships/route.js:64-76 | the pending INSERT binds its parameters, but the active one does not: $5 is unused and $7 is unbound |
| Relationships.InsertStatement | src/app/api/parent-child-relationships/route.js:64-76 | corrected: the active INSERT uses $5 and $6 with six parameters |
| Relationships.InsertBinds | src/app/api/parent-child-relationships/route.js:64-76 | with the correction, both INSERT forms bind exactly their parameters |
| Relationships.StatusFilter | src/app/api/parent-child-relationships/route.js:103 | the status parameter defaults to "active" |
| Relationships.Get | src/app/api/parent-child-relationships/route.js:98-184 | a parent sees its own links, a child the links to it, and an admin every link, each under the status filter (admin with "all": no filter) and only where the joined users exist; the list is newest first, each link as often as stored; other roles get 403; a token error or a database failure goes to the catch block (401 for an authentication message, else 500); nothing changes |
| Relationships.ReverseKeepsElements | src/app/api/parent-child-relationships/route.js:118 | the descending order keeps exactly the filtered rows |
| Relationships.AdminAllSeesEveryStatus | src/app/api/parent-child-relationships/route.js:161-163 | "all" removes the status filter for an admin only; parents and children get no row whose status is not literally "all" |
| Relationships.DeleteWhere | src/app/api/parent-child-relationships/route.js:201-249 | exactly the rows in scope are removed; 404 exactly when none is in scope |
| Relationships.Delete | src/app/api/parent-child-relationships/route.js:187-257 | neither id nor childEmail is 400; by id a non-admin removes only links it is parent or child of; by email an unknown child is 404 and a known one removes only links it is parent of; an admin is unrestricted; no removed row lies outside that scope; a token error or a database failure goes to the catch block |
| Relationships.NonAdminDeletesOnlyOwnLinks | src/app/api/parent-child-relationships/route.js:203-237 | every row a non-admin deletes names the caller as parent, or, by id, as child |
| Relationships.DeleteKeepsTheRest | src/app/api/parent-child-relationships/route.js:240-249 | the removed rows and the kept rows together account for every row |

## Left out

- Jwt: the JWT wire format, the HMAC signature and jsonwebtoken's clock tolerance are behind the abstract codec and its laws. `ReferenceCodec` only shows that the laws can be met.
- bcrypt, `crypto.randomBytes`, `jwtDecode`, `decodeURIComponent`, `encodeURIComponent`, the provider requests of the LLM router, `Date.now()` and `ORDER BY RANDOM()` are parameters: `compare`, `random16`, `jwtDecode`, `decode`, `encode`, `backend`, `nowMs`/`today` and `pick`. The router's dispatch and its catch-all fallback are modelled (`Chat.FetchLlm`); the HTTP bodies of the four providers and their `(no response)` defaults are inside `backend`.
- `src/lib/db.js`, the repositories and all SQL text are not part of this model. Tables are sequences of rows, and a database failure is the `fault` field. A single-row lookup (`rows[0]`) is modelled as "first matching row".
- Chat.CalculateAge: the day arithmetic of JavaScript `Date` and time zones are not modelled; `today` is a calendar date passed in.
- Chat.Post: the wording of the prompts sent to the LLM is not modelled, only which question, answer, explanation and system prompt are passed. The database's rejection of a tagged id that is not a UUID is not modelled.
- Chat.Post and Relationships.Post: a JSON body with non-string values is not modelled; fields are optional strings.
- Login.Login: the credentials are optional strings. A truthy non-string email (a number, an object) makes `email.toLowerCase()` throw in the source (src/app/api/users/login/route.js:19), which the catch block answers with 500; that path is not modelled.
- CookieSync.SetCookieSource: the cookie name is matched literally. The source pastes it into `new RegExp(name + '=([^;]+)')`, so a name with regular-expression syntax would change the pattern; the model agrees with the source only for plain names (`CookieSync.PlainName`), which all callers use. The same holds for CookieSync.GetServerCookie, which consults it.
- Relationships.Get: the `type` query parameter is read but never used by the source, and it is left out. The columns joined in for display are left out; only the existence of the joined users is kept.
- Relationships.Get: the `LEFT JOIN children` of the parent and admin queries (route.js:121, :160) returns a link once per child profile of the child user, so a link can be listed more than once; the model lists each stored link once.
- Relationships.Get: `ORDER BY created_at DESC` is modelled as the reverse of the table's order, which is taken to be the order of creation; equal timestamps are not modelled.
- Login.CheckCredentials: `toLowerCase` is modelled for the ASCII letters 'A' to 'Z' only (`Strings.ToLower`). JavaScript lower-cases every Unicode letter and can change a string's length, so emails with other upper-case letters are not normalised as in the source.
- AuthContext.StepInv: the provider's invariant keeps only the wrapper's bookkeeping (`ApiClient.Consistent`), not `ApiClient.NoStrandedWaiter`. The provider steps the wrapper as written, and `ApiClient.AsWrittenStrandsWaiter` shows that this wrapper can strand a waiter.
- Relationships.ChildUserByEmail: the same ASCII-only `toLowerCase` as Login.CheckCredentials applies to the child's email.
- Relationships.Admit: it models the intended INSERT, that is, the corrected placeholders, per the finding below.
- ApiResponse.PaginatedResponse: a limit of 0 or less (Infinity or NaN in JavaScript) is excluded by its precondition, and the ISO timestamps of all envelopes are omitted.
- AuthGuard.Decide: `router.replace` is returned as a decision, and the loading markup is not modelled. Role lookups that hit `Object.prototype` keys are not modelled.
- AuthUtils.GetCookie: only cookie names without regex metacharacters are modelled (`CookieSync.PlainName`). The cookie strings written by `removeAuthCookie` and `setAuthCookie` are not modelled; only the fact that the cookie is removed is.
- `ensureCookieSync` and `forceAuthRefresh` of `src/utils/cookieSync.js` write cookies and set timers; they are left out as effects.
- `isValidRole` of `src/utils/validation.js` refers to `USER_ROLES`, which is never imported, so every call throws; it is not modelled.
- Middleware.Middleware: the origin of the redirect URL is left out; only the path and the `redirectTo` parameter are modelled.
- ApiClient.Step: real concurrency is modelled as an interleaving of discrete events. Response bodies other than the refresh's are not modelled, and neither is the `Content-Type` value. The separate refresh path of the admin skills page is not covered.
- UI rendering, console logging, the thin CRUD routes, the zod validation schemas and the setup scripts are outside the modelled core.

## Findings

| source | as written | input that shows it | evidently intended | confidence | as-written member | corrected member |
|---|---|---|---|---|---|---|
| src/utils/apiClient.js:77-91 | `processQueue` runs before the replay, but `isRefreshing` is only cleared in `finally` after the replay; a 401 arriving during the replay is queued behind a refresh that has already finished, and the queue is never processed again | call 1 and call 2 start; call 1 gets 401; refresh returns token `t`; call 2 gets 401 while call 1 replays; call 1's replay returns 200 | a request queued during the replay is resumed with the new token before the flag is cleared | not executed | ApiClient.AsWrittenStrandsWaiter | ApiClient.CorrectedResumesWaiter |
| src/app/api/parent-child-relationships/route.js:64-76 | the INSERT for an active row names `$6` and `$7` but passes six parameters, skipping `$5` | a POST by an admin, or with `autoApprove: true` | the active INSERT uses `$5` and `$6`, so auto-approved links can be created | not executed | Relationships.ActiveInsertFailsAsWritten | Relationships.InsertBinds |
| src/context/AuthContext.js:110-116 | the context default is `null` (line 11), but `useAuth` tests `context === undefined`, so its guard never fires | any `useAuth()` call outside an `AuthProvider` | use outside a provider throws "useAuth must be used within an AuthProvider" | not executed | AuthContext.GuardNeverFires | AuthContext.UseAuthOutsideProviderThrows |

=== FILE: api_client.dfy ===
/** The browser-side request wrapper of `src/utils/apiClient.js`: the
    in-memory access token, the `isRefreshing` flag and the queue of
    requests waiting for a refresh, stepped by the responses the event loop
    delivers. Each `apiClient` call is an entry of `calls`, keyed by an id,
    whose phase records which `await` it is suspended at. Network fetches
    are not performed: they are logged in `sent` and their results arrive
    as inputs. The window events the wrapper dispatches are logged in
    `events`.

    `StepAsWritten` follows the source. `Step` corrects one defect: in the
    source the request that ran the refresh keeps the flag set while its
    replay is in flight (the `finally` runs only after the replay), so a
    401 arriving in that window is queued after the queue was drained and,
    when the replay returns normally, nobody settles it. `Step` drains the
    queue once more, with the new token, before clearing the flag. */
module ApiClient {
  import opened Wrappers
  import Db

  const REFRESH_URL := "/api/auth/refresh"
  const SESSION_EXPIRED := "セッションの有効期限が切れました。再ログインしてください。"

  type Headers = map<string, string>

  /** Where a call is suspended, or how it ended. The owner is the call
      that started the refresh; a waiter is a call queued behind it. */
  datatype Phase =
    | AwaitFirst(url: string, headers: Headers)
    | AwaitRefresh(url: string, headers: Headers)
    | AwaitReplay(url: string, headers: Headers, newToken: string)
    | Waiting(url: string, headers: Headers)
    | AwaitQueuedReplay(url: string, headers: Headers)
    | Returned(status: nat)
    | Failed(error: string)
  {
    predicate IsOwner() { AwaitRefresh? || AwaitReplay? }
  }

  /** A fetch the wrapper issued: a request of the caller's, or the POST to
      the refresh route (sent with the cookie, without a bearer header). */
  datatype Request = Fetch(url: string, headers: Headers) | RefreshPost

  /** The body of a successful refresh, passed on as the event's detail. */
  datatype RefreshData = RefreshData(accessToken: string, user: Option<Db.SessionUser>)

  datatype WindowEvent = TokenRefreshed(detail: RefreshData) | LogoutEvent

  /** A fetch either produces a response (any status) or throws. */
  datatype FetchResult = Response(status: nat) | NetworkError(error: string)

  /** The refresh call: an ok response with its body, a non-ok response
      whose body may carry `error`, or a throw. */
  datatype RefreshResult =
    | RefreshOk(data: RefreshData)
    | RefreshRejected(errorField: Option<string>)
    | RefreshThrew(error: string)

  datatype Input =
    | Call(id: nat, url: string, callerHeaders: Headers)
    | FirstResponse(id: nat, result: FetchResult)
    | RefreshResponse(id: nat, refresh: RefreshResult)
    | ReplayResponse(id: nat, result: FetchResult)
    | QueuedReplayResponse(id: nat, result: FetchResult)

  datatype Client = Client(token: Option<string>, refreshing: bool, queue: seq<nat>,
                           calls: map<nat, Phase>, sent: seq<Request>, events: seq<WindowEvent>,
                           settled: seq<nat>)

  /** The module's initial state: no token, no refresh, nothing queued. */
  const Initial := Client(None, false, [], map[], [], [], [])

  /** `setAccessToken` / `getAccessToken`. */
  function SetAccessToken(s: Client, token: Option<string>): (r: Client)
  {
    s.(token := token)
  }

  function BearerOf(token: string): string {
    "Bearer " + token
  }

  /** The request headers: `Content-Type: application/json` unless the
      caller set it, the caller's headers, and `Authorization` with the
      bearer token exactly when the in-memory token is truthy. */
  function PrepareHeaders(token: Option<string>, callerHeaders: Headers): (h: Headers)
    ensures "Content-Type" in h &&
            h["Content-Type"] == (if "Content-Type" in callerHeaders then callerHeaders["Content-Type"] else "application/json")
    ensures token.Some? && token.value != "" ==> "Authorization" in h && h["Authorization"] == BearerOf(token.value)
    ensures !(token.Some? && token.value != "") ==>
              ("Authorization" in h <==> "Authorization" in callerHeaders) &&
              ("Authorization" in h ==> h["Authorization"] == callerHeaders["Authorization"])
    ensures forall k :: k in callerHeaders && k != "Authorization" ==> k in h && h[k] == callerHeaders[k]
    ensures forall k :: k in h ==> k in callerHeaders || k == "Content-Type" || k == "Authorization"
  {
    var base := map["Content-Type" := "application/json"] + callerHeaders;
    if token.Some? && token.value != "" then base["Authorization" := BearerOf(token.value)] else base
  }

  function WithBearer(h: Headers, token: string): Headers {
    h["Authorization" := BearerOf(token)]
  }

  /** The error a failed refresh raises. */
  function RefreshError(r: RefreshResult): (e: string)
    requires !r.RefreshOk?
    ensures r.RefreshRejected? && r.errorField.Some? && r.errorField.value != "" ==> e == r.errorField.value
    ensures r.RefreshRejected? && (r.errorField.None? || r.errorField.value == "") ==> e == SESSION_EXPIRED
    ensures r.RefreshThrew? ==> e == r.error
  {
    match r
    case RefreshRejected(f) => if f.Some? && f.value != "" then f.value else SESSION_EXPIRED
    case RefreshThrew(e) => e
  }

  predicate Distinct(q: seq<nat>) {
    forall i, j :: 0 <= i < j < |q| ==> q[i] != q[j]
  }

  /** `processQueue(null, token)`: every waiter in the queue is resumed with
      the new token and sends its request again, in queue order. */
  function ResolveQueue(calls: map<nat, Phase>, queue: seq<nat>, token: string): (r: (map<nat, Phase>, seq<Request>))
    ensures r.0.Keys == calls.Keys
    ensures forall k :: 0 <= k < |r.1| ==> r.1[k].Fetch?
    ensures forall id :: id in calls && id !in queue ==> r.0[id] == calls[id]
    ensures forall id :: id in calls && id in queue && calls[id].Waiting? ==>
              r.0[id] == AwaitQueuedReplay(calls[id].url, WithBearer(calls[id].headers, token))
    ensures forall id :: id in calls && id in queue && !calls[id].Waiting? ==> r.0[id] == calls[id]
    ensures Distinct(queue) && (forall k :: 0 <= k < |queue| ==> queue[k] in calls && calls[queue[k]].Waiting?) ==>
              |r.1| == |queue| &&
              forall k :: 0 <= k < |queue| ==>
                r.1[k] == Fetch(calls[queue[k]].url, WithBearer(calls[queue[k]].headers, token))
    decreases |queue|
  {
    if |queue| == 0 then (calls, [])
    else
      var w := queue[0];
      if w in calls && calls[w].Waiting? then
        var p := calls[w];
        var rest := ResolveQueue(calls[w := AwaitQueuedReplay(p.url, WithBearer(p.headers, token))], queue[1..], token);
        (rest.0, [Fetch(p.url, WithBearer(p.headers, token))] + rest.1)
      else
        ResolveQueue(calls, queue[1..], token)
  }

  /** `processQueue(error)`: every waiter in the queue fails with `error`. */
  function RejectQueue(calls: map<nat, Phase>, queue: seq<nat>, error: string): (r: map<nat, Phase>)
    ensures r.Keys == calls.Keys
    ensures forall id :: id in calls && id !in queue ==> r[id] == calls[id]
    ensures forall id :: id in calls && id in queue && calls[id].Waiting? ==> r[id] == Failed(error)
    ensures forall id :: id in calls && id in queue && !calls[id].Waiting? ==> r[id] == calls[id]
    decreases |queue|
  {
    if |queue| == 0 then calls
    else
      var w := queue[0];
      if w in calls && calls[w].Waiting? then RejectQueue(calls[w := Failed(error)], queue[1..], error)
      else RejectQueue(calls, queue[1..], error)
  }

  /** The source's transition for one input. An input that does not fit
      the call's current phase changes nothing. */
  function StepAsWritten(s: Client, input: Input): (r: Client)
    // A new call sends its first request with the prepared headers.
    ensures input.Call? && input.id !in s.calls ==>
              r == s.(calls := s.calls[input.id := AwaitFirst(input.url, PrepareHeaders(s.token, input.callerHeaders))],
                      sent := s.sent + [Fetch(input.url, PrepareHeaders(s.token, input.callerHeaders))])
    // A first response other than 401, or a network error, ends the call
    // and touches nothing else.
    ensures input.FirstResponse? && input.id in s.calls && s.calls[input.id].AwaitFirst? &&
            !(input.result.Response? && input.result.status == 401) ==>
              r == s.(calls := s.calls[input.id := if input.result.Response? then Returned(input.result.status)
                                                    else Failed(input.result.error)])
    // A 401 while no refresh runs starts exactly one refresh.
    ensures input.FirstResponse? && input.id in s.calls && s.calls[input.id].AwaitFirst? &&
            input.result == Response(401) && !s.refreshing ==>
              r.refreshing && r.sent == s.sent + [RefreshPost] && r.queue == s.queue &&
              r.calls == s.calls[input.id := AwaitRefresh(s.calls[input.id].url, s.calls[input.id].headers)]
    // A 401 while a refresh runs queues the call and sends nothing.
    ensures input.FirstResponse? && input.id in s.calls && s.calls[input.id].AwaitFirst? &&
            input.result == Response(401) && s.refreshing ==>
              r.refreshing && r.sent == s.sent && r.queue == s.queue + [input.id] &&
              r.calls == s.calls[input.id := Waiting(s.calls[input.id].url, s.calls[input.id].headers)]
    // A successful refresh stores the token, announces it, resumes the
    // waiters and replays the owner's request once with the new token; the
    // flag stays set until that replay returns.
    ensures input.RefreshResponse? && input.id in s.calls && s.calls[input.id].AwaitRefresh? &&
            input.refresh.RefreshOk? ==>
              var t := input.refresh.data.accessToken;
              var p := s.calls[input.id];
              && r.token == Some(t) && r.refreshing == s.refreshing && r.queue == []
              && r.events == s.events + [TokenRefreshed(input.refresh.data)]
              && r.settled == s.settled + s.queue
              && |r.sent| > |s.sent| && r.sent[|s.sent|] == Fetch(p.url, WithBearer(p.headers, t))
              && RefreshPost !in r.sent[|s.sent|..]
              && input.id in r.calls && r.calls[input.id] == AwaitReplay(p.url, WithBearer(p.headers, t), t)
              // `processQueue(null, token)`: every waiter resumes with the new token.
              && forall w :: w in s.queue && w in s.calls && s.calls[w].Waiting? ==>
                   w in r.calls && r.calls[w] == AwaitQueuedReplay(s.calls[w].url, WithBearer(s.calls[w].headers, t))
    // A failed refresh rejects the waiters and the owner with one error,
    // dispatches `logout` and clears the flag; the token is kept.
    ensures input.RefreshResponse? && input.id in s.calls && s.calls[input.id].AwaitRefresh? &&
            !input.refresh.RefreshOk? ==>
              && !r.refreshing && r.queue == [] && r.token == s.token && r.sent == s.sent
              && r.events == s.events + [LogoutEvent] && r.settled == s.settled + s.queue
              && input.id in r.calls && r.calls[input.id] == Failed(RefreshError(input.refresh))
              && forall id :: id in s.calls && id in s.queue && s.calls[id].Waiting? ==>
                   id in r.calls && r.calls[id] == Failed(RefreshError(input.refresh))
    // The replayed response is the call's result, whatever its status: no
    // second refresh. A throw from the replay goes the failed-refresh way.
    ensures input.ReplayResponse? && input.id in s.calls && s.calls[input.id].AwaitReplay? ==>
              input.id in r.calls && r.sent == s.sent && !r.refreshing &&
              (input.result.Response? ==> r.calls[input.id] == Returned(input.result.status) &&
                                          r.queue == s.queue && r.events == s.events) &&
              (input.result.NetworkError? ==> r.calls[input.id] == Failed(input.result.error) &&
                                              r.queue == [] && r.events == s.events + [LogoutEvent])
    // Inputs for phases they do not fit are ignored.
    ensures input.RefreshResponse? && !(input.id in s.calls && s.calls[input.id].AwaitRefresh?) ==> r == s
    ensures input.ReplayResponse? && !(input.id in s.calls && s.calls[input.id].AwaitReplay?) ==> r == s
    ensures input.QueuedReplayResponse? && !(input.id in s.calls && s.calls[input.id].AwaitQueuedReplay?) ==> r == s
    // Every transition keeps the logs as prefixes and the set of calls.
    ensures s.sent <= r.sent && s.events <= r.events && s.settled <= r.settled
    ensures s.calls.Keys <= r.calls.Keys
  {
    match input
    case Call(id, url, callerHeaders) =>
      if id in s.calls then s
      else
        var h := PrepareHeaders(s.token, callerHeaders);
        s.(calls := s.calls[id := AwaitFirst(url, h)], sent := s.sent + [Fetch(url, h)])
    case FirstResponse(id, result) =>
      if id !in s.calls || !s.calls[id].AwaitFirst? then s
      else
        var p := s.calls[id];
        (match result
         case NetworkError(e) => s.(calls := s.calls[id := Failed(e)])
         case Response(status) =>
           if status != 401 then s.(calls := s.calls[id := Returned(status)])
           else if !s.refreshing then
             s.(refreshing := true, calls := s.calls[id := AwaitRefresh(p.url, p.headers)], sent := s.sent + [RefreshPost])
           else
             s.(queue := s.queue + [id], calls := s.calls[id := Waiting(p.url, p.headers)]))
    case RefreshResponse(id, result) =>
      if id !in s.calls || !s.calls[id].AwaitRefresh? then s
      else
        var p := s.calls[id];
        (match result
         case RefreshOk(data) =>
           FinishRefresh(s, id, data)
         case _ =>
           FailRefresh(s, id, RefreshError(result)))
    case ReplayResponse(id, result) =>
      if id !in s.calls || !s.calls[id].AwaitReplay? then s
      else
        (match result
         case Response(status) => s.(refreshing := false, calls := s.calls[id := Returned(status)])
         case NetworkError(e) => FailRefresh(s, id, e))
    case QueuedReplayResponse(id, result) =>
      if id !in s.calls || !s.calls[id].AwaitQueuedReplay? then s
      else
        match result
        case Response(status) => s.(calls := s.calls[id := Returned(status)])
        case NetworkError(e) => s.(calls := s.calls[id := Failed(e)])
  }

  /** With consistent bookkeeping, a successful refresh sends the owner's
      replay and then one request per waiter, in queue order, each with
      the new bearer header. */
  lemma RefreshOkResumesWaiters(s: Client, input: Input)
    requires Consistent(s)
    requires input.RefreshResponse? && input.id in s.calls && s.calls[input.id].AwaitRefresh? && input.refresh.RefreshOk?
    ensures var r := StepAsWritten(s, input);
            && |r.sent| == |s.sent| + 1 + |s.queue|
            && r.sent[|s.sent|] == Fetch(s.calls[input.id].url, WithBearer(s.calls[input.id].headers, input.refresh.data.accessToken))
            && forall k :: 0 <= k < |s.queue| ==>
                 s.queue[k] in s.calls &&
                 r.sent[|s.sent| + 1 + k] ==
                   Fetch(s.calls[s.queue[k]].url, WithBearer(s.calls[s.queue[k]].headers, input.refresh.data.accessToken))
  {
    assert WaitersQueued(s);
    assert StepAsWritten(s, input) == FinishRefresh(s, input.id, input.refresh.data);
  }

  /** The refresh `try` after a successful POST: store and announce the
      token, resume the waiters (`processQueue(null, token)`) and replay the
      owner's request with the new bearer header. */
  function FinishRefresh(s: Client, owner: nat, data: RefreshData): (r: Client)
    requires owner in s.calls && s.calls[owner].AwaitRefresh?
    ensures r.token == Some(data.accessToken) && r.refreshing == s.refreshing && r.queue == []
    ensures r.events == s.events + [TokenRefreshed(data)] && r.settled == s.settled + s.queue
    ensures |r.sent| > |s.sent| && s.sent <= r.sent &&
            r.sent[|s.sent|] == Fetch(s.calls[owner].url, WithBearer(s.calls[owner].headers, data.accessToken))
    ensures RefreshPost !in r.sent[|s.sent|..]
    ensures r.calls.Keys == s.calls.Keys &&
            r.calls[owner] == AwaitReplay(s.calls[owner].url, WithBearer(s.calls[owner].headers, data.accessToken), data.accessToken)
    ensures forall w :: w in s.queue && w in s.calls && s.calls[w].Waiting? ==>
              r.calls[w] == AwaitQueuedReplay(s.calls[w].url, WithBearer(s.calls[w].headers, data.accessToken))
    ensures WaitersQueued(s) ==>
              |r.sent| == |s.sent| + 1 + |s.queue| &&
              forall k :: 0 <= k < |s.queue| ==>
                s.queue[k] in s.calls &&
                r.sent[|s.sent| + 1 + k] ==
                  Fetch(s.calls[s.queue[k]].url, WithBearer(s.calls[s.queue[k]].headers, data.accessToken))
  {
    var p := s.calls[owner];
    var t := data.accessToken;
    var resumed := ResolveQueue(s.calls, s.queue, t);
    var replay := Fetch(p.url, WithBearer(p.headers, t));
    var sent := s.sent + [replay] + resumed.1;
    assert sent[|s.sent|..] == [replay] + resumed.1;
    s.(token := Some(t), queue := [], events := s.events + [TokenRefreshed(data)],
       calls := resumed.0[owner := AwaitReplay(p.url, WithBearer(p.headers, t), t)],
       sent := sent, settled := s.settled + s.queue)
  }

  /** The refresh `catch` and `finally`: reject every waiter, dispatch
      `logout`, reject the owner, clear the flag. */
  function FailRefresh(s: Client, owner: nat, error: string): (r: Client)
    requires owner in s.calls
    ensures r.queue == [] && !r.refreshing && owner in r.calls && r.calls[owner] == Failed(error)
    ensures r.events == s.events + [LogoutEvent] && r.settled == s.settled + s.queue
    ensures r.token == s.token && r.sent == s.sent
    ensures r.calls.Keys == s.calls.Keys
    ensures forall id :: id in s.calls && id in s.queue && s.calls[id].Waiting? ==> r.calls[id] == Failed(error)
    ensures forall id :: id in s.calls && id !in s.queue && id != owner ==> r.calls[id] == s.calls[id]
  {
    s.(refreshing := false, queue := [], events := s.events + [LogoutEvent],
       calls := RejectQueue(s.calls, s.queue, error)[owner := Failed(error)], settled := s.settled + s.queue)
  }

  /** The corrected transition: as written, except that a replay which
      returns a response first resumes, with the current token, any request
      that queued while the replay was in flight. */
  function Step(s: Client, input: Input): (r: Client)
    ensures !(input.ReplayResponse? && input.result.Response?) ==> r == StepAsWritten(s, input)
    ensures input.ReplayResponse? && input.result.Response? && input.id in s.calls && s.calls[input.id].AwaitReplay? ==>
              !r.refreshing && r.queue == [] && input.id in r.calls && r.calls[input.id] == Returned(input.result.status) &&
              r.settled == s.settled + s.queue
    // Every waiter resumes with the owner's new token; the token and the
    // dispatched events stay as they were.
    ensures input.ReplayResponse? && input.result.Response? && input.id in s.calls && s.calls[input.id].AwaitReplay? ==>
              r.token == s.token && r.events == s.events && s.sent <= r.sent &&
              forall w :: w in s.queue && w in s.calls && s.calls[w].Waiting? ==>
                w in r.calls &&
                r.calls[w] == AwaitQueuedReplay(s.calls[w].url, WithBearer(s.calls[w].headers, s.calls[input.id].newToken))
    // With consistent bookkeeping, one request goes out per waiter, in
    // queue order.
    ensures input.ReplayResponse? && input.result.Response? && input.id in s.calls && s.calls[input.id].AwaitReplay? &&
            Consistent(s) ==>
              |r.sent| == |s.sent| + |s.queue| &&
              forall k :: 0 <= k < |s.queue| ==>
                s.queue[k] in s.calls &&
                r.sent[|s.sent| + k] ==
                  Fetch(s.calls[s.queue[k]].url, WithBearer(s.calls[s.queue[k]].headers, s.calls[input.id].newToken))
  {
    match input
    case ReplayResponse(id, Response(status)) =>
      if id !in s.calls || !s.calls[id].AwaitReplay? then StepAsWritten(s, input)
      else
        var resumed := ResolveQueue(s.calls, s.queue, s.calls[id].newToken);
        s.(refreshing := false, queue := [], calls := resumed.0[id := Returned(status)],
           sent := s.sent + resumed.1, settled := s.settled + s.queue)
    case _ => StepAsWritten(s, input)
  }

  // ---------------------------------------------------------------------------
  // Invariants

  /** The bookkeeping both versions keep: the flag is set exactly while one
      call owns the refresh; the queue holds exactly the waiting calls, each
      once; and a call leaves the queue at most once and never re-enters
      it. */
  /** The queue lists distinct calls, each of them waiting. */
  predicate WaitersQueued(s: Client) {
    Distinct(s.queue) && forall k :: 0 <= k < |s.queue| ==> s.queue[k] in s.calls && s.calls[s.queue[k]].Waiting?
  }

  predicate Consistent(s: Client) {
    && (s.refreshing <==> exists id :: id in s.calls && s.calls[id].IsOwner())
    && (forall i, j :: i in s.calls && j in s.calls && s.calls[i].IsOwner() && s.calls[j].IsOwner() ==> i == j)
    && Distinct(s.queue)
    && (forall k :: 0 <= k < |s.queue| ==> s.queue[k] in s.calls && s.calls[s.queue[k]].Waiting?)
    && (forall id :: id in s.calls && s.calls[id].Waiting? ==> id in s.queue)
    && Distinct(s.settled)
    && (forall k :: 0 <= k < |s.settled| ==> s.settled[k] in s.calls &&
                                              !s.calls[s.settled[k]].Waiting? && !s.calls[s.settled[k]].AwaitFirst?)
  }

  /** What the correction adds: no request waits while no refresh runs. */
  predicate NoStrandedWaiter(s: Client) {
    !s.refreshing ==> s.queue == []
  }

  predicate Inv(s: Client) {
    Consistent(s) && NoStrandedWaiter(s)
  }

  lemma InitialInv()
    ensures Inv(Initial)
  {
  }

  lemma ResolveQueueFacts(calls: map<nat, Phase>, queue: seq<nat>, token: string, id: nat)
    requires id in calls
    ensures var r := ResolveQueue(calls, queue, token).0;
            id in r && (r[id].IsOwner() <==> calls[id].IsOwner()) && (r[id].AwaitReplay? <==> calls[id].AwaitReplay?) &&
            (r[id].Waiting? <==> calls[id].Waiting? && id !in queue) &&
            (r[id].AwaitFirst? <==> calls[id].AwaitFirst?)
  {
  }

  lemma RejectQueueFacts(calls: map<nat, Phase>, queue: seq<nat>, error: string, id: nat)
    requires id in calls
    ensures var r := RejectQueue(calls, queue, error);
            id in r && (r[id].IsOwner() <==> calls[id].IsOwner()) && (r[id].AwaitReplay? <==> calls[id].AwaitReplay?) &&
            (r[id].Waiting? <==> calls[id].Waiting? && id !in queue) &&
            (r[id].AwaitFirst? <==> calls[id].AwaitFirst?)
  {
  }

  lemma DistinctAppend(a: seq<nat>, b: seq<nat>)
    requires Distinct(a) && Distinct(b)
    requires forall i, j :: 0 <= i < |a| && 0 <= j < |b| ==> a[i] != b[j]
    ensures Distinct(a + b)
  {
  }

  /** Settling the whole queue at once keeps the bookkeeping, provided no
      call is left waiting and no call goes back to awaiting its first
      response. */
  lemma {:induction false} SettledConsistent(s: Client, r: Client)
    requires Consistent(s)
    requires r.queue == [] && r.settled == s.settled + s.queue && r.calls.Keys == s.calls.Keys
    requires forall id :: id in r.calls ==> !r.calls[id].Waiting? && (r.calls[id].AwaitFirst? <==> s.calls[id].AwaitFirst?)
    requires r.refreshing <==> exists id :: id in r.calls && r.calls[id].IsOwner()
    requires forall i, j :: i in r.calls && j in r.calls && r.calls[i].IsOwner() && r.calls[j].IsOwner() ==> i == j
    ensures Consistent(r)
  {
    forall i, j | 0 <= i < |s.settled| && 0 <= j < |s.queue| ensures s.settled[i] != s.queue[j] {}
    DistinctAppend(s.settled, s.queue);
    forall k | 0 <= k < |r.settled|
      ensures r.settled[k] in r.calls && !r.calls[r.settled[k]].Waiting? && !r.calls[r.settled[k]].AwaitFirst?
    {
      if k >= |s.settled| {
        assert r.settled[k] == s.queue[k - |s.settled|];
      }
    }
  }

  /** A failed refresh keeps the bookkeeping. */
  lemma {:induction false} FailRefreshConsistent(s: Client, owner: nat, error: string)
    requires Consistent(s) && owner in s.calls && s.calls[owner].IsOwner()
    ensures Consistent(FailRefresh(s, owner, error)) && NoStrandedWaiter(FailRefresh(s, owner, error))
  {
    var r := FailRefresh(s, owner, error);
    forall id | id in r.calls
      ensures !r.calls[id].IsOwner() && !r.calls[id].Waiting?
      ensures r.calls[id].AwaitFirst? <==> s.calls[id].AwaitFirst?
    {
      if id != owner {
        RejectQueueFacts(s.calls, s.queue, error, id);
      }
    }
    SettledConsistent(s, r);
  }

  /** A successful refresh keeps the bookkeeping: the owner moves on to its
      replay, every waiter to its own replay. */
  lemma {:induction false} RefreshOkConsistent(s: Client, owner: nat, data: RefreshData)
    requires Consistent(s) && owner in s.calls && s.calls[owner].AwaitRefresh?
    ensures Consistent(StepAsWritten(s, RefreshResponse(owner, RefreshOk(data))))
  {
    var r := StepAsWritten(s, RefreshResponse(owner, RefreshOk(data)));
    var t := data.accessToken;
    forall id | id in r.calls
      ensures r.calls[id].IsOwner() <==> id == owner
      ensures !r.calls[id].Waiting?
      ensures r.calls[id].AwaitFirst? <==> s.calls[id].AwaitFirst?
    {
      if id != owner {
        ResolveQueueFacts(s.calls, s.queue, t, id);
      }
    }
    assert r.refreshing && r.calls[owner].IsOwner();
    SettledConsistent(s, r);
  }

  /** The corrected replay completion keeps the bookkeeping and leaves the
      queue empty. */
  lemma {:induction false} ReplayDoneConsistent(s: Client, owner: nat, status: nat)
    requires Consistent(s) && owner in s.calls && s.calls[owner].AwaitReplay?
    ensures Inv(Step(s, ReplayResponse(owner, Response(status))))
  {
    var r := Step(s, ReplayResponse(owner, Response(status)));
    var t := s.calls[owner].newToken;
    forall id | id in r.calls
      ensures !r.calls[id].IsOwner() && !r.calls[id].Waiting?
      ensures r.calls[id].AwaitFirst? <==> s.calls[id].AwaitFirst?
    {
      if id != owner {
        ResolveQueueFacts(s.calls, s.queue, t, id);
      }
    }
    SettledConsistent(s, r);
  }

  /** A first response keeps the bookkeeping. */
  lemma {:induction false} FirstResponseConsistent(s: Client, id: nat, result: FetchResult)
    requires Consistent(s)
    ensures Consistent(StepAsWritten(s, FirstResponse(id, result)))
  {
    if id in s.calls && s.calls[id].AwaitFirst? {
      assert id !in s.queue;
      assert id !in s.settled;
    }
  }

  /** A new call keeps the bookkeeping. */
  lemma CallConsistent(s: Client, id: nat, url: string, h: Headers)
    requires Consistent(s)
    ensures Consistent(StepAsWritten(s, Call(id, url, h)))
    ensures NoStrandedWaiter(s) ==> NoStrandedWaiter(StepAsWritten(s, Call(id, url, h)))
  {
  }

  /** A token stored with `setAccessToken` is what the next new call
      carries: its first request has `Authorization: Bearer <token>` when
      the token is non-empty, and otherwise only the caller's own
      `Authorization`, if any. Nothing but the token changes. */
  lemma TokenReachesNextRequest(s: Client, token: Option<string>, id: nat, url: string, h: Headers)
    requires id !in s.calls
    ensures var t := SetAccessToken(s, token);
            t.refreshing == s.refreshing && t.queue == s.queue && t.calls == s.calls &&
            t.sent == s.sent && t.events == s.events && t.settled == s.settled
    ensures var r := StepAsWritten(SetAccessToken(s, token), Call(id, url, h));
            |r.sent| == |s.sent| + 1 && r.sent[|s.sent|].Fetch? && r.sent[|s.sent|].url == url &&
            var sentHeaders := r.sent[|s.sent|].headers;
            (token.Some? && token.value != "" ==>
               "Authorization" in sentHeaders && sentHeaders["Authorization"] == "Bearer " + token.value) &&
            (!(token.Some? && token.value != "") ==>
               ("Authorization" in sentHeaders <==> "Authorization" in h))
  {
  }

  /** A refresh response keeps the bookkeeping, whichever way it goes. */
  lemma {:induction false} RefreshResponseConsistent(s: Client, id: nat, result: RefreshResult)
    requires Consistent(s)
    ensures Consistent(StepAsWritten(s, RefreshResponse(id, result)))
    ensures NoStrandedWaiter(StepAsWritten(s, RefreshResponse(id, result))) || StepAsWritten(s, RefreshResponse(id, result)) == s
  {
    if id in s.calls && s.calls[id].AwaitRefresh? {
      if result.RefreshOk? {
        RefreshOkConsistent(s, id, result.data);
      } else {
        FailRefreshConsistent(s, id, RefreshError(result));
      }
    }
  }

  /** The source's replay completion keeps the bookkeeping. */
  lemma {:induction false} ReplayResponseConsistent(s: Client, id: nat, result: FetchResult)
    requires Consistent(s)
    ensures Consistent(StepAsWritten(s, ReplayResponse(id, result)))
  {
    if id in s.calls && s.calls[id].AwaitReplay? {
      if result.NetworkError? {
        FailRefreshConsistent(s, id, result.error);
      }
    }
  }

  /** A queued request's replay completing keeps the bookkeeping. */
  lemma QueuedReplayConsistent(s: Client, id: nat, result: FetchResult)
    requires Consistent(s)
    ensures Consistent(StepAsWritten(s, QueuedReplayResponse(id, result)))
    ensures NoStrandedWaiter(s) ==> NoStrandedWaiter(StepAsWritten(s, QueuedReplayResponse(id, result)))
  {
  }

  /** The source's transition keeps the bookkeeping too: what it breaks is
      only `NoStrandedWaiter`. */
  lemma {:induction false} StepAsWrittenConsistent(s: Client, input: Input)
    requires Consistent(s)
    ensures Consistent(StepAsWritten(s, input))
  {
    match input
    case Call(id, url, h) =>
      CallConsistent(s, id, url, h);
    case FirstResponse(id, result) =>
      FirstResponseConsistent(s, id, result);
    case RefreshResponse(id, result) =>
      RefreshResponseConsistent(s, id, result);
    case ReplayResponse(id, result) =>
      ReplayResponseConsistent(s, id, result);
    case QueuedReplayResponse(id, result) =>
      QueuedReplayConsistent(s, id, result);
  }

  /** The corrected machine keeps `Inv` on every input. */
  lemma {:induction false} StepInv(s: Client, input: Input)
    requires Inv(s)
    ensures Inv(Step(s, input))
  {
    match input
    case Call(id, url, h) =>
      CallConsistent(s, id, url, h);
    case FirstResponse(id, result) =>
      FirstResponseConsistent(s, id, result);
    case RefreshResponse(id, result) =>
      RefreshResponseConsistent(s, id, result);
    case ReplayResponse(id, result) =>
      if id in s.calls && s.calls[id].AwaitReplay? {
        if result.Response? {
          ReplayDoneConsistent(s, id, result.status);
        } else {
          FailRefreshConsistent(s, id, result.error);
        }
      }
    case QueuedReplayResponse(id, result) =>
      QueuedReplayConsistent(s, id, result);
  }

  function Run(s: Client, inputs: seq<Input>): Client
    decreases |inputs|
  {
    if |inputs| == 0 then s else Run(Step(s, inputs[0]), inputs[1..])
  }

  function RunAsWritten(s: Client, inputs: seq<Input>): Client
    decreases |inputs|
  {
    if |inputs| == 0 then s else RunAsWritten(StepAsWritten(s, inputs[0]), inputs[1..])
  }

  /** Every state the corrected client reaches from its initial state keeps
      the flag, the owner, the queue and the settled log consistent, and
      never leaves a request waiting without a refresh in flight. */
  lemma {:induction false} RunInv(s: Client, inputs: seq<Input>)
    requires Inv(s)
    ensures Inv(Run(s, inputs))
    decreases |inputs|
  {
    if |inputs| > 0 {
      StepInv(s, inputs[0]);
      RunInv(Step(s, inputs[0]), inputs[1..]);
    }
  }

  /** A waiting request always has an owner that will settle it: the owner's
      next response, whatever it is, empties the queue. */
  lemma {:induction false} OwnerResponseDrainsQueue(s: Client, owner: nat, input: Input)
    requires Inv(s) && owner in s.calls && s.calls[owner].IsOwner()
    requires (s.calls[owner].AwaitRefresh? && input.RefreshResponse? && input.id == owner) ||
             (s.calls[owner].AwaitReplay? && input.ReplayResponse? && input.id == owner)
    ensures Step(s, input).queue == []
    ensures forall k :: 0 <= k < |s.queue| ==>
              s.queue[k] in Step(s, input).calls && !Step(s, input).calls[s.queue[k]].Waiting?
    ensures Step(s, input).settled == s.settled + s.queue
  {
    var r := Step(s, input);
    forall k | 0 <= k < |s.queue|
      ensures s.queue[k] in r.calls && !r.calls[s.queue[k]].Waiting?
    {
      var w := s.queue[k];
      assert w != owner;
      match input {
        case RefreshResponse(_, result) =>
          if result.RefreshOk? {
            ResolveQueueFacts(s.calls, s.queue, result.data.accessToken, w);
          } else {
            RejectQueueFacts(s.calls, s.queue, RefreshError(result), w);
          }
        case ReplayResponse(_, result) =>
          if result.Response? {
            ResolveQueueFacts(s.calls, s.queue, s.calls[owner].newToken, w);
          } else {
            RejectQueueFacts(s.calls, s.queue, result.error, w);
          }
      }
    }
  }

  // ---------------------------------------------------------------------------
  // The defect, as written

  /** Two calls both get a 401; the first refreshes, and the second's 401
      arrives only while the first is replaying. */
  const StrandingStart: seq<Input> := [
    Call(1, "/api/children", map[]),
    Call(2, "/api/chat", map[]),
    FirstResponse(1, Response(401))
  ]

  const StrandingMiddle: seq<Input> := [
    RefreshResponse(1, RefreshOk(RefreshData("t", None))),
    FirstResponse(2, Response(401))
  ]

  const StrandingPrefix: seq<Input> := StrandingStart + StrandingMiddle

  /** The replay then returns normally. */
  const ReplayReturns := ReplayResponse(1, Response(200))

  const StrandingTrace: seq<Input> := StrandingPrefix + [ReplayReturns]

  /** Running `inputs` and then `more` is running their concatenation. */
  lemma {:induction false} RunAppend(s: Client, inputs: seq<Input>, more: seq<Input>)
    ensures Run(s, inputs + more) == Run(Run(s, inputs), more)
    ensures RunAsWritten(s, inputs + more) == RunAsWritten(RunAsWritten(s, inputs), more)
    decreases |inputs|
  {
    if |inputs| > 0 {
      assert (inputs + more)[0] == inputs[0];
      assert (inputs + more)[1..] == inputs[1..] + more;
      RunAppend(Step(s, inputs[0]), inputs[1..], more);
      RunAppend(StepAsWritten(s, inputs[0]), inputs[1..], more);
    } else {
      assert inputs + more == more;
    }
  }

  /** Without replay responses the two machines agree. */
  lemma {:induction false} RunAgree(s: Client, inputs: seq<Input>)
    requires forall k :: 0 <= k < |inputs| ==> !inputs[k].ReplayResponse?
    ensures Run(s, inputs) == RunAsWritten(s, inputs)
    decreases |inputs|
  {
    if |inputs| > 0 {
      RunAgree(Step(s, inputs[0]), inputs[1..]);
    }
  }

  /** The state both machines reach after the prefix: call 1 replaying with
      token `t`, call 2 queued behind it. */
  lemma PrefixState()
    ensures var s := RunAsWritten(Initial, StrandingPrefix);
            && s.refreshing && s.queue == [2] && s.calls.Keys == {1, 2}
            && s.calls[1] == AwaitReplay("/api/children", WithBearer(PrepareHeaders(None, map[]), "t"), "t")
            && s.calls[2] == Waiting("/api/chat", PrepareHeaders(None, map[]))
    ensures Run(Initial, StrandingPrefix) == RunAsWritten(Initial, StrandingPrefix)
  {
    var s3 := RunAsWritten(Initial, StrandingStart);
    PrefixFirstHalf();
    PrefixSecondHalf(s3);
    RunAppend(Initial, StrandingStart, StrandingMiddle);
    PrefixAgrees();
  }

  /** The prefix holds no replay response, so both machines run it alike. */
  lemma PrefixAgrees()
    ensures Run(Initial, StrandingPrefix) == RunAsWritten(Initial, StrandingPrefix)
  {
    assert StrandingPrefix == [StrandingStart[0], StrandingStart[1], StrandingStart[2],
                               StrandingMiddle[0], StrandingMiddle[1]];
    RunAgree(Initial, StrandingPrefix);
  }

  /** Two calls, and a 401 on the first: one refresh in flight for call 1,
      call 2 still waiting for its first response. */
  lemma PrefixFirstHalf()
    ensures var s := RunAsWritten(Initial, StrandingStart);
            && s.refreshing && s.queue == [] && s.calls.Keys == {1, 2}
            && s.calls[1] == AwaitRefresh("/api/children", PrepareHeaders(None, map[]))
            && s.calls[2] == AwaitFirst("/api/chat", PrepareHeaders(None, map[]))
  {
    var P := StrandingStart;
    var s1 := StepAsWritten(Initial, P[0]);
    var s2 := StepAsWritten(s1, P[1]);
    var s3 := StepAsWritten(s2, P[2]);
    assert s2.calls.Keys == {1, 2} && s2.queue == [] && !s2.refreshing;
    assert RunAsWritten(Initial, P) == s3 by {
      assert P[1..][1..][1..] == [];
    }
  }

  /** The refresh succeeds with `t` while call 2 still waits for its first
      response; its 401 then arrives during call 1's replay and is queued. */
  lemma PrefixSecondHalf(s: Client)
    requires s.refreshing && s.queue == [] && s.calls.Keys == {1, 2}
    requires s.calls[1] == AwaitRefresh("/api/children", PrepareHeaders(None, map[]))
    requires s.calls[2] == AwaitFirst("/api/chat", PrepareHeaders(None, map[]))
    ensures var r := RunAsWritten(s, StrandingMiddle);
            && r.refreshing && r.queue == [2] && r.calls.Keys == {1, 2}
            && r.calls[1] == AwaitReplay("/api/children", WithBearer(PrepareHeaders(None, map[]), "t"), "t")
            && r.calls[2] == Waiting("/api/chat", PrepareHeaders(None, map[]))
  {
    var P := StrandingMiddle;
    var s4 := StepAsWritten(s, P[0]);
    var s5 := StepAsWritten(s4, P[1]);
    assert s4.refreshing && s4.queue == [] && s4.calls[2].AwaitFirst? && s4.calls.Keys == {1, 2};
    assert RunAsWritten(s, P) == s5 by {
      assert P[1..][1..] == [];
    }
  }

  /** As written, that trace ends with no refresh in flight and call 2 still
      waiting in the queue. */
  lemma AsWrittenStrandsWaiter()
    ensures var s := RunAsWritten(Initial, StrandingTrace);
            !s.refreshing && s.queue == [2] && 2 in s.calls && s.calls[2].Waiting? &&
            !NoStrandedWaiter(s) &&
            forall id :: id in s.calls ==> !s.calls[id].IsOwner()
  {
    PrefixState();
    RunAppend(Initial, StrandingPrefix, [ReplayReturns]);
    var s5 := RunAsWritten(Initial, StrandingPrefix);
    ReplayReturnsAsWritten(s5);
  }

  /** The last step of the trace, as written: only call 1 and the flag change. */
  lemma ReplayReturnsAsWritten(s: Client)
    requires s.calls.Keys == {1, 2} && s.calls[1].AwaitReplay? && s.calls[2].Waiting? && s.queue == [2]
    ensures var r := RunAsWritten(s, [ReplayReturns]);
            !r.refreshing && r.queue == [2] && 2 in r.calls && r.calls[2].Waiting? &&
            forall id :: id in r.calls ==> !r.calls[id].IsOwner()
  {
    var r := s.(refreshing := false, calls := s.calls[1 := Returned(200)]);
    assert StepAsWritten(s, ReplayReturns) == r;
    assert RunAsWritten(s, [ReplayReturns]) == RunAsWritten(r, []);
  }

  /** And once stranded, the waiter stays waiting through any inputs in
      which no other request receives a 401: only a new refresh would
      settle it. */
  lemma {:induction false} StrandedUntilAnother401(s: Client, inputs: seq<Input>, w: nat)
    requires w in s.calls && s.calls[w].Waiting?
    requires forall id :: id in s.calls ==> !s.calls[id].IsOwner()
    requires forall k :: 0 <= k < |inputs| ==> !(inputs[k].FirstResponse? && inputs[k].result == Response(401))
    ensures var r := RunAsWritten(s, inputs);
            w in r.calls && r.calls[w] == s.calls[w]
    decreases |inputs|
  {
    if |inputs| > 0 {
      var s1 := StepAsWritten(s, inputs[0]);
      assert s1.calls[w] == s.calls[w];
      forall id | id in s1.calls ensures !s1.calls[id].IsOwner() {
        if id in s.calls { assert !s.calls[id].IsOwner(); }
      }
      StrandedUntilAnother401(s1, inputs[1..], w);
    }
  }

  /** With the correction the same trace ends with call 2 resumed and
      replaying with the new token. */
  lemma CorrectedResumesWaiter()
    ensures var s := Run(Initial, StrandingTrace);
            && !s.refreshing && s.queue == [] && 2 in s.calls
            && s.calls[2] == AwaitQueuedReplay("/api/chat", WithBearer(PrepareHeaders(None, map[]), "t"))
  {
    PrefixState();
    RunAppend(Initial, StrandingPrefix, [ReplayReturns]);
    var s5 := Run(Initial, StrandingPrefix);
    assert Run(s5, [ReplayReturns]) == Step(s5, ReplayReturns);
    ResolveQueueFacts(s5.calls, s5.queue, "t", 2);
  }
}

=== FILE: api_response.dfy ===
/** The response envelopes of `src/utils/apiResponse.js`: the success and
    error shapes, the fixed builders (auth, forbidden, validation, not
    found, conflict, server error), pagination, and the two error
    classifiers. JSON keys that the source adds only for truthy inputs are
    `Option` fields here, `None` when the key is absent. The ISO timestamp
    every envelope carries is left out. */
module ApiResponse {
  import opened Wrappers
  import opened Strings
  import Jwt

  // HTTP_STATUS of src/constants/index.js
  const OK: nat := 200
  const BAD_REQUEST: nat := 400
  const UNAUTHORIZED: nat := 401
  const FORBIDDEN: nat := 403
  const NOT_FOUND: nat := 404
  const CONFLICT: nat := 409
  const INTERNAL_SERVER_ERROR: nat := 500

  /** `error.details`: a resource name, a wrapped string, per-field
      messages, or the name and stack of an exception. */
  datatype Details =
    | ResourceDetail(resource: string)
    | General(text: string)
    | FieldErrors(fields: map<string, string>)
    | ErrorInfo(name: string, stack: string)

  datatype Pagination = Pagination(page: int, limit: int, total: nat, totalPages: nat,
                                   hasNext: bool, hasPrev: bool)

  datatype Meta = PageMeta(pagination: Pagination) | CustomMeta(entries: map<string, string>)

  datatype Body<D> =
    | SuccessBody(data: Option<D>, message: Option<string>, meta: Option<Meta>)
    | ErrorBody(error: ErrorObject, meta: Option<Meta>)

  /** The `error` object of a failure envelope. */
  datatype ErrorObject = ErrorObject(message: string, code: Option<string>, details: Option<Details>)

  datatype Response<D> = Response(status: nat, body: Body<D>)

  /** An error envelope: it has no data, so its data type is the unit
      type. */
  type ErrorEnvelope = Response<()>

  /** An exception as the builders see it: its message, name, stack, and
      for database errors the PostgreSQL `code`. */
  datatype Failure = Failure(message: string, name: string, stack: string, code: Option<string>)

  /** A string argument that JavaScript treats as true. */
  predicate Truthy(s: Option<string>) {
    s.Some? && s.value != ""
  }

  function KeepTruthy(s: Option<string>): (r: Option<string>)
    ensures r.Some? <==> Truthy(s)
    ensures r.Some? ==> r == s
  {
    if Truthy(s) then s else None
  }

  /** `createSuccessResponse(data, message, meta, status)`. */
  function SuccessResponse<D>(data: Option<D>, message: Option<string>, meta: Option<Meta>, status: nat): (r: Response<D>)
    ensures r.status == status && r.body.SuccessBody?
    ensures r.body.data == data
    ensures r.body.message.Some? <==> Truthy(message)
    ensures r.body.message.Some? ==> r.body.message == message
    ensures r.body.meta == meta
  {
    Response(status, SuccessBody(data, KeepTruthy(message), meta))
  }

  /** `createErrorResponse(message, status, code, details, meta)`. */
  function ErrorResponse<D>(message: string, status: nat, code: Option<string>,
                            details: Option<Details>, meta: Option<Meta>): (r: Response<D>)
    ensures r.status == status && r.body.ErrorBody?
    ensures r.body.error.message == message
    ensures r.body.error.code.Some? <==> Truthy(code)
    ensures r.body.error.code.Some? ==> r.body.error.code == code
    ensures r.body.error.details == details && r.body.meta == meta
  {
    Response(status, ErrorBody(ErrorObject(message, KeepTruthy(code), details), meta))
  }

  const AUTH_REQUIRED_MESSAGE := "認証が必要です"
  const FORBIDDEN_MESSAGE := "アクセス権限がありません"
  const VALIDATION_MESSAGE := "バリデーションエラーが発生しました"
  const SERVER_ERROR_MESSAGE := "サーバー内部でエラーが発生しました"

  const NOT_FOUND_SUFFIX := "が見つかりません"
  const CONFLICT_SUFFIX := "は既に存在します"
  const AUTH_ERROR_PREFIX := "認証エラー: "
  const AUTH_PROCESSING_FAILED := "認証処理中にエラーが発生しました"
  const OPERATION_FAILED_SUFFIX := "中にエラーが発生しました"
  const DATA_RESOURCE := "データ"
  const DUPLICATE_DATA := "このデータは既に存在します"
  const RELATED_DATA_MISSING := "関連するデータが見つかりません"
  const REFERENTIAL_INTEGRITY := "参照整合性エラーが発生しました"
  const REQUIRED_FIELD_MISSING := "必須項目が不足しています"
  const INPUT_INCOMPLETE := "データの入力に不備があります"
  const SCHEMA_ERROR := "データベース構造エラーが発生しました"

  const AUTH_REQUIRED_CODE := "AUTH_REQUIRED"
  const FORBIDDEN_CODE := "FORBIDDEN"

  /** `createAuthErrorResponse(message, code)`; an argument left
      `undefined` (`None`) takes its default. */
  function AuthErrorResponse(message: Option<string>, code: Option<string>): (r: ErrorEnvelope)
    ensures r.status == UNAUTHORIZED && r.body.ErrorBody?
    ensures r.body.error.message == if message.Some? then message.value else AUTH_REQUIRED_MESSAGE
    ensures r.body.error.details.None? && r.body.meta.None?
    // Without a code the default is used; a given code is kept exactly
    // when it is truthy, that is, non-empty.
    ensures code.None? ==> r.body.error.code == Some(AUTH_REQUIRED_CODE)
    ensures code.Some? ==> (r.body.error.code.Some? <==> code.value != "")
    ensures code.Some? && code.value != "" ==> r.body.error.code == code
  {
    ErrorResponse(message.GetOr(AUTH_REQUIRED_MESSAGE), UNAUTHORIZED, Some(code.GetOr(AUTH_REQUIRED_CODE)), None, None)
  }

  /** `createForbiddenResponse(message, code)`, with the same defaulting. */
  function ForbiddenResponse(message: Option<string>, code: Option<string>): (r: ErrorEnvelope)
    ensures r.status == FORBIDDEN && r.body.ErrorBody?
    ensures r.body.error.message == if message.Some? then message.value else FORBIDDEN_MESSAGE
    ensures r.body.error.details.None? && r.body.meta.None?
    ensures code.None? ==> r.body.error.code == Some(FORBIDDEN_CODE)
    ensures code.Some? ==> (r.body.error.code.Some? <==> code.value != "")
    ensures code.Some? && code.value != "" ==> r.body.error.code == code
  {
    ErrorResponse(message.GetOr(FORBIDDEN_MESSAGE), FORBIDDEN, Some(code.GetOr(FORBIDDEN_CODE)), None, None)
  }

  /** Validation errors: a string, or an object of per-field messages. */
  datatype ValidationErrors = Text(text: string) | PerField(fields: map<string, string>)

  function ValidationErrorResponse(errors: ValidationErrors, message: string): (r: ErrorEnvelope)
    ensures r.status == BAD_REQUEST && r.body.ErrorBody?
    ensures r.body.error.code == Some("VALIDATION_ERROR")
    ensures errors.Text? ==> r.body.error.details == Some(General(errors.text))
    ensures errors.PerField? ==> r.body.error.details == Some(FieldErrors(errors.fields))
  {
    var details := match errors
      case Text(s) => General(s)
      case PerField(m) => FieldErrors(m);
    ErrorResponse(message, BAD_REQUEST, Some("VALIDATION_ERROR"), Some(details), None)
  }

  /** `message || default`. */
  function OrDefault(message: Option<string>, default: string): string {
    if Truthy(message) then message.value else default
  }

  function NotFoundResponse(resource: string, message: Option<string>): (r: ErrorEnvelope)
    ensures r.status == NOT_FOUND && r.body.ErrorBody?
    ensures r.body.error.code == Some("NOT_FOUND") && r.body.error.details == Some(ResourceDetail(resource))
    ensures r.body.error.message == if Truthy(message) then message.value else resource + NOT_FOUND_SUFFIX
  {
    ErrorResponse(OrDefault(message, resource + NOT_FOUND_SUFFIX), NOT_FOUND, Some("NOT_FOUND"),
                  Some(ResourceDetail(resource)), None)
  }

  function ConflictResponse(resource: string, message: Option<string>): (r: ErrorEnvelope)
    ensures r.status == CONFLICT && r.body.ErrorBody?
    ensures r.body.error.code == Some("CONFLICT") && r.body.error.details == Some(ResourceDetail(resource))
    ensures r.body.error.message == if Truthy(message) then message.value else resource + CONFLICT_SUFFIX
  {
    ErrorResponse(OrDefault(message, resource + CONFLICT_SUFFIX), CONFLICT, Some("CONFLICT"),
                  Some(ResourceDetail(resource)), None)
  }

  /** `createServerErrorResponse`: the exception's name and stack are shown
      only in development and only when an exception is given. */
  function ServerErrorResponse(message: string, error: Option<Failure>, development: bool): (r: ErrorEnvelope)
    ensures r.status == INTERNAL_SERVER_ERROR && r.body.ErrorBody?
    ensures r.body.error.code == Some("INTERNAL_ERROR") && r.body.error.message == message
    ensures r.body.error.details.Some? <==> development && error.Some?
    ensures r.body.error.details.Some? ==> r.body.error.details == Some(ErrorInfo(error.value.name, error.value.stack))
  {
    var details := if development && error.Some? then Some(ErrorInfo(error.value.name, error.value.stack)) else None;
    ErrorResponse(message, INTERNAL_SERVER_ERROR, Some("INTERNAL_ERROR"), details, None)
  }

  /** `Math.ceil(total / limit)` for a positive limit. */
  function CeilDiv(total: nat, limit: nat): (q: nat)
    requires limit > 0
    ensures q * limit >= total
    ensures q > 0 ==> (q - 1) * limit < total
  {
    (total + limit - 1) / limit
  }

  /** `createPaginatedResponse`; the source divides by `limit`, so a
      non-positive limit is excluded. */
  function PaginatedResponse<D>(data: D, page: int, limit: int, total: nat, message: Option<string>): (r: Response<D>)
    requires limit > 0
    ensures r.status == OK && r.body.SuccessBody? && r.body.data == Some(data)
    ensures r.body.meta.Some? && r.body.meta.value.PageMeta?
    ensures var p := r.body.meta.value.pagination;
            p.page == page && p.limit == limit && p.total == total &&
            p.totalPages * limit >= total && (p.totalPages > 0 ==> (p.totalPages - 1) * limit < total) &&
            (p.hasNext <==> page < p.totalPages) && (p.hasPrev <==> page > 1)
  {
    var totalPages := CeilDiv(total, limit);
    var meta := PageMeta(Pagination(page, limit, total, totalPages, page < totalPages, page > 1));
    SuccessResponse(Some(data), message, Some(meta), OK)
  }

  /** There is a next page exactly when some item lies beyond page `page`. */
  lemma HasNextIffItemsRemain<D>(data: D, page: int, limit: int, total: nat, message: Option<string>)
    requires limit > 0
    ensures PaginatedResponse(data, page, limit, total, message).body.meta.value.pagination.hasNext
            <==> page * limit < total
  {
    var q := CeilDiv(total, limit);
    if page < q {
      MulLeq(page, q as int - 1, limit);
    } else {
      MulLeq(q, page, limit);
    }
  }

  lemma MulLeq(a: int, b: int, c: nat)
    requires a <= b
    ensures a * c <= b * c
  {
  }

  /** `handleAuthError`: 401 `TOKEN_INVALID` exactly for authentication
      messages, a 500 otherwise. */
  function HandleAuthError(error: Failure, development: bool): (r: ErrorEnvelope)
    ensures r.body.ErrorBody?
    ensures r.status == UNAUTHORIZED <==> Jwt.IsAuthMessage(error.message)
    ensures r.status == UNAUTHORIZED ==> r.body.error.code == Some("TOKEN_INVALID") &&
                                         r.body.error.message == AUTH_ERROR_PREFIX + error.message
    ensures r.status != UNAUTHORIZED ==> r.status == INTERNAL_SERVER_ERROR
  {
    if Jwt.IsAuthMessage(error.message) then AuthErrorResponse(Some(AUTH_ERROR_PREFIX + error.message), Some("TOKEN_INVALID"))
    else ServerErrorResponse(AUTH_PROCESSING_FAILED, Some(error), development)
  }

  /** `handleDatabaseError` over the PostgreSQL error code. */
  function HandleDatabaseError(error: Failure, operation: string, development: bool): (r: ErrorEnvelope)
    ensures r.body.ErrorBody?
    ensures error.code == Some("23505") ==> r.status == CONFLICT
    ensures error.code == Some("23503") || error.code == Some("23502") ==>
              r.status == BAD_REQUEST && r.body.error.code == Some("VALIDATION_ERROR")
    ensures error.code == Some("42703") ==> r.status == INTERNAL_SERVER_ERROR && r.body.error.details.None?
    ensures error.code !in {Some("23505"), Some("23503"), Some("23502"), Some("42703")} ==>
              r.status == INTERNAL_SERVER_ERROR && r.body.error.message == operation + OPERATION_FAILED_SUFFIX
  {
    match error.code
    case Some("23505") => ConflictResponse(DATA_RESOURCE, Some(DUPLICATE_DATA))
    case Some("23503") => ValidationErrorResponse(Text(RELATED_DATA_MISSING), REFERENTIAL_INTEGRITY)
    case Some("23502") => ValidationErrorResponse(Text(REQUIRED_FIELD_MISSING), INPUT_INCOMPLETE)
    case Some("42703") => ServerErrorResponse(SCHEMA_ERROR, None, development)
    case _ => ServerErrorResponse(operation + OPERATION_FAILED_SUFFIX, Some(error), development)
  }
}

=== FILE: auth_config.dfy ===
/** The path classification of `src/lib/authConfig.js`: four public pages
    matched exactly, six public API prefixes matched with `startsWith`, and
    the admin area, everything under `/admin`. */
module AuthConfig {
  import opened Strings

  const PUBLIC_PAGES: seq<string> := ["/", "/login", "/users/register", "/setup"]

  const PUBLIC_API_PREFIXES: seq<string> :=
    ["/api/users/login", "/api/users/register", "/api/setup", "/api/tables",
     "/api/users/check-admin", "/api/auth/refresh"]

  const ADMIN_PREFIX := "/admin"

  /** `isPublicPage`: one of the four pages, exactly. */
  predicate IsPublicPage(path: string) {
    path in PUBLIC_PAGES
  }

  /** `isPublicPath`: a public page, or anything that begins with a public
      API prefix. */
  predicate IsPublicPath(path: string) {
    IsPublicPage(path) || exists k :: 0 <= k < |PUBLIC_API_PREFIXES| && StartsWith(path, PUBLIC_API_PREFIXES[k])
  }

  /** `isAdminPage`. */
  predicate IsAdminPage(path: string) {
    StartsWith(path, ADMIN_PREFIX)
  }

  /** `isAdminPath` is the same test under a second name. */
  predicate IsAdminPath(path: string) {
    IsAdminPage(path)
  }

  /** A prefix of a prefix is a prefix. */
  lemma StartsWithTrans(s: string, longer: string, shorter: string)
    requires StartsWith(s, longer) && StartsWith(longer, shorter)
    ensures StartsWith(s, shorter)
  {
    assert s[..|shorter|] == longer[..|shorter|];
  }

  /** Every public path that is not one of the four pages lies under
      `/api/`. */
  lemma {:induction false} PublicPathShape(path: string)
    ensures IsPublicPath(path) <==> IsPublicPage(path) || (StartsWith(path, "/api/") && IsPublicPath(path))
    ensures IsPublicPath(path) && !IsPublicPage(path) ==> StartsWith(path, "/api/")
  {
    if IsPublicPath(path) && !IsPublicPage(path) {
      var k :| 0 <= k < |PUBLIC_API_PREFIXES| && StartsWith(path, PUBLIC_API_PREFIXES[k]);
      assert StartsWith(PUBLIC_API_PREFIXES[k], "/api/");
      StartsWithTrans(path, PUBLIC_API_PREFIXES[k], "/api/");
    }
  }

  /** The prefix test makes every extension of a listed prefix public: any
      path under the refresh route, and also `/api/setup-wizard`, which only
      shares its first characters with `/api/setup`. */
  lemma {:induction false} PrefixesExtend(suffix: string)
    ensures IsPublicPath("/api/auth/refresh" + suffix)
    ensures IsPublicPath("/api/setup" + suffix)
  {
    assert StartsWith("/api/auth/refresh" + suffix, PUBLIC_API_PREFIXES[5]);
    assert StartsWith("/api/setup" + suffix, PUBLIC_API_PREFIXES[2]);
  }

  /** No public page and no public API path is in the admin area. */
  lemma {:induction false} PublicIsNeverAdmin(path: string)
    ensures IsPublicPath(path) ==> !IsAdminPage(path)
  {
    if IsPublicPath(path) {
      if IsPublicPage(path) {
        assert path == "/" || path == "/login" || path == "/users/register" || path == "/setup";
        assert |path| < |ADMIN_PREFIX| || path[1] != ADMIN_PREFIX[1];
      } else {
        PublicPathShape(path);
        assert path[2] == 'p' != ADMIN_PREFIX[2];
      }
    }
  }
}

=== FILE: auth_context.dfy ===
/** The authentication state of `src/context/AuthContext.js`: the provider's
    `user`, `isAuthenticated`, `isLoading` and `hasInitialized`, over the
    request wrapper whose in-memory token it sets. The provider listens to
    the wrapper's `tokenRefreshed` and `logout` window events; here every
    event a client step dispatches is delivered right after that step. The
    provider imports the wrapper as written (`ApiClient.StepAsWritten`), so
    its invariant carries the wrapper's bookkeeping (`ApiClient.Consistent`)
    but not the property only the correction keeps. Navigation to `/login`
    is recorded in `navigatedTo`. */
module AuthContext {
  import opened Wrappers
  import Db
  import ApiClient

  const LOGOUT_URL := "/api/users/logout"
  const LOGIN_PAGE := "/login"

  datatype Provider = Provider(user: Option<Db.SessionUser>, isAuthenticated: bool, isLoading: bool,
                               hasInitialized: bool, client: ApiClient.Client,
                               pendingLogouts: seq<nat>, navigatedTo: Option<string>)

  /** The body `checkAuthStatus` reads from an ok refresh response. */
  datatype AuthData = AuthData(accessToken: Option<string>, user: Option<Db.SessionUser>)

  /** How the `checkAuthStatus` fetch ended: ok with its body, a non-ok
      status, or a throw (network or body parsing). */
  datatype CheckOutcome = CheckOk(data: AuthData) | CheckNotOk(status: nat) | CheckThrew(error: string)

  datatype Input =
    | CheckStarted
    | CheckFinished(outcome: CheckOutcome)
    | LoginCalled(accessToken: Option<string>, userData: Option<Db.SessionUser>)
    | LogoutCalled(callId: nat)
    | ClientInput(input: ApiClient.Input, logoutCallId: nat)
    | LogoutSettled(callId: nat)

  /** The provider's first render. */
  function Initial(): (p: Provider)
    ensures p.user.None? && !p.isAuthenticated && p.isLoading && !p.hasInitialized
    ensures p.client == ApiClient.Initial
  {
    Provider(None, false, true, false, ApiClient.Initial, [], None)
  }

  /** `handleLogout`: forget the token and the user first, then ask the
      server to log out through the wrapper. */
  function HandleLogout(p: Provider, callId: nat): (r: Provider)
    ensures r.user.None? && !r.isAuthenticated && r.client.token.None?
    ensures r.isLoading == p.isLoading && r.hasInitialized == p.hasInitialized && r.navigatedTo == p.navigatedTo
    ensures r.pendingLogouts == p.pendingLogouts + [callId]
    ensures r.client.events == p.client.events
    // The logout request goes out without a bearer header.
    ensures callId !in p.client.calls ==>
              && |r.client.sent| == |p.client.sent| + 1 && r.client.sent[..|p.client.sent|] == p.client.sent
              && var req := r.client.sent[|p.client.sent|];
                 req.Fetch? && req.url == LOGOUT_URL && "Authorization" !in req.headers
  {
    var cleared := ApiClient.SetAccessToken(p.client, None);
    p.(user := None, isAuthenticated := false,
       client := ApiClient.StepAsWritten(cleared, ApiClient.Call(callId, LOGOUT_URL, map[])),
       pendingLogouts := p.pendingLogouts + [callId])
  }

  /** The `tokenRefreshed` listener: token and user are overwritten only
      when the event carries them; the provider becomes authenticated. */
  function OnTokenRefreshed(p: Provider, detail: ApiClient.RefreshData): (r: Provider)
    ensures r.isAuthenticated
    ensures r.client.token == if detail.accessToken != "" then Some(detail.accessToken) else p.client.token
    ensures r.user == if detail.user.Some? then detail.user else p.user
    ensures r.client == p.client.(token := r.client.token)
  {
    var client := if detail.accessToken != "" then ApiClient.SetAccessToken(p.client, Some(detail.accessToken)) else p.client;
    p.(client := client, user := if detail.user.Some? then detail.user else p.user, isAuthenticated := true)
  }

  /** Delivers the window events a client step dispatched, in order. */
  function Deliver(p: Provider, events: seq<ApiClient.WindowEvent>, logoutCallId: nat): (r: Provider)
    // The listeners touch neither loading, initialisation, navigation nor
    // the wrapper's event log.
    ensures r.isLoading == p.isLoading && r.hasInitialized == p.hasInitialized && r.navigatedTo == p.navigatedTo
    ensures r.client.events == p.client.events
    // A `logout` event queues one logout request; `tokenRefreshed` queues none.
    ensures p.pendingLogouts <= r.pendingLogouts
    ensures (forall k :: 0 <= k < |events| ==> events[k].TokenRefreshed?) ==> r.pendingLogouts == p.pendingLogouts
    // After a `tokenRefreshed` last event the visitor is authenticated; after
    // a `logout` last event there is neither token nor user.
    ensures |events| > 0 && events[|events| - 1].TokenRefreshed? ==> r.isAuthenticated
    ensures |events| > 0 && events[|events| - 1].LogoutEvent? ==>
              !r.isAuthenticated && r.user.None? && r.client.token.None?
    decreases |events|
  {
    if |events| == 0 then p
    else
      var q := match events[0]
        case TokenRefreshed(detail) => OnTokenRefreshed(p, detail)
        case LogoutEvent => HandleLogout(p, logoutCallId);
      Deliver(q, events[1..], logoutCallId)
  }

  /** `checkAuthStatus` once its fetch has ended: success installs the
      session, anything else clears it; either way loading ends and the
      provider is initialised. */
  function FinishCheck(p: Provider, outcome: CheckOutcome): (r: Provider)
    ensures !r.isLoading && r.hasInitialized
    ensures outcome.CheckOk? ==> r.isAuthenticated && r.client.token == outcome.data.accessToken &&
                                 r.user == outcome.data.user
    ensures !outcome.CheckOk? ==> !r.isAuthenticated && r.user.None? && r.client.token.None?
    ensures r.client == p.client.(token := r.client.token)
  {
    var p1 := match outcome
      case CheckOk(data) =>
        p.(client := ApiClient.SetAccessToken(p.client, data.accessToken), user := data.user, isAuthenticated := true)
      case _ =>
        p.(isAuthenticated := false, user := None, client := ApiClient.SetAccessToken(p.client, None));
    p1.(isLoading := false, hasInitialized := true)
  }

  /** One provider event. */
  function Step(p: Provider, input: Input): (r: Provider)
    // `checkAuthStatus` starts by setting loading, and nothing else.
    ensures input.CheckStarted? ==>
              r.isLoading && r.user == p.user && r.isAuthenticated == p.isAuthenticated && r.client == p.client &&
              r.hasInitialized == p.hasInitialized && r.pendingLogouts == p.pendingLogouts && r.navigatedTo == p.navigatedTo
    ensures input.CheckFinished? ==> r == FinishCheck(p, input.outcome)
    // `login` stores the token in the wrapper, the user, and the flag.
    ensures input.LoginCalled? ==>
              r.client.token == input.accessToken && r.user == input.userData && r.isAuthenticated &&
              r.client == p.client.(token := input.accessToken) &&
              r.isLoading == p.isLoading && r.hasInitialized == p.hasInitialized &&
              r.pendingLogouts == p.pendingLogouts && r.navigatedTo == p.navigatedTo
    ensures input.LogoutCalled? ==> r == HandleLogout(p, input.callId)
    // A wrapper step is followed by its listeners; without a dispatched
    // event only the wrapper changes.
    ensures input.ClientInput? ==>
              r.isLoading == p.isLoading && r.hasInitialized == p.hasInitialized && r.navigatedTo == p.navigatedTo &&
              r.client.events == ApiClient.StepAsWritten(p.client, input.input).events
    ensures input.ClientInput? && |ApiClient.StepAsWritten(p.client, input.input).events| == |p.client.events| ==>
              r == p.(client := ApiClient.StepAsWritten(p.client, input.input))
    // The `finally` of `handleLogout` navigates once its own request has
    // ended; nothing else changes.
    ensures input.LogoutSettled? ==> r.(navigatedTo := p.navigatedTo) == p
    ensures input.LogoutSettled? && input.callId in p.pendingLogouts && input.callId in p.client.calls &&
            (p.client.calls[input.callId].Returned? || p.client.calls[input.callId].Failed?) ==>
              r.navigatedTo == Some(LOGIN_PAGE)
    ensures input.LogoutSettled? && !(input.callId in p.pendingLogouts && input.callId in p.client.calls) ==> r == p
  {
    match input
    case CheckStarted => p.(isLoading := true)
    case CheckFinished(outcome) => FinishCheck(p, outcome)
    case LoginCalled(token, userData) =>
      p.(client := ApiClient.SetAccessToken(p.client, token), user := userData, isAuthenticated := true)
    case LogoutCalled(id) => HandleLogout(p, id)
    case ClientInput(i, logoutId) =>
      var stepped := ApiClient.StepAsWritten(p.client, i);
      var dispatched := stepped.events[|p.client.events|..];
      Deliver(p.(client := stepped), dispatched, logoutId)
    case LogoutSettled(id) =>
      if id in p.pendingLogouts && id in p.client.calls &&
         (p.client.calls[id].Returned? || p.client.calls[id].Failed?)
      then p.(navigatedTo := Some(LOGIN_PAGE))
      else p
  }

  /** The `logout` event runs exactly the logout transition. */
  lemma LogoutEventIsLogout(p: Provider, callId: nat)
    ensures Deliver(p, [ApiClient.LogoutEvent], callId) == HandleLogout(p, callId)
  {
    assert [ApiClient.LogoutEvent][1..] == [];
  }

  /** Once the logout request has ended, successfully or not, the browser
      is sent to the login page. */
  lemma LogoutAlwaysNavigates(p: Provider, callId: nat, status: nat, error: string)
    requires callId in p.pendingLogouts && callId in p.client.calls
    requires p.client.calls[callId] == ApiClient.Returned(status) || p.client.calls[callId] == ApiClient.Failed(error)
    ensures Step(p, LogoutSettled(callId)).navigatedTo == Some(LOGIN_PAGE)
  {
  }

  /** The provider never holds a token or a user while it reports the
      visitor as logged out; and the wrapper underneath keeps its
      bookkeeping. */
  predicate Inv(p: Provider) {
    && (p.client.token.Some? ==> p.isAuthenticated)
    && (p.user.Some? ==> p.isAuthenticated)
    && ApiClient.Consistent(p.client)
  }

  lemma InitialInv()
    ensures Inv(Initial())
  {
    ApiClient.InitialInv();
  }

  lemma {:induction false} HandleLogoutInv(p: Provider, callId: nat)
    requires ApiClient.Consistent(p.client)
    ensures Inv(HandleLogout(p, callId))
  {
    var cleared := ApiClient.SetAccessToken(p.client, None);
    ApiClient.CallConsistent(cleared, callId, LOGOUT_URL, map[]);
    assert ApiClient.StepAsWritten(cleared, ApiClient.Call(callId, LOGOUT_URL, map[])).token.None?;
  }

  /** Delivering events keeps the invariant, starting from a state whose
      only possible flaw is a token the next `tokenRefreshed` will cover. */
  lemma {:induction false} DeliverInv(p: Provider, events: seq<ApiClient.WindowEvent>, logoutCallId: nat)
    requires ApiClient.Consistent(p.client)
    requires p.user.Some? ==> p.isAuthenticated
    requires p.client.token.Some? ==> p.isAuthenticated || (|events| > 0 && (events[0].TokenRefreshed? || events[0].LogoutEvent?))
    ensures Inv(Deliver(p, events, logoutCallId))
    decreases |events|
  {
    if |events| > 0 {
      var q := match events[0]
        case TokenRefreshed(detail) => OnTokenRefreshed(p, detail)
        case LogoutEvent => HandleLogout(p, logoutCallId);
      match events[0] {
        case TokenRefreshed(detail) =>
          assert q.client.token == p.client.token || q.client.token == Some(detail.accessToken);
        case LogoutEvent =>
          HandleLogoutInv(p, logoutCallId);
      }
      DeliverInv(q, events[1..], logoutCallId);
    }
  }

  /** A client step sets the token only on a successful refresh, and then it
      dispatches `tokenRefreshed` as its first event. */
  lemma ClientStepToken(c: ApiClient.Client, i: ApiClient.Input)
    ensures var r := ApiClient.StepAsWritten(c, i);
            r.token == c.token ||
            (|r.events| > |c.events| && r.events[|c.events|].TokenRefreshed?)
    ensures c.events <= ApiClient.StepAsWritten(c, i).events
  {
  }

  /** Every provider transition keeps `Inv`. */
  lemma {:induction false} StepInv(p: Provider, input: Input)
    requires Inv(p)
    ensures Inv(Step(p, input))
  {
    match input
    case CheckStarted =>
    case CheckFinished(outcome) =>
    case LoginCalled(token, userData) =>
    case LogoutCalled(id) =>
      HandleLogoutInv(p, id);
    case ClientInput(i, logoutId) =>
      var stepped := ApiClient.StepAsWritten(p.client, i);
      ApiClient.StepAsWrittenConsistent(p.client, i);
      ClientStepToken(p.client, i);
      DeliverInv(p.(client := stepped), stepped.events[|p.client.events|..], logoutId);
    case LogoutSettled(id) =>
  }

  // ---------------------------------------------------------------------
  // useAuth

  const USE_AUTH_ERROR := "useAuth must be used within an AuthProvider"

  /** What `useContext(AuthContext)` returns: the provider's value inside
      an `AuthProvider`, otherwise the context's default. */
  datatype ContextValue = Undefined | Null | Value(provider: Provider)

  /** `createContext(null)`: the default is `null`. */
  const DEFAULT_CONTEXT := Null

  /** `useContext` inside a provider, or outside any. */
  function Lookup(inside: Option<Provider>): (v: ContextValue)
    ensures inside.Some? ==> v == Value(inside.value)
    ensures inside.None? ==> v == DEFAULT_CONTEXT
  {
    match inside
    case Some(p) => Value(p)
    case None => DEFAULT_CONTEXT
  }

  /** `useAuth` as written: it throws only for `undefined`. */
  function UseAuthAsWritten(v: ContextValue): (r: Result<ContextValue, string>)
    ensures r.Err? <==> v.Undefined?
    ensures r.Ok? ==> r.value == v
  {
    if v.Undefined? then Err(USE_AUTH_ERROR) else Ok(v)
  }

  /** The guard as written never fires: outside a provider the context is
      `null`, not `undefined`, so `useAuth` returns `null` and the caller
      fails later, on its first field access, instead of being told why. */
  lemma GuardNeverFires(inside: Option<Provider>)
    ensures UseAuthAsWritten(Lookup(inside)).Ok?
    ensures inside.None? ==> UseAuthAsWritten(Lookup(inside)) == Ok(Null)
  {
  }

  /** `useAuth` with the guard the message describes: anything but a
      provider's value throws. */
  function UseAuth(v: ContextValue): (r: Result<Provider, string>)
    ensures r.Ok? <==> v.Value?
    ensures r.Ok? ==> r.value == v.provider
    ensures r.Err? ==> r.error == USE_AUTH_ERROR
  {
    if v.Value? then Ok(v.provider) else Err(USE_AUTH_ERROR)
  }

  /** The corrected hook returns the provider inside one and throws its
      message outside. */
  lemma UseAuthOutsideProviderThrows(inside: Option<Provider>)
    ensures inside.None? ==> UseAuth(Lookup(inside)) == Err(USE_AUTH_ERROR)
    ensures inside.Some? ==> UseAuth(Lookup(inside)) == Ok(inside.value)
  {
  }
}

=== FILE: auth_guard.dfy ===
/** The redirect decision inside the effect of `src/components/AuthGuard.js`.
    It reads the provider's `hasInitialized`, `isAuthenticated` and `user`,
    and the current path and query string. `encodeURIComponent` is a
    parameter. Reading `user.role` while the user is null throws; that
    outcome is `Throws`. */
module AuthGuard {
  import opened Wrappers
  import opened Strings
  import Db
  import AuthConfig
  import Middleware

  const AUTH_PAGES: seq<string> := ["/login", "/users/register", "/setup"]
  const HOME := "/"
  const LOGIN_REDIRECT := "/login?redirectTo="

  datatype Decision = Wait | Stay | Replace(url: string) | Throws

  /** The role dashboards, and `/` for any other role. */
  function Dashboard(role: string): (url: string)
    ensures role == Db.ADMIN ==> url == "/admin/users"
    ensures role == Db.PARENT ==> url == "/children"
    ensures role == Db.CHILD ==> url == "/chat"
    ensures role !in {Db.ADMIN, Db.PARENT, Db.CHILD} ==> url == HOME
  {
    if role == Db.ADMIN then "/admin/users"
    else if role == Db.PARENT then "/children"
    else if role == Db.CHILD then "/chat"
    else HOME
  }

  /** The page to come back to: the path, plus `?query` when there is one. */
  function ReturnTo(path: string, query: string): (r: string)
    ensures StartsWith(r, path)
    ensures query == "" ==> r == path
    ensures query != "" ==> r[|path|..] == "?" + query
  {
    path + (if query != "" then "?" + query else "")
  }

  function Decide(hasInitialized: bool, isAuthenticated: bool, user: Option<Db.SessionUser>,
                  path: string, query: string, encode: string -> string): (d: Decision)
    ensures !hasInitialized ==> d == Wait
    // An authenticated visitor on a login-type page goes to the role's
    // dashboard.
    ensures hasInitialized && isAuthenticated && path in AUTH_PAGES ==>
              d == if user.Some? then Replace(Dashboard(user.value.role)) else Throws
    // A non-admin in the admin area goes home.
    ensures hasInitialized && isAuthenticated && path !in AUTH_PAGES && AuthConfig.IsAdminPage(path) ==>
              d == if user.None? then Throws else if user.value.role != Db.ADMIN then Replace(HOME) else Stay
    // An anonymous visitor on a page that is not public goes to the login
    // page, remembering the path and query.
    ensures hasInitialized && !isAuthenticated ==>
              d == if AuthConfig.IsPublicPage(path) then Stay else Replace(LOGIN_REDIRECT + encode(ReturnTo(path, query)))
    ensures hasInitialized && isAuthenticated && path !in AUTH_PAGES && !AuthConfig.IsAdminPage(path) ==> d == Stay
  {
    if !hasInitialized then Wait
    else if isAuthenticated then
      if path in AUTH_PAGES then
        if user.None? then Throws else Replace(Dashboard(user.value.role))
      else if AuthConfig.IsAdminPage(path) then
        if user.None? then Throws
        else if user.value.role != Db.ADMIN then Replace(HOME) else Stay
      else Stay
    else if !AuthConfig.IsPublicPage(path) then
      Replace(LOGIN_REDIRECT + encode(ReturnTo(path, query)))
    else Stay
  }

  /** Every dashboard is open to its role: only the admin's lies in the
      admin area, and none is a login-type page. */
  lemma {:induction false} DashboardFitsRole(role: string)
    ensures AuthConfig.IsAdminPage(Dashboard(role)) <==> role == Db.ADMIN
    ensures Dashboard(role) !in AUTH_PAGES
  {
    var url := Dashboard(role);
    if role == Db.ADMIN {
      assert url[..6] == "/admin";
    } else {
      assert url == "/children" || url == "/chat" || url == HOME;
      assert |url| < 6 || url[1] != 'a';
    }
  }

  /** An authenticated visitor is redirected at most once: on the page the
      guard sends them to, it stays. */
  lemma {:induction false} AuthenticatedRedirectSettles(user: Db.SessionUser, path: string, query: string,
                                                       encode: string -> string)
    requires Decide(true, true, Some(user), path, query, encode).Replace?
    ensures Decide(true, true, Some(user), Decide(true, true, Some(user), path, query, encode).url, "", encode) == Stay
  {
    DashboardFitsRole(user.role);
    assert HOME !in AUTH_PAGES && !AuthConfig.IsAdminPage(HOME);
  }

  /** An anonymous visitor is sent to the login page, which the guard leaves
      alone; the four public pages themselves are never redirected. */
  lemma AnonymousRedirectSettles(path: string, query: string, encode: string -> string)
    ensures Decide(true, false, None, "/login", query, encode) == Stay
    ensures AuthConfig.IsPublicPage(path) ==> Decide(true, false, None, path, query, encode) == Stay
    ensures !AuthConfig.IsPublicPage(path) ==> StartsWith(Decide(true, false, None, path, query, encode).url, "/login")
  {
    assert "/login" in AuthConfig.PUBLIC_PAGES;
  }

  /** The guard and the edge middleware agree on anonymous visitors: on a
      page outside `/api/`, `/_next` and icons, the middleware redirects a
      browser without the cookie exactly when the guard redirects an
      unauthenticated visitor, and both point at the login page. */
  lemma AgreesWithMiddleware(path: string, query: string, encode: string -> string)
    requires !StartsWith(path, "/api/") && !StartsWith(path, "/_next") && !EndsWith(path, ".ico")
    ensures Middleware.Middleware(path, None, encode).Redirect? <==> Decide(true, false, None, path, query, encode).Replace?
    ensures Middleware.Middleware(path, None, encode).Redirect? ==>
              StartsWith(Middleware.Middleware(path, None, encode).location, Middleware.LOGIN_PAGE) &&
              StartsWith(Decide(true, false, None, path, query, encode).url, Middleware.LOGIN_PAGE)
  {
    Middleware.PassPagesArePublicPages(path);
  }
}

=== FILE: auth_utils.dfy ===
/** The browser-side token helpers of `src/utils/authUtils.js`: `getCookie`
    reads `document.cookie` with the pattern `(^|;\s*)name=([^;]*)`,
    `isTokenValid` decodes the `token` cookie without checking its
    signature, and `getUserFromToken` projects its claims. The cookie text
    (`None` where there is no document), `decodeURIComponent`, `jwtDecode`
    and the clock are parameters; the decoders answer `None` where the real
    ones throw. */
module AuthUtils {
  import opened Wrappers
  import opened Strings
  import Jwt
  import CookieSync

  const TOKEN_COOKIE := "token"

  /** A call that either returns a value or lets an exception escape. */
  datatype Outcome<T> = Returns(value: T) | Throws

  /** What `getCookie` yields: nothing, a decoded value, or the exception
      of `decodeURIComponent`, which it does not catch. */
  datatype Read = Missing | Got(value: string) | DecodeThrew

  /** The claims `jwtDecode` returns; any of them may be absent. */
  datatype Claims = Claims(id: Option<string>, email: Option<string>, firstName: Option<string>,
                           lastName: Option<string>, role: Option<string>, exp: Option<int>)

  /** The object `getUserFromToken` builds. */
  datatype TokenUser = TokenUser(id: Option<string>, email: Option<string>, firstName: Option<string>,
                                 lastName: Option<string>, role: Option<string>)

  /** `isTokenValid`'s answer and whether it called `removeAuthCookie`. */
  datatype TokenCheck = TokenCheck(valid: bool, removesCookie: bool)

  /** Index `i` follows `;` and nothing but white space. */
  predicate AfterSemicolon(s: string, i: int)
    decreases i
  {
    0 < i <= |s| && (s[i - 1] == ';' || (IsSpace(s[i - 1]) && AfterSemicolon(s, i - 1)))
  }

  /** The group `(^|;\s*)` can end at `i`. */
  predicate Boundary(s: string, i: int) {
    i == 0 || AfterSemicolon(s, i)
  }

  predicate Candidate(s: string, name: string, i: int) {
    Boundary(s, i) && MatchAt(s, name + "=", i)
  }

  /** Where the name of the leftmost match starts, or -1. For a name that
      starts with neither white space nor `;`, every start of a match of the
      whole pattern fixes where the name begins, and a later name never
      belongs to an earlier start, so the leftmost name is the regular
      expression's match. */
  function CookieMatch(s: string, name: string, from: nat): (r: int)
    requires from <= |s|
    ensures r == -1 <==> forall j :: from <= j <= |s| ==> !Candidate(s, name, j)
    ensures r != -1 ==> from <= r < |s| && Candidate(s, name, r) &&
                        forall j :: from <= j < r ==> !Candidate(s, name, j)
    decreases |s| - from
  {
    if from == |s| then -1
    else if Candidate(s, name, from) then from
    else CookieMatch(s, name, from + 1)
  }

  /** `getCookie(name)`: the decoded text after `name=` up to the next `;`;
      it may be empty and may hold `=`. */
  function GetCookie(document: Option<string>, name: string, decode: string -> Option<string>): (r: Read)
    requires CookieSync.PlainName(name)
    ensures document.None? ==> r == Missing
    ensures document.Some? && CookieMatch(document.value, name, 0) == -1 ==> r == Missing
    ensures document.Some? && CookieMatch(document.value, name, 0) != -1 ==>
              var raw := RunWithout(document.value, CookieMatch(document.value, name, 0) + |name| + 1, ';');
              r == if decode(raw).Some? then Got(decode(raw).value) else DecodeThrew
  {
    if document.None? then Missing
    else
      var i := CookieMatch(document.value, name, 0);
      if i == -1 then Missing
      else
        match decode(RunWithout(document.value, i + |name| + 1, ';'))
        case None => DecodeThrew
        case Some(v) => Got(v)
  }

  /** `decoded.exp && now >= decoded.exp`: an `exp` of 0 counts as absent. */
  predicate Expired(exp: Option<int>, nowMs: nat) {
    exp.Some? && exp.value != 0 && Jwt.Seconds(nowMs) >= exp.value
  }

  /** `isTokenValid()`. */
  function IsTokenValid(document: Option<string>, decode: string -> Option<string>,
                        jwtDecode: string -> Option<Claims>, nowMs: nat): (r: Outcome<TokenCheck>)
    // Only a throwing `decodeURIComponent` escapes.
    ensures r.Throws? <==> GetCookie(document, TOKEN_COOKIE, decode).DecodeThrew?
    ensures r.Returns? && r.value.valid <==>
              var read := GetCookie(document, TOKEN_COOKIE, decode);
              read.Got? && read.value != "" && jwtDecode(read.value).Some? && !Expired(jwtDecode(read.value).value.exp, nowMs)
    // The cookie is removed exactly when a present token is rejected.
    ensures r.Returns? ==> (r.value.removesCookie <==>
              !r.value.valid && GetCookie(document, TOKEN_COOKIE, decode).Got? &&
              GetCookie(document, TOKEN_COOKIE, decode).value != "")
  {
    match GetCookie(document, TOKEN_COOKIE, decode)
    case DecodeThrew => Throws
    case Missing => Returns(TokenCheck(false, false))
    case Got(token) =>
      if token == "" then Returns(TokenCheck(false, false))
      else
        match jwtDecode(token)
        case None => Returns(TokenCheck(false, true))
        case Some(claims) =>
          if Expired(claims.exp, nowMs) then Returns(TokenCheck(false, true)) else Returns(TokenCheck(true, false))
  }

  function Project(c: Claims): TokenUser {
    TokenUser(c.id, c.email, c.firstName, c.lastName, c.role)
  }

  /** `getUserFromToken()`: null unless the token is valid, otherwise the
      five claims of the decoded cookie. */
  function GetUserFromToken(document: Option<string>, decode: string -> Option<string>,
                            jwtDecode: string -> Option<Claims>, nowMs: nat): (r: Outcome<Option<TokenUser>>)
    ensures r.Throws? <==> IsTokenValid(document, decode, jwtDecode, nowMs).Throws?
    ensures r.Returns? && r.value.Some? ==> IsTokenValid(document, decode, jwtDecode, nowMs).value.valid
    ensures r.Returns? && r.value.Some? ==>
              var token := GetCookie(document, TOKEN_COOKIE, decode).value;
              r.value.value == Project(jwtDecode(token).value)
  {
    match IsTokenValid(document, decode, jwtDecode, nowMs)
    case Throws => Throws
    case Returns(check) =>
      if !check.valid then Returns(None)
      else
        match GetCookie(document, TOKEN_COOKIE, decode)
        case Got(token) =>
          if token == "" then Returns(None)
          else
            (match jwtDecode(token)
             case None => Returns(None)
             case Some(c) => Returns(Some(Project(c))))
        case _ => Returns(None)
  }

  /** The second read in `getUserFromToken` sees what the first saw, so a
      valid token always yields a user. */
  lemma ValidTokenYieldsUser(document: Option<string>, decode: string -> Option<string>,
                             jwtDecode: string -> Option<Claims>, nowMs: nat)
    requires IsTokenValid(document, decode, jwtDecode, nowMs) == Returns(TokenCheck(true, false))
    ensures GetUserFromToken(document, decode, jwtDecode, nowMs).Returns?
    ensures GetUserFromToken(document, decode, jwtDecode, nowMs).value.Some?
  {
  }

  /** Client and server agree on expiry: for a token whose unverified `exp`
      is the one the server's codec opens, the browser calls it valid
      exactly when the server would still accept it, both following
      section 4.1.4 of RFC 7519. */
  lemma ClientExpiryMatchesServer(c: Jwt.Codec, key: string, token: string, claims: Claims, nowMs: nat)
    requires c.open(token, key).Some? && c.open(token, key).value.exp != 0
    requires claims.exp == Some(c.open(token, key).value.exp as int)
    ensures !Expired(claims.exp, nowMs) <==> Jwt.VerifyWith(c, key, token, nowMs, Jwt.INVALID_ACCESS).Ok?
  {
  }

  /** A token cookie with no `exp` claim never expires in the browser's
      eyes. */
  lemma MissingExpNeverExpires(document: Option<string>, decode: string -> Option<string>,
                               jwtDecode: string -> Option<Claims>, nowMs: nat, later: nat)
    requires IsTokenValid(document, decode, jwtDecode, nowMs) == Returns(TokenCheck(true, false))
    requires jwtDecode(GetCookie(document, TOKEN_COOKIE, decode).value).value.exp.None?
    ensures IsTokenValid(document, decode, jwtDecode, later) == Returns(TokenCheck(true, false))
  {
  }

  /** Unlike the Set-Cookie reader of `cookieSync.js`, this pattern is
      anchored: `name=` in the middle of a longer cookie name is not a
      match. On such a header the two readers disagree. */
  lemma {:induction false} ReadersDisagreeOnLongerNames(h: string, name: string, at: nat, decode: string -> Option<string>)
    requires CookieSync.PlainName(name) && 0 < at && CookieSync.SetCookieCandidate(h, name, at)
    requires name[0] !in h[..at] && h[at - 1] != ';' && !IsSpace(h[at - 1])
    requires forall j :: 0 <= j <= |h| && j != at ==> !MatchAt(h, name + "=", j)
    ensures GetCookie(Some(h), name, decode) == Missing
    ensures CookieSync.SetCookieSource(Some(h), name, decode) == decode(RunWithout(h, at + |name| + 1, ';'))
  {
    CookieSync.SetCookieMatchIsUnanchored(h, name, at, decode);
    assert !AfterSemicolon(h, at);
    assert !Candidate(h, name, at);
  }

  /** A cookie at the very start of the text is found, and its value is
      everything up to the next `;`, `=` included. */
  lemma {:induction false} LeadingCookieFound(h: string, name: string, decode: string -> Option<string>)
    requires CookieSync.PlainName(name) && MatchAt(h, name + "=", 0)
    ensures CookieMatch(h, name, 0) == 0
    ensures decode(RunWithout(h, |name| + 1, ';')).Some? ==>
              GetCookie(Some(h), name, decode) == Got(decode(RunWithout(h, |name| + 1, ';')).value)
  {
    assert Candidate(h, name, 0);
  }
}

=== FILE: chat.dfy ===
/** `POST /api/chat` of `src/app/api/chat/route.js`: a conversation turn
    that either evaluates the answer to the question asked last, asks a new
    question from the `questions` table, or passes the message to the
    language model. The question asked is remembered only through a
    `[Q_ID=...]` tag appended to the stored assistant message.
    The language model, the clock and `ORDER BY RANDOM()` are parameters. */
module Chat {
  import opened Wrappers
  import opened Strings
  import Jwt
  import Db
  import Http

  const TAG_OPEN := "[Q_ID="
  const QUIZ_WORD := "問題"
  const QUIZ_WORD_KATAKANA := "クイズ"
  const USER := "user"
  const ASSISTANT := "assistant"
  const DEFAULT_SYSTEM_PROMPT := "あなたは子どもに優しく丁寧に教える先生です。"
  const NO_EXPLANATION := "この問題には詳しい解説がありません。"
  const AUTH_ERROR_PREFIX := "認証エラー: "
  const CHAT_FAILED := "会話処理に失敗しました"
  /** What the runtime throws for `message.includes` on an absent message.
      It is written as short pieces: over one long literal the verifier
      cannot show which characters the text lacks. */
  const MESSAGE_UNDEFINED := "Cannot read " + "properties " + "of undefined " + "(reading " + "'includes')"

  // ---------------------------------------------------------------------
  // Age

  /** On day `t`, the `n`-th birthday after `b` has come. */
  predicate Reached(b: Db.Date, t: Db.Date, n: int) {
    || b.year + n < t.year
    || (b.year + n == t.year && (b.month < t.month || (b.month == t.month && b.day <= t.day)))
  }

  /** `calculateAge`: no birthday gives no age; otherwise the number of
      birthdays that have come by `today`. */
  function CalculateAge(birthday: Option<Db.Date>, today: Db.Date): (age: Option<int>)
    ensures age.None? <==> birthday.None?
    ensures age.Some? ==> Reached(birthday.value, today, age.value) && !Reached(birthday.value, today, age.value + 1)
  {
    match birthday
    case None => None
    case Some(b) =>
      var years := today.year - b.year;
      var m := today.month - b.month;
      Some(if m < 0 || (m == 0 && today.day < b.day) then years - 1 else years)
  }

  /** Birthdays come in order: once the `n`-th has come, so have all before it. */
  lemma {:induction false} ReachedDownward(b: Db.Date, t: Db.Date, n: int, k: int)
    requires k <= n && Reached(b, t, n)
    ensures Reached(b, t, k)
  {
  }

  /** The age is the only count of birthdays that has come while the next
      has not. */
  lemma {:induction false} AgeIsUnique(b: Db.Date, t: Db.Date, n: int)
    requires Reached(b, t, n) && !Reached(b, t, n + 1)
    ensures CalculateAge(Some(b), t) == Some(n)
  {
    var a := CalculateAge(Some(b), t).value;
    if a < n {
      ReachedDownward(b, t, n, a + 1);
    } else if n < a {
      ReachedDownward(b, t, a, n + 1);
    }
  }

  /** `if (age)`: an age filters the questions only when it is a non-zero
      number. */
  predicate Truthy(age: Option<int>) {
    age.Some? && age.value != 0
  }

  // ---------------------------------------------------------------------
  // Questions

  /** A `questions` row; a missing age bound is SQL `NULL`. */
  datatype Question = Question(id: string, text: string, correctAnswer: Option<string>,
                               explanation: Option<string>, ageMin: Option<int>, ageMax: Option<int>)

  /** `target_age_min <= age AND target_age_max >= age`; a comparison with
      `NULL` is not true, so a row without both bounds never suits. */
  predicate Suits(q: Question, age: int) {
    q.ageMin.Some? && q.ageMax.Some? && q.ageMin.value <= age <= q.ageMax.value
  }

  /** The rows `SELECT ... WHERE` the age bounds hold, in table order. */
  function SuitableFor(questions: seq<Question>, age: int): (r: seq<Question>)
    ensures forall q :: q in r <==> q in questions && Suits(q, age)
  {
    Filter(questions, (q: Question) => Suits(q, age))
  }

  /** The rows the new question is drawn from: those suiting a truthy age,
      otherwise the whole table. */
  function Candidates(questions: seq<Question>, age: Option<int>): (r: seq<Question>)
    ensures !Truthy(age) ==> r == questions
    ensures Truthy(age) ==> forall q :: q in r <==> q in questions && Suits(q, age.value)
  {
    if Truthy(age) then SuitableFor(questions, age.value) else questions
  }

  /** `ORDER BY RANDOM() LIMIT 1`: `pick` stands for the randomness, and
      any of the rows can come out. */
  function Draw(rows: seq<Question>, pick: nat -> nat): (q: Question)
    requires |rows| > 0
    ensures q in rows
  {
    rows[pick(|rows|) % |rows|]
  }

  /** Every row is drawn for some outcome of the randomness. */
  lemma DrawReachesEveryRow(rows: seq<Question>, k: nat)
    requires k < |rows|
    ensures Draw(rows, (n: nat) => k) == rows[k]
  {
  }

  // ---------------------------------------------------------------------
  // The question tag

  /** A character of the class `[0-9a-fA-F-]`. */
  predicate IdChar(c: char) {
    ('0' <= c <= '9') || ('a' <= c <= 'f') || ('A' <= c <= 'F') || c == '-'
  }

  /** An id the tag can carry: one or more id characters (every UUID is one). */
  predicate IsQuestionId(id: string) {
    |id| > 0 && forall k :: 0 <= k < |id| ==> IdChar(id[k])
  }

  /** The greedy run `[0-9a-fA-F-]*` starting at `i`. */
  function IdRun(s: string, i: nat): (r: string)
    requires i <= |s|
    ensures forall k :: 0 <= k < |r| ==> IdChar(r[k])
    ensures i + |r| <= |s| && r == s[i..i + |r|]
    ensures i + |r| == |s| || !IdChar(s[i + |r|])
    decreases |s| - i
  {
    if i == |s| || !IdChar(s[i]) then "" else [s[i]] + IdRun(s, i + 1)
  }

  /** The run from `i` is the stretch of id characters up to the first other
      character. */
  lemma IdRunStops(s: string, i: nat, j: nat)
    requires i <= j <= |s|
    requires forall k :: i <= k < j ==> IdChar(s[k])
    requires j == |s| || !IdChar(s[j])
    ensures IdRun(s, i) == s[i..j]
  {
    var r := IdRun(s, i);
    forall k | i <= k < i + |r| ensures IdChar(s[k]) {
      assert s[k] == r[k - i];
    }
  }

  /** `QUESTION_ID_REGEX`, `/\[Q_ID=([0-9a-fA-F-]+)\]/`, matches at `p`. Its
      group is the greedy run: `]` is no id character, so no shorter run can
      be followed by it. */
  predicate TagAt(s: string, p: nat) {
    && MatchAt(s, TAG_OPEN, p)
    && var r := IdRun(s, p + |TAG_OPEN|);
       |r| > 0 && p + |TAG_OPEN| + |r| < |s| && s[p + |TAG_OPEN| + |r|] == ']'
  }

  /** The leftmost match at or after `from`. */
  function FindTag(s: string, from: nat): (r: Option<nat>)
    requires from <= |s|
    ensures r.Some? ==> from <= r.value < |s| && TagAt(s, r.value) &&
                        forall q: nat :: from <= q < r.value ==> !TagAt(s, q)
    ensures r.None? ==> forall q: nat :: from <= q < |s| ==> !TagAt(s, q)
    decreases |s| - from
  {
    if from == |s| then None
    else if TagAt(s, from) then Some(from)
    else FindTag(s, from + 1)
  }

  /** `message.match(QUESTION_ID_REGEX)` and its group `match[1]`: the id
      of the leftmost tag, if any. */
  function ExtractQuestionId(s: string): (r: Option<string>)
    ensures r.None? <==> forall p: nat :: p < |s| ==> !TagAt(s, p)
    ensures r.Some? ==> IsQuestionId(r.value)
    ensures r.Some? ==> exists p: nat :: p < |s| && TagAt(s, p) && r.value == IdRun(s, p + |TAG_OPEN|) &&
                                         forall q: nat :: q < p ==> !TagAt(s, q)
  {
    match FindTag(s, 0)
    case None => None
    case Some(p) => Some(IdRun(s, p + |TAG_OPEN|))
  }

  /** The stored form of an asked question: its text, a space and the tag. */
  function Tag(text: string, id: string): (r: string)
    ensures |r| == |text| + |TAG_OPEN| + |id| + 2
    ensures r[..|text|] == text
  {
    text + " " + TAG_OPEN + id + "]"
  }

  /** A string laid out as `text`, a space, the tag opening, `id` and `]`,
      described position by position. */
  predicate TaggedLayout(s: string, text: string, id: string) {
    var n := |text|;
    && |s| == n + |TAG_OPEN| + |id| + 2
    && (forall k :: 0 <= k < n ==> s[k] == text[k])
    && s[n] == ' '
    && s[n + 1..n + 1 + |TAG_OPEN|] == TAG_OPEN
    && (forall k :: 0 <= k < |id| ==> s[n + 1 + |TAG_OPEN| + k] == id[k])
    && s[|s| - 1] == ']'
  }

  /** The characters of a tagged text, position by position. */
  lemma TagLayout(text: string, id: string)
    ensures TaggedLayout(Tag(text, id), text, id)
  {
    var s := Tag(text, id);
    assert s == text + [' '] + TAG_OPEN + id + [']'];
  }

  /** Before the appended tag, a tagged text matches exactly where the text
      itself does: a match starting in the text would have to run through
      the space, which is neither an id character nor `]`. */
  lemma TagAtInText(s: string, text: string, id: string, p: nat)
    requires TaggedLayout(s, text, id)
    requires p < |text|
    ensures TagAt(s, p) == TagAt(text, p)
  {
    if p + |TAG_OPEN| <= |text| {
      TagAtInsideText(s, text, id, p);
    } else {
      TagAtAcrossSpace(s, text, id, p);
    }
  }

  /** A match whose opening lies inside the text. */
  lemma TagAtInsideText(s: string, text: string, id: string, p: nat)
    requires TaggedLayout(s, text, id)
    requires p + |TAG_OPEN| <= |text|
    ensures TagAt(s, p) == TagAt(text, p)
  {
    var o := |TAG_OPEN|;
    OpenAgrees(s, text, id, p);
    RunAgrees(s, text, id, p + o);
    ClosingAgrees(s, text, id, p + o + |IdRun(text, p + o)|);
  }

  /** An opening that would run into the space before the tag matches in
      neither string. */
  lemma TagAtAcrossSpace(s: string, text: string, id: string, p: nat)
    requires TaggedLayout(s, text, id)
    requires p < |text| < p + |TAG_OPEN|
    ensures !TagAt(s, p) && !TagAt(text, p)
  {
    var n := |text|;
    assert s[p..p + |TAG_OPEN|][n - p] == s[n] == ' ';
    assert TAG_OPEN[n - p] != ' ';
  }

  /** Up to the space, a closing `]` stands in the tagged string exactly
      where it stands in the text. */
  lemma ClosingAgrees(s: string, text: string, id: string, j: nat)
    requires TaggedLayout(s, text, id)
    requires j <= |text|
    ensures (j < |s| && s[j] == ']') == (j < |text| && text[j] == ']')
  {
    if j < |text| {
      assert s[j] == text[j];
    } else {
      assert s[j] == ' ';
    }
  }

  /** Inside the text, the tag opening occurs in the tagged string exactly
      where it occurs in the text. */
  lemma OpenAgrees(s: string, text: string, id: string, p: nat)
    requires TaggedLayout(s, text, id)
    requires p + |TAG_OPEN| <= |text|
    ensures MatchAt(s, TAG_OPEN, p) == MatchAt(text, TAG_OPEN, p)
  {
    var ws, wt := s[p..p + |TAG_OPEN|], text[p..p + |TAG_OPEN|];
    forall k | 0 <= k < |TAG_OPEN| ensures ws[k] == wt[k] {
      assert ws[k] == s[p + k] && wt[k] == text[p + k];
    }
    assert ws == wt;
  }

  /** An id run starting inside the text stops at the space at the latest,
      so it is the same run in the tagged string. */
  lemma RunAgrees(s: string, text: string, id: string, i: nat)
    requires TaggedLayout(s, text, id)
    requires i <= |text|
    ensures IdRun(s, i) == IdRun(text, i)
  {
    var rt := IdRun(text, i);
    var j := i + |rt|;
    forall k | i <= k < j ensures IdChar(s[k]) {
      assert s[k] == text[k] == rt[k - i];
    }
    if j < |text| {
      assert s[j] == text[j];
    } else {
      assert s[j] == ' ';
    }
    IdRunStops(s, i, j);
  }

  /** The space before the tag and the tag itself. */
  lemma TagAtTag(s: string, text: string, id: string)
    requires TaggedLayout(s, text, id) && IsQuestionId(id)
    ensures !TagAt(s, |text|)
    ensures TagAt(s, |text| + 1)
    ensures IdRun(s, |text| + 1 + |TAG_OPEN|) == id
  {
    var n := |text|;
    var o := |TAG_OPEN|;
    assert s[n..n + o][0] == s[n] == ' ';
    forall k | n + 1 + o <= k < |s| - 1 ensures IdChar(s[k]) {
      assert s[k] == id[k - n - 1 - o];
    }
    IdRunStops(s, n + 1 + o, |s| - 1);
    assert s[n + 1 + o..|s| - 1] == id by {
      forall k | 0 <= k < |id| ensures s[n + 1 + o..|s| - 1][k] == id[k] {
        assert s[n + 1 + o + k] == id[k];
      }
    }
  }

  /** The leftmost match determines the extracted id. */
  lemma ExtractAt(s: string, p: nat)
    requires p < |s| && TagAt(s, p)
    requires forall q: nat :: q < p ==> !TagAt(s, q)
    ensures ExtractQuestionId(s) == Some(IdRun(s, p + |TAG_OPEN|))
  {
    assert FindTag(s, 0) == Some(p);
  }

  /** The round trip over a string described by its layout. */
  lemma LaidOutTagExtracts(s: string, text: string, id: string)
    requires TaggedLayout(s, text, id) && IsQuestionId(id)
    requires ExtractQuestionId(text).None?
    ensures ExtractQuestionId(s) == Some(id)
  {
    NoTagBeforeTag(s, text, id);
    TagAtTag(s, text, id);
    ExtractAt(s, |text| + 1);
  }

  /** Nothing before the appended tag matches: not the text, which holds no
      tag, and not the space. */
  lemma NoTagBeforeTag(s: string, text: string, id: string)
    requires TaggedLayout(s, text, id) && IsQuestionId(id)
    requires ExtractQuestionId(text).None?
    ensures forall q: nat :: q < |text| + 1 ==> !TagAt(s, q)
  {
    forall q: nat | q < |text| + 1 ensures !TagAt(s, q) {
      if q < |text| {
        TagAtInText(s, text, id, q);
      } else {
        TagAtTag(s, text, id);
      }
    }
  }

  /** Round trip: the tag appended to a text without a tag of its own gives
      back exactly the question id. */
  lemma {:induction false} TagRoundTrip(text: string, id: string)
    requires IsQuestionId(id)
    requires ExtractQuestionId(text).None?
    ensures ExtractQuestionId(Tag(text, id)) == Some(id)
  {
    TagLayout(text, id);
    LaidOutTagExtracts(Tag(text, id), text, id);
  }

  // ---------------------------------------------------------------------
  // Conversation log

  /** A `conversation_logs` row, in insertion order; an absent message is
      stored as `NULL`. */
  datatype LogRow = LogRow(userId: string, role: string, message: Option<string>)

  predicate AssistantOf(row: LogRow, uid: string) {
    row.userId == uid && row.role == ASSISTANT
  }

  /** The latest assistant row of the user (`ORDER BY created_at DESC LIMIT 1`). */
  function LastAssistant(logs: seq<LogRow>, uid: string): (r: Option<nat>)
    ensures r.Some? ==> r.value < |logs| && AssistantOf(logs[r.value], uid) &&
                        forall j :: r.value < j < |logs| ==> !AssistantOf(logs[j], uid)
    ensures r.None? ==> forall j :: 0 <= j < |logs| ==> !AssistantOf(logs[j], uid)
    decreases |logs|
  {
    if |logs| == 0 then None
    else if AssistantOf(logs[|logs| - 1], uid) then Some(|logs| - 1)
    else LastAssistant(logs[..|logs| - 1], uid)
  }

  /** `rows[0]?.message || ''`. */
  function LastAssistantText(logs: seq<LogRow>, uid: string): string {
    match LastAssistant(logs, uid)
    case None => ""
    case Some(k) => logs[k].message.GetOr("")
  }

  /** The two rows every answered turn inserts: the user's message, then the
      assistant's. */
  function Exchange(uid: string, message: Option<string>, reply: string): (rows: seq<LogRow>)
    ensures |rows| == 2 && rows[0] == LogRow(uid, USER, message) && rows[1] == LogRow(uid, ASSISTANT, Some(reply))
  {
    [LogRow(uid, USER, message), LogRow(uid, ASSISTANT, Some(reply))]
  }

  /** After an exchange, the user's last assistant message is its reply. */
  lemma ExchangeIsLastAssistant(logs: seq<LogRow>, uid: string, message: Option<string>, reply: string)
    ensures LastAssistantText(logs + Exchange(uid, message, reply), uid) == reply
  {
    var l := logs + Exchange(uid, message, reply);
    assert AssistantOf(l[|l| - 1], uid);
  }

  // ---------------------------------------------------------------------
  // The turn

  /** The fields of the JSON body; absent fields are `None`. */
  datatype ChatRequest = ChatRequest(provider: Option<string>, message: Option<string>,
                                     systemPrompt: Option<string>, childId: Option<string>)

  /** What the language model is told: the evaluation instructions with the
      student's answer, the correct answer and the explanation, or a system
      prompt. Only these inputs are kept, not the instructions' wording. */
  datatype Prompt =
    | Evaluation(answer: Option<string>, correctAnswer: Option<string>, explanation: string)
    | Instruction(systemPrompt: string)

  /** The provider names `fetchLLM` dispatches on. */
  const PROVIDERS: set<string> := {"ollama", "openai", "gemini", "claude"}

  /** What `fetchLLM` answers when anything goes wrong. */
  const LLM_FALLBACK := "(先生が応答できませんでした)"

  /** The provider-specific request for a known provider: the reply text,
      or the message it throws (network, JSON). */
  type Backend = (string, Option<string>, Prompt) -> Result<string, string>

  /** `fetchLLM(provider, message, prompt)`: dispatch on the provider; an
      unknown provider or any throw is caught and becomes the fallback text,
      so the promise never rejects. */
  function FetchLlm(backend: Backend, provider: Option<string>, message: Option<string>, prompt: Prompt): (r: Result<string, string>)
    ensures r.Ok?
    ensures !(provider.Some? && provider.value in PROVIDERS) ==> r.value == LLM_FALLBACK
    ensures provider.Some? && provider.value in PROVIDERS ==>
              r.value == if backend(provider.value, message, prompt).Ok? then backend(provider.value, message, prompt).value
                         else LLM_FALLBACK
  {
    if provider.Some? && provider.value in PROVIDERS then
      match backend(provider.value, message, prompt)
      case Ok(text) => Ok(text)
      case Err(_) => Ok(LLM_FALLBACK)
    else Ok(LLM_FALLBACK)
  }

  datatype Scenario = Evaluate(question: Question) | Ask(question: Question) | Converse | MessageMissing

  /** The `questions` row the tag names (`WHERE id = $1`). */
  function QuestionById(questions: seq<Question>, id: string): Option<Question> {
    Db.First(questions, (q: Question) => q.id == id)
  }

  /** The `children` row the body names; an absent `childId` matches none. */
  function ChildById(children: seq<Db.ChildProfile>, childId: Option<string>): Option<Db.ChildProfile> {
    Db.First(children, (ch: Db.ChildProfile) => childId.Some? && ch.id == childId.value)
  }

  predicate AsksForQuestion(message: string) {
    Contains(message, QUIZ_WORD) || Contains(message, QUIZ_WORD_KATAKANA)
  }

  /** Which of the route's three scenarios runs, given the last assistant
      message of the user. */
  function ChooseScenario(questions: seq<Question>, children: seq<Db.ChildProfile>, last: string,
                          req: ChatRequest, today: Db.Date, pick: nat -> nat): (s: Scenario)
    // A tag naming an existing question wins, and selects that row.
    ensures s.Evaluate? <==> ExtractQuestionId(last).Some? && QuestionById(questions, ExtractQuestionId(last).value).Some?
    ensures s.Evaluate? ==> s.question == QuestionById(questions, ExtractQuestionId(last).value).value
    // Otherwise an absent message cannot be searched.
    ensures s.MessageMissing? <==> !s.Evaluate? && req.message.None?
    // A new question only on request, for an existing child, and suiting
    // the child's age when that age is a non-zero number.
    ensures s.Ask? ==> req.message.Some? && AsksForQuestion(req.message.value) &&
                       ChildById(children, req.childId).Some? && s.question in questions &&
                       var age := CalculateAge(ChildById(children, req.childId).value.birthday, today);
                       Truthy(age) ==> Suits(s.question, age.value)
    // Everything else is a plain conversation turn, including a request for
    // which no child or no question is found.
    ensures s.Converse? <==>
              (!s.Evaluate? && req.message.Some? &&
               (!AsksForQuestion(req.message.value) || ChildById(children, req.childId).None? ||
                |Candidates(questions, CalculateAge(ChildById(children, req.childId).value.birthday, today))| == 0))
  {
    var tagged := match ExtractQuestionId(last)
      case None => None
      case Some(id) => QuestionById(questions, id);
    if tagged.Some? then Evaluate(tagged.value)
    else if req.message.None? then MessageMissing
    else if !AsksForQuestion(req.message.value) then Converse
    else
      match ChildById(children, req.childId)
      case None => Converse
      case Some(child) =>
        var rows := Candidates(questions, CalculateAge(child.birthday, today));
        if |rows| == 0 then Converse else Ask(Draw(rows, pick))
  }

  /** The tables the route reads and writes. */
  datatype Tables = Tables(db: Db.Database, questions: seq<Question>, logs: seq<LogRow>)

  datatype ChatBody = ChatResponse(response: string) | ChatError(error: string)

  datatype Outcome = Outcome(reply: Http.Reply<ChatBody>, logs: seq<LogRow>)

  /** The catch block: a message mentioning `token` or `Authorization` is
      an authentication error (401, message quoted), anything else a generic
      500. Nothing is logged. */
  function Caught(message: string, logs: seq<LogRow>): (out: Outcome)
    ensures out.logs == logs && out.reply.setCookie.None? && out.reply.body.ChatError?
    ensures out.reply.status == 401 <==> Jwt.IsAuthMessage(message)
    ensures out.reply.status == 401 ==> out.reply.body.error == AUTH_ERROR_PREFIX + message
    ensures out.reply.status != 401 ==> out.reply.status == 500 && out.reply.body.error == CHAT_FAILED
  {
    if Jwt.IsAuthMessage(message) then Outcome(Http.Reply(401, ChatError(AUTH_ERROR_PREFIX + message), None), logs)
    else Outcome(Http.Reply(500, ChatError(CHAT_FAILED), None), logs)
  }

  /** A turn answered by the language model: its reply is logged and
      returned; its failure goes to the catch block. */
  function Answered(reply: Result<string, string>, uid: string, message: Option<string>, logs: seq<LogRow>): (out: Outcome)
    ensures reply.Ok? ==> out == Outcome(Http.Reply(200, ChatResponse(reply.value), None), logs + Exchange(uid, message, reply.value))
    ensures reply.Err? ==> out == Caught(reply.error, logs)
    // What the success means: the reply text is returned, nothing earlier
    // in the log changes, and the next request reads it back as the last
    // assistant message.
    ensures reply.Ok? ==> out.reply.status == 200 && out.reply.body == ChatResponse(reply.value) &&
                          logs <= out.logs && LastAssistantText(out.logs, uid) == reply.value
    // A failure logs nothing.
    ensures reply.Err? ==> out.logs == logs && out.reply.status != 200
  {
    match reply
    case Ok(text) =>
      ExchangeIsLastAssistant(logs, uid, message, text);
      Outcome(Http.Reply(200, ChatResponse(text), None), logs + Exchange(uid, message, text))
    case Err(m) => Caught(m, logs)
  }

  function Explanation(q: Question): string {
    if q.explanation.Some? && q.explanation.value != "" then q.explanation.value else NO_EXPLANATION
  }

  function SystemPrompt(req: ChatRequest): string {
    if req.systemPrompt.Some? && req.systemPrompt.value != "" then req.systemPrompt.value else DEFAULT_SYSTEM_PROMPT
  }

  /** The scenario the route runs for an authenticated user whose body
      parsed. */
  function TurnScenario(t: Tables, uid: string, req: ChatRequest, today: Db.Date, pick: nat -> nat): Scenario {
    ChooseScenario(t.questions, t.db.children, LastAssistantText(t.logs, uid), req, today, pick)
  }

  /** The whole route. `body` is the parsed JSON body or the message
      `req.json()` throws; a database fault makes the first query throw. */
  function Post(c: Jwt.Codec, keys: Jwt.Secrets, header: Option<string>, nowMs: nat,
                body: Result<ChatRequest, string>, t: Tables, today: Db.Date,
                pick: nat -> nat, backend: Backend): (out: Outcome)
    ensures out.reply.setCookie.None?
    ensures out.reply.status == 200 || out.reply.status == 401 || out.reply.status == 500
    // Failures log nothing and carry an error; successes log exactly the
    // user's message and the assistant's message.
    ensures out.reply.status != 200 ==> out.logs == t.logs && out.reply.body.ChatError?
    ensures out.reply.status == 200 ==>
              && out.reply.body.ChatResponse?
              && |out.logs| == |t.logs| + 2 && out.logs[..|t.logs|] == t.logs
              && out.logs[|t.logs|].role == USER && out.logs[|t.logs| + 1].role == ASSISTANT
              && body.Ok? && out.logs[|t.logs|].message == body.value.message
    // An unauthenticated request is refused with 401.
    ensures Jwt.VerifyAccessTokenFromHeader(c, keys, header, nowMs).Err? ==>
              out.reply.status == 401 &&
              out.reply.body.error == AUTH_ERROR_PREFIX + Jwt.VerifyAccessTokenFromHeader(c, keys, header, nowMs).error
    // A body that does not parse, and then a database fault, go to the
    // catch block with their own message.
    ensures Jwt.VerifyAccessTokenFromHeader(c, keys, header, nowMs).Ok? && body.Err? ==>
              out == Caught(body.error, t.logs)
    ensures Jwt.VerifyAccessTokenFromHeader(c, keys, header, nowMs).Ok? && body.Ok? && t.db.fault.Some? ==>
              out == Caught(t.db.fault.value, t.logs)
    // A new question: the client sees the bare text, the log keeps it tagged.
    ensures Jwt.VerifyAccessTokenFromHeader(c, keys, header, nowMs).Ok? && body.Ok? && t.db.fault.None? ==>
              var uid := Jwt.VerifyAccessTokenFromHeader(c, keys, header, nowMs).value.payload.id;
              var s := TurnScenario(t, uid, body.value, today, pick);
              && (s.Ask? ==> out.reply.body == ChatResponse(s.question.text) &&
                             out.logs == t.logs + Exchange(uid, body.value.message, Tag(s.question.text, s.question.id)))
              && (s.Evaluate? ==>
                    out == Answered(FetchLlm(backend, body.value.provider, body.value.message,
                                        Evaluation(body.value.message, s.question.correctAnswer, Explanation(s.question))),
                                    uid, body.value.message, t.logs))
              && (s.Converse? ==>
                    out == Answered(FetchLlm(backend, body.value.provider, body.value.message, Instruction(SystemPrompt(body.value))),
                                    uid, body.value.message, t.logs))
              && (s.MessageMissing? ==> out.reply.status == 500)
              // The router catches every LLM failure, so a turn that calls it
              // is always answered.
              && (s.Evaluate? || s.Converse? ==> out.reply.status == 200)
  {
    match Jwt.VerifyAccessTokenFromHeader(c, keys, header, nowMs)
    case Err(m) =>
      Jwt.HeaderGateFailuresAreAuthMessages(c, keys, header, nowMs);
      Caught(m, t.logs)
    case Ok(user) =>
      match body
      case Err(m) => Caught(m, t.logs)
      case Ok(req) =>
        if t.db.fault.Some? then Caught(t.db.fault.value, t.logs)
        else
          var uid := user.payload.id;
          match TurnScenario(t, uid, req, today, pick)
          case Evaluate(q) =>
            Answered(FetchLlm(backend, req.provider, req.message, Evaluation(req.message, q.correctAnswer, Explanation(q))),
                     uid, req.message, t.logs)
          case Ask(q) =>
            Outcome(Http.Reply(200, ChatResponse(q.text), None), t.logs + Exchange(uid, req.message, Tag(q.text, q.id)))
          case Converse =>
            Answered(FetchLlm(backend, req.provider, req.message, Instruction(SystemPrompt(req))), uid, req.message, t.logs)
          case MessageMissing =>
            MessageUndefinedIsNotAuth();
            Caught(MESSAGE_UNDEFINED, t.logs)
  }

  /** An LLM that fails, or a provider the router does not know, never
      reaches the catch block: the conversation turn answers 200 with the
      fallback text, and the log keeps it as the assistant's reply. */
  lemma LlmFailureIsAnswered(c: Jwt.Codec, keys: Jwt.Secrets, header: Option<string>, nowMs: nat,
                             req: ChatRequest, t: Tables, today: Db.Date, pick: nat -> nat, backend: Backend)
    requires Jwt.VerifyAccessTokenFromHeader(c, keys, header, nowMs).Ok? && t.db.fault.None?
    requires TurnScenario(t, Jwt.VerifyAccessTokenFromHeader(c, keys, header, nowMs).value.payload.id, req, today, pick).Converse?
    requires !(req.provider.Some? && req.provider.value in PROVIDERS) ||
             backend(req.provider.value, req.message, Instruction(SystemPrompt(req))).Err?
    ensures var out := Post(c, keys, header, nowMs, Ok(req), t, today, pick, backend);
            out.reply == Http.Reply(200, ChatResponse(LLM_FALLBACK), None) &&
            LastAssistantText(out.logs, Jwt.VerifyAccessTokenFromHeader(c, keys, header, nowMs).value.payload.id) == LLM_FALLBACK
  {
  }

  /** A pattern with a character the text lacks does not occur in it. */
  lemma NotContainsWithoutChar(s: string, sub: string, i: nat)
    requires i < |sub| && sub[i] !in s
    ensures !Contains(s, sub)
  {
    forall j | 0 <= j <= |s| - |sub| ensures !MatchAt(s, sub, j) {
      assert s[j + i] in s;
      assert s[j..j + |sub|][i] == s[j + i];
    }
  }

  /** The `TypeError` of an absent message is not an authentication message. */
  lemma MessageUndefinedIsNotAuth()
    ensures !Jwt.IsAuthMessage(MESSAGE_UNDEFINED)
  {
    assert 'k' !in MESSAGE_UNDEFINED && 'z' !in MESSAGE_UNDEFINED;
    NotContainsWithoutChar(MESSAGE_UNDEFINED, "token", 2);
    NotContainsWithoutChar(MESSAGE_UNDEFINED, "Authorization", 7);
  }

  /** Question ids are the table's key. */
  predicate UniqueIds(questions: seq<Question>) {
    forall i, j :: 0 <= i < j < |questions| ==> questions[i].id != questions[j].id
  }

  /** With unique ids, looking a row up by its own id finds that row. */
  lemma QuestionByOwnId(questions: seq<Question>, q: Question)
    requires UniqueIds(questions) && q in questions
    ensures QuestionById(questions, q.id) == Some(q)
  {
    var k :| 0 <= k < |questions| && questions[k] == q;
    assert questions[k].id == q.id;
  }

  /** Asked, then answered: once a question has been asked, the user's next
      turn, whatever its message, evaluates the answer against that same
      question, as long as its text carries no tag of its own and the row is
      still in the table. */
  lemma {:induction false} AskedQuestionIsEvaluatedNext(t: Tables, uid: string, req: ChatRequest, today: Db.Date,
                                                        pick: nat -> nat, next: ChatRequest, today2: Db.Date,
                                                        pick2: nat -> nat)
    requires TurnScenario(t, uid, req, today, pick).Ask?
    requires var q := TurnScenario(t, uid, req, today, pick).question;
             IsQuestionId(q.id) && ExtractQuestionId(q.text).None? && UniqueIds(t.questions)
    ensures var q := TurnScenario(t, uid, req, today, pick).question;
            var after := t.(logs := t.logs + Exchange(uid, req.message, Tag(q.text, q.id)));
            TurnScenario(after, uid, next, today2, pick2) == Evaluate(q)
  {
    var q := TurnScenario(t, uid, req, today, pick).question;
    var logs := t.logs + Exchange(uid, req.message, Tag(q.text, q.id));
    ExchangeIsLastAssistant(t.logs, uid, req.message, Tag(q.text, q.id));
    TagRoundTrip(q.text, q.id);
    QuestionByOwnId(t.questions, q);
  }

  /** The catch block does not know where an error came from: a body that
      fails to parse with a message mentioning `token` (the runtime's
      "Unexpected token" syntax errors) is answered as an authentication
      error. */
  lemma MalformedBodyCanLookUnauthenticated(c: Jwt.Codec, keys: Jwt.Secrets, header: Option<string>, nowMs: nat,
                                            parseError: string, t: Tables, today: Db.Date, pick: nat -> nat, backend: Backend)
    requires Jwt.VerifyAccessTokenFromHeader(c, keys, header, nowMs).Ok?
    requires Contains(parseError, "token")
    ensures Post(c, keys, header, nowMs, Err(parseError), t, today, pick, backend).reply ==
              Http.Reply(401, ChatError(AUTH_ERROR_PREFIX + parseError), None)
  {
  }
}

=== FILE: cookie_sync.dfy ===
/** The cookie readers of `src/utils/cookieSync.js` and its list of
    deletion strings. `decodeURIComponent` is a parameter that answers
    `None` where the real one throws. The request's three cookie sources
    are given as the values they yield: the `cookies.get` value, the
    `set-cookie` header and the `cookie` header, each `None` when absent. */
module CookieSync {
  import opened Wrappers
  import opened Strings
  import Http

  const UNDEFINED := "undefined"
  const EPOCH := "Thu, 01 Jan 1970 00:00:00 GMT"
  const LOCALHOST := "localhost"

  /** Characters with a meaning in a regular expression. */
  const REGEX_SPECIAL: set<char> := {'.', '*', '+', '?', '^', '$', '(', ')', '[', ']', '{', '}', '|', '\\'}

  /** A cookie name as the callers write it (`token`, `refreshToken`): no
      white space, separators or regular-expression syntax. The Set-Cookie
      reader pastes the name into a regular expression, so other names
      would change the pattern. */
  predicate PlainName(name: string) {
    |name| > 0 &&
    forall k :: 0 <= k < |name| ==> !IsSpace(name[k]) && name[k] != ';' && name[k] != '=' && name[k] !in REGEX_SPECIAL
  }

  // ---------------------------------------------------------------------------
  // The Cookie-header reading: split on `;`, split each piece on `=`, trim

  /** The name of one `;`-piece: its text before the first `=`, trimmed. */
  function PieceName(piece: string): string {
    Trim(Split(piece, '=')[0])
  }

  /** Its value: the text between the first and the second `=`, trimmed;
      `None` (JavaScript's `undefined`) when the piece has no `=`. */
  function PieceValue(piece: string): (r: Option<string>)
    ensures r.None? <==> '=' !in piece
    ensures r.Some? ==> '=' !in r.value
    // The value is the trimmed run after the first `=`, up to the next `=`
    // or the end.
    ensures r.Some? ==> var k := |RunWithout(piece, 0, '=')|;
                        k < |piece| && piece[k] == '=' && r.value == Trim(RunWithout(piece, k + 1, '='))
  {
    SplitFirstPiece(piece, '=');
    var fields := Split(piece, '=');
    if |fields| >= 2 then
      SplitFirstRun(piece, '=');
      SplitSecondRun(piece, '=');
      TrimKeepsAbsent(fields[1], '=');
      Some(Trim(fields[1]))
    else None
  }


  /** The test the loop applies to each piece. */
  function Named(name: string): string -> bool {
    (piece: string) => PieceName(piece) == name
  }

  /** `decodeURIComponent(value)`: an absent value converts to the string
      `"undefined"` first. */
  function DecodeValue(value: Option<string>, decode: string -> Option<string>): Option<string> {
    decode(value.GetOr(UNDEFINED))
  }

  /** The loop over the pieces: the first piece with the name decides, and a
      throwing decode ends the search with nothing. */
  function ReadCookieHeader(header: string, name: string, decode: string -> Option<string>): (r: Option<string>)
    ensures var pieces := Split(header, ';');
            match FirstIndex(pieces, Named(name))
            case None => r.None? && forall k :: 0 <= k < |pieces| ==> PieceName(pieces[k]) != name
            case Some(k) => PieceName(pieces[k]) == name && r == DecodeValue(PieceValue(pieces[k]), decode)
  {
    var pieces := Split(header, ';');
    match FirstIndex(pieces, Named(name))
    case None => None
    case Some(k) => DecodeValue(PieceValue(pieces[k]), decode)
  }

  /** `getCookieClientSide(name)` over `document.cookie` (`None` where there
      is no document). */
  function GetCookieClientSide(document: Option<string>, name: string, decode: string -> Option<string>): (r: Option<string>)
    ensures document.None? ==> r.None?
    ensures r.Some? ==> exists k :: 0 <= k < |Split(document.value, ';')| &&
                                    PieceName(Split(document.value, ';')[k]) == name
  {
    if document.None? then None else ReadCookieHeader(document.value, name, decode)
  }

  // ---------------------------------------------------------------------------
  // The Set-Cookie reading: the pattern `name=([^;]+)`, unanchored

  /** `name=` occurs at `i` and is followed by at least one character other
      than `;`. */
  predicate SetCookieCandidate(h: string, name: string, i: int) {
    MatchAt(h, name + "=", i) && i + |name| + 1 < |h| && h[i + |name| + 1] != ';'
  }

  /** Where the regular-expression search succeeds: the leftmost candidate
      at or after `from`, or -1. */
  function SetCookieMatch(h: string, name: string, from: nat): (r: int)
    requires from <= |h|
    ensures r == -1 <==> forall j :: from <= j <= |h| ==> !SetCookieCandidate(h, name, j)
    ensures r != -1 ==> from <= r < |h| && SetCookieCandidate(h, name, r) &&
                        forall j :: from <= j < r ==> !SetCookieCandidate(h, name, j)
    decreases |h| - from
  {
    if from == |h| then -1
    else if SetCookieCandidate(h, name, from) then from
    else SetCookieMatch(h, name, from + 1)
  }

  /** The second source: the decoded capture of the first match in a
      non-empty `set-cookie` header. */
  function SetCookieSource(setCookie: Option<string>, name: string, decode: string -> Option<string>): (r: Option<string>)
    ensures r.Some? ==> Http.Present(setCookie)
    ensures Http.Present(setCookie) && SetCookieMatch(setCookie.value, name, 0) != -1 ==>
              var i := SetCookieMatch(setCookie.value, name, 0);
              r == decode(RunWithout(setCookie.value, i + |name| + 1, ';'))
    ensures Http.Present(setCookie) && SetCookieMatch(setCookie.value, name, 0) == -1 ==> r.None?
  {
    if !Http.Present(setCookie) then None
    else
      var i := SetCookieMatch(setCookie.value, name, 0);
      if i == -1 then None else decode(RunWithout(setCookie.value, i + |name| + 1, ';'))
  }

  /** The third source: the Cookie-header loop over a non-empty `cookie`
      header. */
  function CookieHeaderSource(cookie: Option<string>, name: string, decode: string -> Option<string>): (r: Option<string>)
    ensures r.Some? ==> Http.Present(cookie)
    ensures Http.Present(cookie) ==> r == ReadCookieHeader(cookie.value, name, decode)
  {
    if !Http.Present(cookie) then None else ReadCookieHeader(cookie.value, name, decode)
  }

  /** `getServerCookie(req, name)`: each later source is consulted only while
      the value so far is falsy (`null` or `""`). */
  function GetServerCookie(fromApi: Option<string>, setCookie: Option<string>, cookie: Option<string>,
                           name: string, decode: string -> Option<string>): (r: Option<string>)
    ensures Http.Present(fromApi) ==> r == fromApi
    ensures !Http.Present(fromApi) && Http.Present(SetCookieSource(setCookie, name, decode)) ==>
              r == SetCookieSource(setCookie, name, decode)
    ensures !Http.Present(fromApi) && !Http.Present(SetCookieSource(setCookie, name, decode)) &&
            CookieHeaderSource(cookie, name, decode).Some? ==>
              r == CookieHeaderSource(cookie, name, decode)
    // `null` only when no source yields anything, not even an empty string.
    ensures r.None? <==> fromApi.None? && SetCookieSource(setCookie, name, decode).None? &&
                         CookieHeaderSource(cookie, name, decode).None?
  {
    var v1 := fromApi;
    var v2 := if Http.Present(v1) then v1
              else match SetCookieSource(setCookie, name, decode)
                case Some(d) => Some(d)
                case None => v1;
    if Http.Present(v2) then v2
    else match CookieHeaderSource(cookie, name, decode)
      case Some(d) => Some(d)
      case None => v2
  }

  /** The server's Cookie-header source and the client-side reader parse a
      non-empty header the same way. */
  lemma ServerAndClientReadersAgree(header: string, name: string, decode: string -> Option<string>)
    requires header != ""
    ensures CookieHeaderSource(Some(header), name, decode) == GetCookieClientSide(Some(header), name, decode)
  {
  }

  /** The `cookies.get` value wins over both headers whenever it is
      non-empty. */
  lemma FirstSourceWins(v: string, s1: Option<string>, c1: Option<string>, s2: Option<string>, c2: Option<string>,
                        name: string, decode: string -> Option<string>)
    requires v != ""
    ensures GetServerCookie(Some(v), s1, c1, name, decode) == GetServerCookie(Some(v), s2, c2, name, decode) == Some(v)
  {
  }

  /** The Set-Cookie pattern is not anchored: `name=` is found even in the
      middle of a longer cookie name (at `at`, right after a character that
      is neither a separator nor white space, as in `myrefreshToken=...` when
      asking for `refreshToken`), and that cookie's value is returned. */
  lemma {:induction false} SetCookieMatchIsUnanchored(h: string, name: string, at: nat, decode: string -> Option<string>)
    requires PlainName(name) && 0 < at && SetCookieCandidate(h, name, at)
    requires name[0] !in h[..at] && h[at - 1] != ';' && !IsSpace(h[at - 1])
    ensures SetCookieSource(Some(h), name, decode) == decode(RunWithout(h, at + |name| + 1, ';'))
  {
    forall j | 0 <= j < at ensures !SetCookieCandidate(h, name, j) {
      NoCandidateBefore(h, name, at, j);
    }
    MatchIsFirstCandidate(h, name, at);
    SourceAt(h, name, decode, at);
  }

  /** The Set-Cookie source decodes the run after the first match. */
  lemma SourceAt(h: string, name: string, decode: string -> Option<string>, i: int)
    requires h != "" && SetCookieMatch(h, name, 0) == i && i >= 0
    ensures SetCookieSource(Some(h), name, decode) == decode(RunWithout(h, i + |name| + 1, ';'))
  {
  }

  /** The search stops at a candidate with none before it. */
  lemma MatchIsFirstCandidate(h: string, name: string, at: nat)
    requires at <= |h| && SetCookieCandidate(h, name, at)
    requires forall j :: 0 <= j < at ==> !SetCookieCandidate(h, name, j)
    ensures SetCookieMatch(h, name, 0) == at
  {
  }

  lemma NoCandidateBefore(h: string, name: string, at: nat, j: nat)
    requires |name| > 0 && at <= |h| && name[0] !in h[..at] && j < at
    ensures !SetCookieCandidate(h, name, j)
  {
    var before := h[..at];
    assert h[j] == before[j];
    if j + |name| + 1 <= |h| {
      assert h[j..j + |name| + 1][0] == h[j] != (name + "=")[0];
    }
  }

  /** A Cookie header holding the bare name, with no `=`, yields the
      string `"undefined"`, which is truthy. */
  lemma {:induction false} PieceWithoutEqualsIsUndefined(name: string, decode: string -> Option<string>)
    requires PlainName(name)
    ensures CookieHeaderSource(Some(name), name, decode) == decode(UNDEFINED)
  {
    SplitFirstPiece(name, ';');
    BareNamePiece(name);
    assert FirstIndex([name], Named(name)) == Some(0);
  }

  /** A piece that is a bare name with no `=` is named by itself and has
      no value. */
  lemma BareNamePiece(t: string)
    requires PlainName(t)
    ensures PieceName(t) == t && PieceValue(t).None?
  {
    SplitFirstPiece(t, '=');
    assert TrimStart(t) == t;
    assert TrimEnd(t) == t;
  }

  /** `deleteCookieCompletely(name)`: the strings written to
      `document.cookie`, none without a document. */
  function DeletionStrings(name: string, hasDocument: bool, hostname: string): (r: seq<string>)
    ensures !hasDocument ==> r == []
    ensures hasDocument ==> |r| == if hostname == LOCALHOST then 4 else 6
    // Every string sets the cookie empty on path `/` and expires it.
    ensures forall k :: 0 <= k < |r| ==>
              StartsWith(r[k], name + "=; path=/; ") &&
              (Contains(r[k], "max-age=0") || Contains(r[k], "expires=" + EPOCH))
  {
    if !hasDocument then []
    else
      var p := name + "=; path=/; ";
      var base := [p + "max-age=0", p + "expires=" + EPOCH,
                   p + "max-age=0" + "; SameSite=Lax", p + "expires=" + EPOCH + "; SameSite=Lax"];
      var r := if hostname != LOCALHOST then
                 base + [p + "max-age=0" + "; domain=" + hostname, p + "expires=" + EPOCH + "; domain=" + hostname]
               else base;
      DeletionShapes(p, hostname);
      r
  }

  lemma DeletionShapes(p: string, hostname: string)
    ensures Contains(p + "max-age=0", "max-age=0")
    ensures Contains(p + "expires=" + EPOCH, "expires=" + EPOCH)
    ensures Contains(p + "max-age=0" + "; SameSite=Lax", "max-age=0")
    ensures Contains(p + "expires=" + EPOCH + "; SameSite=Lax", "expires=" + EPOCH)
    ensures Contains(p + "max-age=0" + "; domain=" + hostname, "max-age=0")
    ensures Contains(p + "expires=" + EPOCH + "; domain=" + hostname, "expires=" + EPOCH)
  {
    ContainsInContext(p, "max-age=0", "");
    assert p + "max-age=0" + "" == p + "max-age=0";
    ContainsInContext(p, "expires=" + EPOCH, "");
    assert p + ("expires=" + EPOCH) + "" == p + "expires=" + EPOCH;
    ContainsInContext(p, "max-age=0", "; SameSite=Lax");
    ContainsInContext(p, "expires=" + EPOCH, "; SameSite=Lax");
    assert p + ("expires=" + EPOCH) + "; SameSite=Lax" == p + "expires=" + EPOCH + "; SameSite=Lax";
    ContainsInContext(p, "max-age=0", "; domain=" + hostname);
    assert p + "max-age=0" + ("; domain=" + hostname) == p + "max-age=0" + "; domain=" + hostname;
    ContainsInContext(p, "expires=" + EPOCH, "; domain=" + hostname);
    assert p + ("expires=" + EPOCH) + ("; domain=" + hostname) == p + "expires=" + EPOCH + "; domain=" + hostname;
  }
}

=== FILE: db.dfy ===
/** The database rows the session core reads and writes, as in-memory
    tables: `users`, `children` and `refresh_tokens`. The refresh-token
    table is a map from the token string to its record, since every query
    on it selects or deletes by `token`. */
module Db {
  import opened Wrappers
  import Jwt

  const ADMIN := "admin"
  const PARENT := "parent"
  const CHILD := "child"

  /** A calendar date; `month` is 1-based (only differences of months are
      ever taken, so the source's 0-based months give the same results). */
  datatype Date = Date(year: int, month: int, day: int)

  datatype UserRow = UserRow(id: string, email: string, passwordHash: string,
                             firstName: string, lastName: string, role: string)

  /** A `children` row. The login route reads column `user_id` and the
      refresh route reads `child_user_id`; both are kept. */
  datatype ChildProfile = ChildProfile(id: string, userId: Option<string>,
                                       childUserId: Option<string>, birthday: Option<Date>)

  /** A `refresh_tokens` row; `expiresAt` is in milliseconds. */
  datatype RefreshRecord = RefreshRecord(jti: string, userId: string, token: string,
                                         expiresAt: nat, isRevoked: bool)

  type TokenStore = map<string, RefreshRecord>

  /** The database. When `fault` is set, every query throws that message. */
  datatype Database = Database(users: seq<UserRow>, children: seq<ChildProfile>,
                               tokens: TokenStore, fault: Option<string>)

  /** The user summary the login and refresh routes return. */
  datatype SessionUser = SessionUser(id: string, email: string, firstName: string, lastName: string,
                                     role: string, childProfileId: Option<string>)

  /** `rows[0]` of a `SELECT ... WHERE p`: the first row satisfying `p`. */
  function First<T>(rows: seq<T>, p: T -> bool): (r: Option<T>)
    ensures r.Some? <==> exists k :: 0 <= k < |rows| && p(rows[k])
    ensures r.Some? ==> exists k :: 0 <= k < |rows| && rows[k] == r.value && p(rows[k]) &&
                                    forall j :: 0 <= j < k ==> !p(rows[j])
  {
    match FirstIndex(rows, p)
    case None => None
    case Some(i) => Some(rows[i])
  }

  function UserByEmail(users: seq<UserRow>, email: string): Option<UserRow> {
    First(users, (u: UserRow) => u.email == email)
  }

  function UserById(users: seq<UserRow>, id: string): Option<UserRow> {
    First(users, (u: UserRow) => u.id == id)
  }

  function IdentityOf(u: UserRow): Jwt.Identity {
    Jwt.Identity(u.id, u.email, u.role, u.firstName, u.lastName)
  }

  function SummaryOf(u: UserRow, childProfileId: Option<string>): SessionUser {
    SessionUser(u.id, u.email, u.firstName, u.lastName, u.role, childProfileId)
  }

  /** `SELECT * FROM refresh_tokens WHERE token = $1`, first row. */
  function LookupToken(store: TokenStore, token: string): Option<RefreshRecord> {
    if token in store then Some(store[token]) else None
  }

  /** The refresh route's store check: a record exists, is not revoked, and
      the clock is not past `expires_at` (equality still passes). */
  predicate StoreAccepts(rec: Option<RefreshRecord>, nowMs: nat) {
    rec.Some? && !rec.value.isRevoked && !(nowMs > rec.value.expiresAt)
  }

  /** Every record is filed under its own token, and that token is a
      refresh token, signed with the refresh secret, for the record's user
      and `jti`. Login keeps this true. */
  ghost predicate WellFormedStore(c: Jwt.Codec, keys: Jwt.Secrets, store: TokenStore) {
    forall t :: t in store ==>
      && store[t].token == t
      && c.open(t, keys.refresh).Some?
      && c.open(t, keys.refresh).value.payload == Jwt.RefreshClaims(store[t].userId, store[t].jti)
  }

  /** The session ids in use. */
  function Jtis(store: TokenStore): set<string> {
    set t | t in store :: store[t].jti
  }
}

=== FILE: http.dfy ===
/** The `Set-Cookie` attributes the routes set through the `cookie`
    package's `serialize`. */
module Http {
  import opened Wrappers

  /** The cookie carrying the refresh token. */
  const REFRESH_COOKIE := "refreshToken"

  datatype SameSite = Lax | Strict

  /** A serialised `Set-Cookie`; `expires` is in milliseconds since the epoch. */
  datatype SetCookie = SetCookie(name: string, value: string, httpOnly: bool, secure: bool,
                                 sameSite: SameSite, path: string, expires: nat)

  /** A cookie value as the routes read it: `req.cookies.get(name)?.value`,
      absent when there is no such cookie. An empty value reads as falsy. */
  predicate Present(cookie: Option<string>)
  {
    cookie.Some? && cookie.value != ""
  }

  /** A route's reply: status, JSON body and an optional `Set-Cookie`. */
  datatype Reply<B> = Reply(status: nat, body: B, setCookie: Option<SetCookie>)
}

=== FILE: jwt.dfy ===
/** The token codec of `src/lib/auth.js`: access and refresh tokens, the
    random session id (`jti`), verification, and the `Bearer ` header gate.

    The JSON Web Token library is not modelled: a `Codec` is a pair of
    functions (`sign`, `open`) and `Lawful` states what the library is
    relied on for. A signed token opens, under the same secret, to the
    payload with `iat` and `exp = iat + ttl`; and a token that opens was
    produced by `sign` with that secret; and no token is empty. Expiry follows section 4.1.4 of
    RFC 7519: a token is accepted only while the current time is before
    `exp`. Times inside tokens are whole seconds; `Seconds` turns the
    millisecond clock into them the way the library does. */
module Jwt {
  import opened Wrappers
  import opened Strings

  /** `expiresIn: '15m'`, in seconds. */
  const ACCESS_TTL: nat := 15 * 60
  /** `expiresIn: '7d'`, in seconds. */
  const REFRESH_TTL: nat := 7 * 24 * 60 * 60

  const INVALID_ACCESS := "Invalid or expired access token"
  const INVALID_REFRESH := "Invalid or expired refresh token"
  const BAD_HEADER := "Authorization header is missing or invalid"
  const MISSING_SECRETS := "JWT_SECRET and JWT_REFRESH_SECRET must be set in .env.local"
  const BEARER := "Bearer "

  /** The two signing secrets read from the environment at module load. */
  datatype Secrets = Secrets(access: string, refresh: string)

  /** The claims a token carries. Access tokens carry the five user fields
      (snake case in the source), refresh tokens the user id and `jti`. */
  datatype Payload =
    | AccessClaims(id: string, email: string, role: string, firstName: string, lastName: string)
    | RefreshClaims(id: string, jti: string)

  /** A verified token: its claims plus the registered `iat` and `exp`. */
  datatype Decoded = Decoded(payload: Payload, iat: nat, exp: nat)

  /** The user columns `generateAccessToken` reads. */
  datatype Identity = Identity(id: string, email: string, role: string, firstName: string, lastName: string)

  /** `sign(payload, secret, iat, ttl)` and `open(token, secret)`. */
  datatype Codec = Codec(sign: (Payload, string, nat, nat) -> string,
                         open: (string, string) -> Option<Decoded>)

  /** First law: a signed token opens, under the signing secret, to the
      signed claims with `exp = iat + ttl`. */
  ghost predicate SignedOpens(c: Codec) {
    forall p: Payload, key: string, iat: nat, ttl: nat ::
      c.open(c.sign(p, key, iat, ttl), key) == Some(Decoded(p, iat, iat + ttl))
  }

  /** Second law: whatever opens under a secret was signed with it (no
      forgery, no tampering). */
  ghost predicate OnlySignedOpens(c: Codec) {
    forall t: string, key: string :: c.open(t, key).Some? ==>
      && c.open(t, key).value.iat <= c.open(t, key).value.exp
      && t == c.sign(c.open(t, key).value.payload, key, c.open(t, key).value.iat,
                     c.open(t, key).value.exp - c.open(t, key).value.iat)
  }

  /** Third law: a signed token is never the empty string (a compact JSON
      Web Token always has its three dot-separated parts). */
  ghost predicate NonEmptyTokens(c: Codec) {
    forall p: Payload, key: string, iat: nat, ttl: nat :: c.sign(p, key, iat, ttl) != ""
  }

  /** What the signing library is relied on for. */
  ghost predicate Lawful(c: Codec) {
    SignedOpens(c) && OnlySignedOpens(c) && NonEmptyTokens(c)
  }

  /** The library's clock: `Math.floor(Date.now() / 1000)`. */
  function Seconds(nowMs: nat): nat {
    nowMs / 1000
  }

  /** The module-load check: both secrets must be set and non-empty, or
      loading the module throws. */
  function LoadSecrets(access: Option<string>, refresh: Option<string>): (r: Result<Secrets, string>)
    ensures r.Ok? <==> access.Some? && access.value != "" && refresh.Some? && refresh.value != ""
    ensures r.Ok? ==> r.value == Secrets(access.value, refresh.value)
    ensures r.Err? ==> r.error == MISSING_SECRETS
  {
    if access.None? || access.value == "" || refresh.None? || refresh.value == "" then
      Err(MISSING_SECRETS)
    else
      Ok(Secrets(access.value, refresh.value))
  }

  /** Exactly the five user fields go into an access token. */
  function AccessPayloadOf(u: Identity): Payload {
    AccessClaims(u.id, u.email, u.role, u.firstName, u.lastName)
  }

  function GenerateAccessToken(c: Codec, keys: Secrets, u: Identity, nowMs: nat): string {
    c.sign(AccessPayloadOf(u), keys.access, Seconds(nowMs), ACCESS_TTL)
  }

  function GenerateRefreshToken(c: Codec, keys: Secrets, userId: string, jti: string, nowMs: nat): string {
    c.sign(RefreshClaims(userId, jti), keys.refresh, Seconds(nowMs), REFRESH_TTL)
  }

  /** The claim `withAuth` and the routes read as `user.role`; a refresh
      payload has none (it would read as `undefined`). */
  function RoleOf(p: Payload): Option<string> {
    match p
    case AccessClaims(_, _, role, _, _) => Some(role)
    case RefreshClaims(_, _) => None
  }

  /** `jwt.verify` with the secret, every failure rethrown as one message. */
  function VerifyWith(c: Codec, key: string, token: string, nowMs: nat, failure: string): (r: Result<Decoded, string>)
    ensures r.Err? ==> r.error == failure
    ensures r.Ok? ==> Seconds(nowMs) < r.value.exp
    ensures r.Ok? <==> c.open(token, key).Some? && Seconds(nowMs) < c.open(token, key).value.exp
    ensures Lawful(c) && r.Ok? ==>
              r.value.iat <= r.value.exp &&
              token == c.sign(r.value.payload, key, r.value.iat, r.value.exp - r.value.iat)
  {
    match c.open(token, key)
    case None => Err(failure)
    case Some(d) => if Seconds(nowMs) >= d.exp then Err(failure) else Ok(d)
  }

  function VerifyAccessToken(c: Codec, keys: Secrets, token: string, nowMs: nat): Result<Decoded, string> {
    VerifyWith(c, keys.access, token, nowMs, INVALID_ACCESS)
  }

  function VerifyRefreshToken(c: Codec, keys: Secrets, token: string, nowMs: nat): Result<Decoded, string> {
    VerifyWith(c, keys.refresh, token, nowMs, INVALID_REFRESH)
  }

  /** `verifyAccessTokenFromHeader`: the header must be present and start
      with exactly `Bearer ` (case-sensitive); the token is the rest. */
  function VerifyAccessTokenFromHeader(c: Codec, keys: Secrets, header: Option<string>, nowMs: nat): (r: Result<Decoded, string>)
    ensures header.None? || !StartsWith(header.value, BEARER) ==> r == Err(BAD_HEADER)
    ensures header.Some? && StartsWith(header.value, BEARER) ==>
              r == VerifyAccessToken(c, keys, header.value[|BEARER|..], nowMs)
    ensures r.Err? ==> r.error == BAD_HEADER || r.error == INVALID_ACCESS
  {
    if header.None? || !StartsWith(header.value, BEARER) then Err(BAD_HEADER)
    else VerifyAccessToken(c, keys, header.value[7..], nowMs)
  }

  /** The condition every caller maps to 401: the message mentions
      `token` or `Authorization`. */
  predicate IsAuthMessage(m: string) {
    Contains(m, "token") || Contains(m, "Authorization")
  }

  /** Each message the token layer throws is an authentication message. */
  lemma TokenErrorsAreAuthMessages()
    ensures IsAuthMessage(INVALID_ACCESS)
    ensures IsAuthMessage(INVALID_REFRESH)
    ensures IsAuthMessage(BAD_HEADER)
  {
    assert MatchAt(INVALID_ACCESS, "token", 26);
    assert MatchAt(INVALID_REFRESH, "token", 27);
    assert MatchAt(BAD_HEADER, "Authorization", 0);
  }

  /** So every failure of the header gate is answered 401 by its callers. */
  lemma HeaderGateFailuresAreAuthMessages(c: Codec, keys: Secrets, header: Option<string>, nowMs: nat)
    ensures VerifyAccessTokenFromHeader(c, keys, header, nowMs).Err? ==>
              IsAuthMessage(VerifyAccessTokenFromHeader(c, keys, header, nowMs).error)
  {
    TokenErrorsAreAuthMessages();
  }

  /** Round trip: a fresh access token verifies, until its expiry, to exactly
      the five user fields with `exp - iat` fifteen minutes; from then on it
      fails with the fixed message. */
  lemma AccessTokenRoundTrip(c: Codec, keys: Secrets, u: Identity, issuedMs: nat, nowMs: nat)
    requires Lawful(c)
    ensures var iat := Seconds(issuedMs);
            VerifyAccessToken(c, keys, GenerateAccessToken(c, keys, u, issuedMs), nowMs) ==
              if Seconds(nowMs) < iat + ACCESS_TTL
              then Ok(Decoded(AccessClaims(u.id, u.email, u.role, u.firstName, u.lastName), iat, iat + ACCESS_TTL))
              else Err(INVALID_ACCESS)
  {
  }

  /** Round trip for refresh tokens: the user id and a `jti` for seven days. */
  lemma RefreshTokenRoundTrip(c: Codec, keys: Secrets, userId: string, jti: string, issuedMs: nat, nowMs: nat)
    requires Lawful(c)
    ensures var iat := Seconds(issuedMs);
            VerifyRefreshToken(c, keys, GenerateRefreshToken(c, keys, userId, jti, issuedMs), nowMs) ==
              if Seconds(nowMs) < iat + REFRESH_TTL
              then Ok(Decoded(RefreshClaims(userId, jti), iat, iat + REFRESH_TTL))
              else Err(INVALID_REFRESH)
  {
  }

  /** The header gate hands the codec the header minus its first seven
      characters, so `Bearer <token>` verifies exactly like `<token>`. */
  lemma BearerHeaderRoundTrip(c: Codec, keys: Secrets, token: string, nowMs: nat)
    ensures VerifyAccessTokenFromHeader(c, keys, Some(BEARER + token), nowMs) ==
            VerifyAccessToken(c, keys, token, nowMs)
  {
    assert StartsWith(BEARER + token, BEARER);
    assert (BEARER + token)[|BEARER|..] == token;
  }

  /** A string that no `sign` call with the access secret produced (a
      malformed or tampered token) never verifies. */
  lemma UnsignedTokenFails(c: Codec, keys: Secrets, token: string, nowMs: nat)
    requires Lawful(c)
    requires forall p, iat, ttl :: c.sign(p, keys.access, iat, ttl) != token
    ensures VerifyAccessToken(c, keys, token, nowMs) == Err(INVALID_ACCESS)
  {
  }

  // ---------------------------------------------------------------------------
  // generateJti: `randomBytes(16).toString('hex')`. The bytes are a parameter.

  newtype byte = x: int | 0 <= x < 256

  predicate IsLowerHex(c: char) {
    '0' <= c <= '9' || 'a' <= c <= 'f'
  }

  function HexDigit(v: nat): (c: char)
    requires v < 16
    ensures IsLowerHex(c)
  {
    if v < 10 then ('0' as int + v) as char else ('a' as int + v - 10) as char
  }

  function HexValue(c: char): (v: nat)
    requires IsLowerHex(c)
    ensures v < 16 && HexDigit(v) == c
  {
    if '0' <= c <= '9' then c as int - '0' as int else c as int - 'a' as int + 10
  }

  /** Two lowercase hex digits per byte, high nibble first. */
  function ToHex(bytes: seq<byte>): (r: string)
    ensures |r| == 2 * |bytes|
    ensures forall k :: 0 <= k < |r| ==> IsLowerHex(r[k])
  {
    if |bytes| == 0 then ""
    else [HexDigit(bytes[0] as int / 16), HexDigit(bytes[0] as int % 16)] + ToHex(bytes[1..])
  }

  /** The inverse of `ToHex`, for strings of lowercase hex digit pairs. */
  function FromHex(s: string): seq<byte>
    requires |s| % 2 == 0 && forall k :: 0 <= k < |s| ==> IsLowerHex(s[k])
  {
    if |s| == 0 then []
    else [(HexValue(s[0]) * 16 + HexValue(s[1])) as byte] + FromHex(s[2..])
  }

  lemma {:induction false} HexRoundTrip(bytes: seq<byte>)
    ensures FromHex(ToHex(bytes)) == bytes
  {
    if |bytes| > 0 {
      var h := ToHex(bytes);
      var hi, lo := bytes[0] as int / 16, bytes[0] as int % 16;
      assert h[2..] == ToHex(bytes[1..]);
      HexRoundTrip(bytes[1..]);
      assert HexValue(HexDigit(hi)) == hi;
      assert HexValue(HexDigit(lo)) == lo;
      assert hi * 16 + lo == bytes[0] as int;
    }
  }

  function GenerateJti(random16: seq<byte>): (r: string)
    requires |random16| == 16
    ensures |r| == 32
    ensures forall k :: 0 <= k < |r| ==> IsLowerHex(r[k])
    ensures FromHex(r) == random16
  {
    HexRoundTrip(random16);
    ToHex(random16)
  }

  /** Distinct random draws give distinct session ids. */
  lemma JtiInjective(a: seq<byte>, b: seq<byte>)
    requires |a| == 16 && |b| == 16 && a != b
    ensures GenerateJti(a) != GenerateJti(b)
  {
  }
}

=== FILE: login.dfy ===
/** `POST /api/users/login` of `src/app/api/users/login/route.js`: checks the
    credentials, opens a session (a refresh-token row plus an `httpOnly`
    cookie), and returns a fresh access token with the user summary.
    `bcrypt.compare` is the parameter `compare`; the 16 random bytes of the
    session id, the clock and `NODE_ENV === 'production'` are parameters
    too. */
module Login {
  import opened Wrappers
  import opened Strings
  import Jwt
  import opened Db
  import Http
  import opened ApiResponse

  const MISSING_CREDENTIALS := "メールアドレスとパスワードを入力してください"
  const BAD_CREDENTIALS := "メールアドレスまたはパスワードが正しくありません"
  const LOGIN_FAILED := "ログイン処理中にエラーが発生しました"

  /** Seven days in milliseconds: the lifetime of the stored row and of the
      cookie. */
  const SESSION_MS: nat := 7 * 24 * 60 * 60 * 1000

  /** The JSON body: its `email` and `password` keys, each possibly absent. */
  datatype Credentials = Credentials(email: Option<string>, password: Option<string>)

  datatype LoginData = LoginData(accessToken: string, user: SessionUser)

  type LoginReply = Http.Reply<Body<LoginData>>

  datatype Outcome = Outcome(reply: LoginReply, db: Database)

  /** The lookup key: `email.toLowerCase().trim()`. */
  function NormalizeEmail(email: string): string {
    Trim(ToLower(email))
  }

  /** The first user with the normalised email, if `compare` accepts the
      password against that user's hash. */
  function CheckCredentials(users: seq<UserRow>, email: string, password: string,
                            compare: (string, string) -> bool): (r: Option<UserRow>)
    ensures r.Some? ==> r.value in users && r.value.email == NormalizeEmail(email) &&
                        compare(password, r.value.passwordHash)
    ensures r.Some? <==> UserByEmail(users, NormalizeEmail(email)).Some? &&
                         compare(password, UserByEmail(users, NormalizeEmail(email)).value.passwordHash)
  {
    match UserByEmail(users, NormalizeEmail(email))
    case None => None
    case Some(u) => if compare(password, u.passwordHash) then Some(u) else None
  }

  /** The profile id of a child user: the first `children` row whose
      `user_id` is the user's id; none for other roles. */
  function LoginChildProfileId(u: UserRow, children: seq<ChildProfile>): (r: Option<string>)
    ensures r.Some? ==> u.role == CHILD
    ensures r.Some? ==>
              exists k :: 0 <= k < |children| && children[k].userId == Some(u.id) && children[k].id == r.value
    ensures u.role == CHILD && (exists k :: 0 <= k < |children| && children[k].userId == Some(u.id)) ==> r.Some?
  {
    if u.role != CHILD then None
    else
      match First(children, (ch: ChildProfile) => ch.userId == Some(u.id))
      case None => None
      case Some(ch) => Some(ch.id)
  }

  /** A failure reply: an error envelope, no cookie. */
  function Fail(message: string, status: nat): (r: LoginReply)
    ensures r.status == status && r.setCookie.None?
    ensures r.body.ErrorBody? && r.body.error.message == message
  {
    var resp := ErrorResponse<LoginData>(message, status, None, None, None);
    Http.Reply(resp.status, resp.body, None)
  }

  /** The refresh cookie set at login. */
  function SessionCookie(token: string, expiresAt: nat, production: bool): Http.SetCookie {
    Http.SetCookie(Http.REFRESH_COOKIE, token, true, production, Http.Lax, "/", expiresAt)
  }

  /** The session opened for an authenticated user. */
  function OpenSession(c: Jwt.Codec, keys: Jwt.Secrets, db: Database, u: UserRow,
                       random16: seq<Jwt.byte>, nowMs: nat, production: bool): (out: Outcome)
    requires |random16| == 16
    ensures out.reply.status == 200 && out.reply.body.SuccessBody?
    ensures var jti := Jwt.GenerateJti(random16);
            var token := Jwt.GenerateRefreshToken(c, keys, u.id, jti, nowMs);
            && out.db == db.(tokens := out.db.tokens)
            && token in out.db.tokens
            && out.db.tokens[token] == RefreshRecord(jti, u.id, token, nowMs + SESSION_MS, false)
            && (forall t :: t != token ==> (t in out.db.tokens <==> t in db.tokens))
            && (forall t :: t != token && t in db.tokens ==> out.db.tokens[t] == db.tokens[t])
            && out.reply.setCookie == Some(SessionCookie(token, nowMs + SESSION_MS, production))
            && out.reply.body.data ==
                 Some(LoginData(Jwt.GenerateAccessToken(c, keys, IdentityOf(u), nowMs),
                                SummaryOf(u, LoginChildProfileId(u, db.children))))
  {
    var jti := Jwt.GenerateJti(random16);
    var access := Jwt.GenerateAccessToken(c, keys, IdentityOf(u), nowMs);
    var refresh := Jwt.GenerateRefreshToken(c, keys, u.id, jti, nowMs);
    var expiresAt := nowMs + SESSION_MS;
    var tokens := db.tokens[refresh := RefreshRecord(jti, u.id, refresh, expiresAt, false)];
    var data := LoginData(access, SummaryOf(u, LoginChildProfileId(u, db.children)));
    var resp := SuccessResponse(Some(data), None, None, OK);
    Outcome(Http.Reply(resp.status, resp.body, Some(SessionCookie(refresh, expiresAt, production))),
            db.(tokens := tokens))
  }

  /** The route. `body` is `None` when the request body is not JSON. */
  function Login(c: Jwt.Codec, keys: Jwt.Secrets, db: Database, body: Option<Credentials>,
                 compare: (string, string) -> bool, random16: seq<Jwt.byte>, nowMs: nat,
                 production: bool): (out: Outcome)
    requires |random16| == 16
    // Only a successful login writes to the database or sets a cookie.
    ensures out.reply.status != 200 ==> out.db == db && out.reply.setCookie.None?
    // An unreadable body, and any database failure, is 500.
    ensures body.None? ==> out.reply.status == 500
    ensures body.Some? && Truthy(body.value.email) && Truthy(body.value.password) && db.fault.Some? ==>
              out.reply == Fail(LOGIN_FAILED, 500)
    // A missing or empty email or password is 400, before any query.
    ensures body.Some? && !(Truthy(body.value.email) && Truthy(body.value.password)) ==>
              out.reply == Fail(MISSING_CREDENTIALS, 400)
    // An unknown email and a wrong password get the same 401.
    ensures body.Some? && Truthy(body.value.email) && Truthy(body.value.password) && db.fault.None? ==>
              var u := CheckCredentials(db.users, body.value.email.value, body.value.password.value, compare);
              (u.None? ==> out.reply == Fail(BAD_CREDENTIALS, 401)) &&
              (u.Some? ==> out == OpenSession(c, keys, db, u.value, random16, nowMs, production))
    ensures out.reply.status == 200 <==>
              body.Some? && Truthy(body.value.email) && Truthy(body.value.password) && db.fault.None? &&
              CheckCredentials(db.users, body.value.email.value, body.value.password.value, compare).Some?
  {
    if body.None? then Outcome(Fail(LOGIN_FAILED, 500), db)
    else
      var creds := body.value;
      if !Truthy(creds.email) || !Truthy(creds.password) then Outcome(Fail(MISSING_CREDENTIALS, 400), db)
      else if db.fault.Some? then Outcome(Fail(LOGIN_FAILED, 500), db)
      else
        match CheckCredentials(db.users, creds.email.value, creds.password.value, compare)
        case None => Outcome(Fail(BAD_CREDENTIALS, 401), db)
        case Some(u) => OpenSession(c, keys, db, u, random16, nowMs, production)
  }

  /** No user enumeration: every failed credential check, whether the email
      is unknown or the password wrong, gets one and the same reply. */
  lemma FailedLoginsAreIndistinguishable(c: Jwt.Codec, keys: Jwt.Secrets, db1: Database, db2: Database,
                                         body1: Option<Credentials>, body2: Option<Credentials>,
                                         compare: (string, string) -> bool, random16: seq<Jwt.byte>, nowMs: nat,
                                         production: bool)
    requires |random16| == 16
    ensures Login(c, keys, db1, body1, compare, random16, nowMs, production).reply.status == 401 &&
            Login(c, keys, db2, body2, compare, random16, nowMs, production).reply.status == 401 ==>
              Login(c, keys, db1, body1, compare, random16, nowMs, production).reply ==
              Login(c, keys, db2, body2, compare, random16, nowMs, production).reply
  {
  }

  /** The new token opens under the refresh secret to the row it is filed
      with. */
  lemma NewTokenMatchesRow(c: Jwt.Codec, keys: Jwt.Secrets, userId: string, jti: string, nowMs: nat)
    requires Jwt.Lawful(c)
    ensures var token := Jwt.GenerateRefreshToken(c, keys, userId, jti, nowMs);
            c.open(token, keys.refresh).Some? &&
            c.open(token, keys.refresh).value.payload == Jwt.RefreshClaims(userId, jti)
  {
  }

  /** Opening a session keeps every stored row filed under its own token,
      and every token a refresh token for the row's user and session id. */
  lemma {:induction false} OpenSessionPreservesWellFormedStore(c: Jwt.Codec, keys: Jwt.Secrets, db: Database, u: UserRow,
                                                               random16: seq<Jwt.byte>, nowMs: nat, production: bool)
    requires |random16| == 16 && Jwt.Lawful(c)
    requires WellFormedStore(c, keys, db.tokens)
    ensures WellFormedStore(c, keys, OpenSession(c, keys, db, u, random16, nowMs, production).db.tokens)
  {
    var jti := Jwt.GenerateJti(random16);
    var token := Jwt.GenerateRefreshToken(c, keys, u.id, jti, nowMs);
    var store := OpenSession(c, keys, db, u, random16, nowMs, production).db.tokens;
    NewTokenMatchesRow(c, keys, u.id, jti, nowMs);
    forall t | t in store
      ensures store[t].token == t && c.open(t, keys.refresh).Some? &&
              c.open(t, keys.refresh).value.payload == Jwt.RefreshClaims(store[t].userId, store[t].jti)
    {
      if t != token {
        assert t in db.tokens && store[t] == db.tokens[t];
      }
    }
  }

  /** So login, whatever its outcome, keeps the store well formed. */
  lemma LoginPreservesWellFormedStore(c: Jwt.Codec, keys: Jwt.Secrets, db: Database,
                                      body: Option<Credentials>, compare: (string, string) -> bool,
                                      random16: seq<Jwt.byte>, nowMs: nat, production: bool)
    requires |random16| == 16 && Jwt.Lawful(c)
    requires WellFormedStore(c, keys, db.tokens)
    ensures WellFormedStore(c, keys, Login(c, keys, db, body, compare, random16, nowMs, production).db.tokens)
  {
    if Login(c, keys, db, body, compare, random16, nowMs, production).reply.status == 200 {
      var u := CheckCredentials(db.users, body.value.email.value, body.value.password.value, compare).value;
      OpenSessionPreservesWellFormedStore(c, keys, db, u, random16, nowMs, production);
    }
  }

  /** With a session id not already in use, opening a session adds exactly
      one row: the new token cannot collide with a stored one, because a
      stored token opens to its own, different session id. */
  lemma {:induction false} FreshSessionAddsOneRow(c: Jwt.Codec, keys: Jwt.Secrets, db: Database, u: UserRow,
                                                  random16: seq<Jwt.byte>, nowMs: nat, production: bool)
    requires |random16| == 16 && Jwt.Lawful(c)
    requires WellFormedStore(c, keys, db.tokens)
    requires Jwt.GenerateJti(random16) !in Jtis(db.tokens)
    ensures var store := OpenSession(c, keys, db, u, random16, nowMs, production).db.tokens;
            |store| == |db.tokens| + 1 && Jtis(store) == Jtis(db.tokens) + {Jwt.GenerateJti(random16)}
  {
    var jti := Jwt.GenerateJti(random16);
    var token := Jwt.GenerateRefreshToken(c, keys, u.id, jti, nowMs);
    var rec := RefreshRecord(jti, u.id, token, nowMs + SESSION_MS, false);
    NewTokenMatchesRow(c, keys, u.id, jti, nowMs);
    assert token !in db.tokens;
    var store := OpenSession(c, keys, db, u, random16, nowMs, production).db.tokens;
    assert store == db.tokens[token := rec];
    assert store.Keys == db.tokens.Keys + {token};
    JtisOfInsert(db.tokens, token, rec);
  }

  lemma JtisOfInsert(store: TokenStore, token: string, rec: RefreshRecord)
    requires token !in store
    ensures Jtis(store[token := rec]) == Jtis(store) + {rec.jti}
  {
    var s2 := store[token := rec];
    forall j | j in Jtis(s2) ensures j in Jtis(store) + {rec.jti} {
      var t :| t in s2 && s2[t].jti == j;
      if t != token { assert t in store && store[t].jti == j; }
    }
    assert s2[token].jti == rec.jti;
    forall j | j in Jtis(store) ensures j in Jtis(s2) {
      var t :| t in store && store[t].jti == j;
      assert t in s2 && s2[t].jti == j;
    }
  }
}

=== FILE: logout.dfy ===
/** `POST /api/users/logout` of `src/app/api/users/logout/route.js`: deletes
    the stored refresh token named by the cookie and clears the cookie. A
    database failure during the delete is swallowed. */
module Logout {
  import opened Wrappers
  import opened Db
  import Http

  const LOGGED_OUT := "Logged out successfully"

  datatype LogoutBody = LogoutBody(message: string)

  datatype Outcome = Outcome(reply: Http.Reply<LogoutBody>, db: Database)

  /** The clearing cookie: empty, expired at the epoch, and `SameSite=Strict`
      (the login cookie is `Lax`). */
  function ClearCookie(production: bool): (r: Http.SetCookie)
    ensures r.name == Http.REFRESH_COOKIE && r.value == "" && r.expires == 0
    ensures r.httpOnly && r.secure == production && r.sameSite == Http.Strict && r.path == "/"
  {
    Http.SetCookie(Http.REFRESH_COOKIE, "", true, production, Http.Strict, "/", 0)
  }

  function Logout(db: Database, cookie: Option<string>, production: bool): (out: Outcome)
    // The reply never depends on the cookie or the database.
    ensures out.reply == Http.Reply(200, LogoutBody(LOGGED_OUT), Some(ClearCookie(production)))
    // Only the token row is touched, and only when the delete can run.
    ensures out.db == db.(tokens := out.db.tokens)
    ensures Http.Present(cookie) && db.fault.None? ==>
              cookie.value !in out.db.tokens && out.db.tokens.Keys == db.tokens.Keys - {cookie.value} &&
              forall t :: t in out.db.tokens ==> out.db.tokens[t] == db.tokens[t]
    ensures !Http.Present(cookie) || db.fault.Some? ==> out.db == db
  {
    var tokens := if Http.Present(cookie) && db.fault.None? then db.tokens - {cookie.value} else db.tokens;
    Outcome(Http.Reply(200, LogoutBody(LOGGED_OUT), Some(ClearCookie(production))), db.(tokens := tokens))
  }

  /** Logging out twice with the same cookie is the same as logging out once. */
  lemma LogoutIdempotent(db: Database, cookie: Option<string>, production: bool)
    ensures var once := Logout(db, cookie, production);
            Logout(once.db, cookie, production) == once
  {
    var once := Logout(db, cookie, production);
    if Http.Present(cookie) && db.fault.None? {
      assert once.db.tokens - {cookie.value} == once.db.tokens;
    }
  }

  /** Logout leaves no session ids other than the ones already stored. */
  lemma LogoutShrinksStore(db: Database, cookie: Option<string>, production: bool)
    ensures Logout(db, cookie, production).db.tokens.Keys <= db.tokens.Keys
    ensures Jtis(Logout(db, cookie, production).db.tokens) <= Jtis(db.tokens)
  {
    var s := Logout(db, cookie, production).db.tokens;
    forall j | j in Jtis(s) ensures j in Jtis(db.tokens) {
      var t :| t in s && s[t].jti == j;
      assert t in db.tokens && db.tokens[t].jti == j;
    }
  }
}

=== FILE: middleware.dfy ===
/** The edge check of `src/middleware.js`: it lets API routes, framework
    assets, icons and the four public pages through, and sends every other
    page to `/login?redirectTo=<path>` when the browser has no non-empty
    `refreshToken` cookie. Only the cookie's presence is checked. The
    redirect is given as a path and query (the origin of the request URL is
    left out), and the query encoding of `URLSearchParams` is a parameter. */
module Middleware {
  import opened Wrappers
  import opened Strings
  import Http
  import AuthConfig

  const LOGIN_PAGE := "/login"
  const REDIRECT_PARAM := "?redirectTo="

  /** The middleware's own list of public pages. */
  const PASS_PAGES: seq<string> := ["/", "/login", "/users/register", "/setup"]

  datatype Decision = Next | Redirect(location: string)

  /** The `matcher` of the exported config: `/` followed by anything that
      does not begin with `api`, `_next/static`, `_next/image` or
      `favicon`, any one character, `ico` (the unescaped dot of the
      pattern matches any character). */
  predicate Matched(path: string) {
    && StartsWith(path, "/")
    && var rest := path[1..];
       && !StartsWith(rest, "api")
       && !StartsWith(rest, "_next/static")
       && !StartsWith(rest, "_next/image")
       && !(StartsWith(rest, "favicon") && |rest| >= 11 && rest[8..11] == "ico")
  }

  /** The paths the function body lets through unconditionally. */
  predicate PassesThrough(path: string) {
    StartsWith(path, "/api/") || StartsWith(path, "/_next") || EndsWith(path, ".ico") || path in PASS_PAGES
  }

  /** `middleware(request)` for a request the matcher selected. */
  function Middleware(path: string, cookie: Option<string>, encode: string -> string): (d: Decision)
    // A page that is not let through is redirected exactly when the cookie
    // is missing or empty, and the redirect remembers the path.
    ensures d.Redirect? <==> !PassesThrough(path) && !Http.Present(cookie)
    ensures d.Redirect? ==> d.location == LOGIN_PAGE + REDIRECT_PARAM + encode(path)
  {
    if PassesThrough(path) then Next
    else if !Http.Present(cookie) then Redirect(LOGIN_PAGE + REDIRECT_PARAM + encode(path))
    else Next
  }

  /** The whole edge: paths outside the matcher never reach the function. */
  function Edge(path: string, cookie: Option<string>, encode: string -> string): (d: Decision)
    ensures !Matched(path) ==> d == Next
    ensures d.Redirect? ==> Matched(path) && !Http.Present(cookie)
  {
    if Matched(path) then Middleware(path, cookie, encode) else Next
  }

  /** The middleware's public list and `isPublicPage` name the same pages. */
  lemma PassPagesArePublicPages(path: string)
    ensures path in PASS_PAGES <==> AuthConfig.IsPublicPage(path)
  {
  }

  /** Nothing `isPublicPath` calls public is ever redirected: the pages are
      on the list and the API prefixes all begin with `/api/`. */
  lemma {:induction false} PublicPathsPass(path: string, cookie: Option<string>, encode: string -> string)
    requires AuthConfig.IsPublicPath(path)
    ensures Middleware(path, cookie, encode) == Next
  {
    AuthConfig.PublicPathShape(path);
  }

  /** No redirect loop: the login page the redirect points at is always let
      through, with or without a cookie. */
  lemma NoRedirectLoop(cookie: Option<string>, encode: string -> string)
    ensures Middleware(LOGIN_PAGE, cookie, encode) == Next
    ensures Edge(LOGIN_PAGE, cookie, encode) == Next
  {
    assert LOGIN_PAGE in PASS_PAGES;
  }

  /** Any non-empty cookie value opens every page: the value is never
      inspected. */
  lemma OnlyPresenceMatters(path: string, a: string, b: string, encode: string -> string)
    requires a != "" && b != ""
    ensures Middleware(path, Some(a), encode) == Middleware(path, Some(b), encode) == Next
  {
  }

  /** A protected page without the cookie is redirected, and the path can
      be recovered from the location whenever the encoding is injective. */
  lemma RedirectRemembersPath(p1: string, p2: string, encode: string -> string)
    requires !PassesThrough(p1) && !PassesThrough(p2)
    requires encode(p1) != encode(p2)
    ensures Middleware(p1, None, encode) != Middleware(p2, None, encode)
  {
    var l1 := Middleware(p1, None, encode).location;
    var l2 := Middleware(p2, None, encode).location;
    var k := |LOGIN_PAGE + REDIRECT_PARAM|;
    assert l1[k..] == encode(p1) && l2[k..] == encode(p2);
  }

  /** The matcher keeps the function from seeing some pages its own test
      would redirect: a page such as `/apidocs` begins with `api` but not
      with `/api/`, so it is neither checked nor let through by the body. */
  lemma MatcherSkipsApiLikePages(encode: string -> string)
    ensures Middleware("/apidocs", None, encode).Redirect?
    ensures Edge("/apidocs", None, encode) == Next
  {
    assert "/apidocs"[1..][..3] == "api";
    var p := "/apidocs";
    assert p[4] == 'd' != "/api/"[4];
    assert p[1] == 'a' != "/_next"[1];
    assert p[|p| - 4] == 'd' != ".ico"[0];
  }
}

=== FILE: reference_codec.dfy ===
/** A concrete codec satisfying `Jwt.Lawful`, showing that the laws the
    session core relies on are consistent. It is deliberately simple and
    not a cryptographic construction: a token lists the claim fields, `iat`,
    `exp` and a signature field; opening re-signs the parsed claims and
    compares, which is how HMAC verification proceeds. */
module ReferenceCodec {
  import opened Wrappers
  import opened Jwt

  /** Each character is written after a `.`; a `|` ends the field. The
      encoding is prefix-free, so fields can be read back one by one. */
  function EncodeField(f: string): (r: string)
    ensures |r| > 0
  {
    if |f| == 0 then "|" else ['.', f[0]] + EncodeField(f[1..])
  }

  function EncodeFields(fs: seq<string>): string {
    if |fs| == 0 then "" else EncodeField(fs[0]) + EncodeFields(fs[1..])
  }

  /** Reads one field off the front; returns it with the unread rest. */
  function DecodeField(s: string): (r: Option<(string, string)>)
    ensures r.Some? ==> |r.value.1| < |s|
    decreases |s|
  {
    if |s| == 0 then None
    else if s[0] == '|' then Some(("", s[1..]))
    else if s[0] == '.' && |s| >= 2 then
      match DecodeField(s[2..])
      case None => None
      case Some((f, rest)) => Some(([s[1]] + f, rest))
    else None
  }

  function DecodeFields(s: string): Option<seq<string>>
    decreases |s|
  {
    if |s| == 0 then Some([])
    else
      match DecodeField(s)
      case None => None
      case Some((f, rest)) =>
        match DecodeFields(rest)
        case None => None
        case Some(fs) => Some([f] + fs)
  }

  lemma {:induction false} FieldRoundTrip(f: string, tail: string)
    ensures DecodeField(EncodeField(f) + tail) == Some((f, tail))
    decreases |f|
  {
    if |f| > 0 {
      var s := EncodeField(f) + tail;
      assert s[2..] == EncodeField(f[1..]) + tail;
      FieldRoundTrip(f[1..], tail);
      assert [f[0]] + f[1..] == f;
    }
  }

  lemma {:induction false} FieldsRoundTrip(fs: seq<string>)
    ensures DecodeFields(EncodeFields(fs)) == Some(fs)
    decreases |fs|
  {
    if |fs| > 0 {
      FieldRoundTrip(fs[0], EncodeFields(fs[1..]));
      FieldsRoundTrip(fs[1..]);
      assert [fs[0]] + fs[1..] == fs;
    }
  }

  function DigitChar(d: nat): char
    requires d < 10
  {
    ('0' as int + d) as char
  }

  /** Decimal digits, most significant first, no leading zeros. */
  function NatToString(n: nat): (r: string)
    ensures |r| > 0
    decreases n
  {
    if n < 10 then [DigitChar(n)] else NatToString(n / 10) + [DigitChar(n % 10)]
  }

  function StringToNat(s: string): Option<nat>
    decreases |s|
  {
    if |s| == 0 || !('0' <= s[|s| - 1] <= '9') then None
    else
      var d := s[|s| - 1] as int - '0' as int;
      if |s| == 1 then Some(d)
      else
        match StringToNat(s[..|s| - 1])
        case None => None
        case Some(m) => Some(m * 10 + d)
  }

  lemma {:induction false} NatRoundTrip(n: nat)
    ensures StringToNat(NatToString(n)) == Some(n)
    decreases n
  {
    if n >= 10 {
      var s := NatToString(n);
      NatRoundTrip(n / 10);
      assert s[..|s| - 1] == NatToString(n / 10);
    }
  }

  function PayloadFields(p: Payload): seq<string> {
    match p
    case AccessClaims(id, email, role, first, last) => ["access", id, email, role, first, last]
    case RefreshClaims(id, jti) => ["refresh", id, jti]
  }

  function PayloadOfFields(fs: seq<string>): Option<Payload> {
    if |fs| == 6 && fs[0] == "access" then Some(AccessClaims(fs[1], fs[2], fs[3], fs[4], fs[5]))
    else if |fs| == 3 && fs[0] == "refresh" then Some(RefreshClaims(fs[1], fs[2]))
    else None
  }

  function Sign(p: Payload, key: string, iat: nat, ttl: nat): string {
    EncodeFields(PayloadFields(p) + [NatToString(iat), NatToString(iat + ttl), key])
  }

  /** Splits a token into its claims, `iat`, `exp` and signature field. */
  function Parse(t: string): Option<(Payload, nat, nat, string)> {
    match DecodeFields(t)
    case None => None
    case Some(fs) =>
      if |fs| < 3 then None
      else
        var n := |fs|;
        var p := PayloadOfFields(fs[..n - 3]);
        var iat := StringToNat(fs[n - 3]);
        var exp := StringToNat(fs[n - 2]);
        if p.Some? && iat.Some? && exp.Some? then Some((p.value, iat.value, exp.value, fs[n - 1]))
        else None
  }

  /** Verification: the token parses and re-signing its claims with `key`
      reproduces it exactly. */
  function Open(t: string, key: string): (r: Option<Decoded>)
    ensures r.Some? ==> r.value.iat <= r.value.exp &&
                        t == Sign(r.value.payload, key, r.value.iat, r.value.exp - r.value.iat)
  {
    match Parse(t)
    case None => None
    case Some((p, iat, exp, signature)) =>
      if iat <= exp && signature == key && Sign(p, key, iat, exp - iat) == t
      then Some(Decoded(p, iat, exp))
      else None
  }

  function Reference(): Codec {
    Codec(Sign, Open)
  }

  lemma ParseSigned(p: Payload, key: string, iat: nat, ttl: nat)
    ensures Parse(Sign(p, key, iat, ttl)) == Some((p, iat, iat + ttl, key))
  {
    var fs := PayloadFields(p) + [NatToString(iat), NatToString(iat + ttl), key];
    FieldsRoundTrip(fs);
    assert DecodeFields(Sign(p, key, iat, ttl)) == Some(fs);
    var n := |fs|;
    assert fs[n - 3] == NatToString(iat);
    assert fs[n - 2] == NatToString(iat + ttl);
    assert fs[n - 1] == key;
    NatRoundTrip(iat);
    NatRoundTrip(iat + ttl);
    assert fs[..n - 3] == PayloadFields(p);
    assert PayloadOfFields(PayloadFields(p)) == Some(p);
  }

  lemma SignThenOpen(p: Payload, key: string, iat: nat, ttl: nat)
    ensures Open(Sign(p, key, iat, ttl), key) == Some(Decoded(p, iat, iat + ttl))
  {
    ParseSigned(p, key, iat, ttl);
    assert iat + ttl - iat == ttl;
  }

  lemma ReferenceSignedOpens()
    ensures SignedOpens(Reference())
  {
    forall p: Payload, key: string, iat: nat, ttl: nat
      ensures Open(Sign(p, key, iat, ttl), key) == Some(Decoded(p, iat, iat + ttl))
    {
      SignThenOpen(p, key, iat, ttl);
    }
  }

  lemma OpenedWasSigned(t: string, key: string)
    ensures var c := Reference();
            c.open(t, key).Some? ==>
              && c.open(t, key).value.iat <= c.open(t, key).value.exp
              && t == c.sign(c.open(t, key).value.payload, key, c.open(t, key).value.iat,
                             c.open(t, key).value.exp - c.open(t, key).value.iat)
  {
    var r := Open(t, key);
    assert Reference().open(t, key) == r;
  }

  lemma ReferenceOnlySignedOpens()
    ensures OnlySignedOpens(Reference())
  {
    forall t: string, key: string {
      OpenedWasSigned(t, key);
    }
  }

  lemma ReferenceNonEmptyTokens()
    ensures NonEmptyTokens(Reference())
  {
    forall p: Payload, key: string, iat: nat, ttl: nat
      ensures Sign(p, key, iat, ttl) != ""
    {
      var fs := PayloadFields(p) + [NatToString(iat), NatToString(iat + ttl), key];
      assert |EncodeField(fs[0])| > 0;
    }
  }

  /** The reference codec meets all three laws. */
  lemma ReferenceIsLawful()
    ensures Lawful(Reference())
  {
    ReferenceSignedOpens();
    ReferenceOnlySignedOpens();
    ReferenceNonEmptyTokens();
  }
}

=== FILE: refresh.dfy ===
/** `POST /api/auth/refresh` of `src/app/api/auth/refresh/route.js`: trades
    the refresh cookie for a new access token. The route only reads the
    database, so the model returns the reply alone. */
module Refresh {
  import opened Wrappers
  import opened Strings
  import Jwt
  import opened Db
  import Http

  const NO_COOKIE := "Refresh token not found"
  const NO_USER := "User not found"
  const REFRESH_FAILED := "Failed to refresh token due to a server error."

  datatype RefreshBody = RefreshError(error: string) | Refreshed(accessToken: string, user: SessionUser)

  type RefreshReply = Http.Reply<RefreshBody>

  function Reject(status: nat, message: string): RefreshReply {
    Http.Reply(status, RefreshError(message), None)
  }

  /** The catch block: a thrown message mentioning `token` is 401 with that
      message, anything else a generic 500. */
  function Caught(message: string): (r: RefreshReply)
    ensures r.body.RefreshError?
    ensures r.status == 401 <==> Contains(message, "token")
    ensures r.status == 401 ==> r.body.error == message
    ensures r.status != 401 ==> r.status == 500 && r.body.error == REFRESH_FAILED
  {
    if Contains(message, "token") then Reject(401, message) else Reject(500, REFRESH_FAILED)
  }

  /** The profile id of a child user: here the first `children` row whose
      `child_user_id` is the user's id (login reads `user_id` instead). */
  function RefreshChildProfileId(u: UserRow, children: seq<ChildProfile>): (r: Option<string>)
    ensures r.Some? ==> u.role == CHILD
    ensures r.Some? ==>
              exists k :: 0 <= k < |children| && children[k].childUserId == Some(u.id) && children[k].id == r.value
    ensures u.role == CHILD && (exists k :: 0 <= k < |children| && children[k].childUserId == Some(u.id)) ==> r.Some?
  {
    if u.role != CHILD then None
    else
      match First(children, (ch: ChildProfile) => ch.childUserId == Some(u.id))
      case None => None
      case Some(ch) => Some(ch.id)
  }

  /** Everything a successful refresh needs: a non-empty cookie, a working
      database, a stored row that is not revoked or past its expiry, a token
      that verifies, and a user with the token's `id`. */
  predicate Accepted(c: Jwt.Codec, keys: Jwt.Secrets, db: Database, cookie: Option<string>, nowMs: nat) {
    && Http.Present(cookie)
    && db.fault.None?
    && StoreAccepts(LookupToken(db.tokens, cookie.value), nowMs)
    && Jwt.VerifyRefreshToken(c, keys, cookie.value, nowMs).Ok?
    && UserById(db.users, Jwt.VerifyRefreshToken(c, keys, cookie.value, nowMs).value.payload.id).Some?
  }

  function Refresh(c: Jwt.Codec, keys: Jwt.Secrets, db: Database, cookie: Option<string>, nowMs: nat): (r: RefreshReply)
    ensures r.setCookie.None?
    ensures r.status == 200 <==> Accepted(c, keys, db, cookie, nowMs)
    // On success: a new access token for the current row of the user the
    // refresh token names, and that user's summary.
    ensures r.status == 200 ==>
              var u := UserById(db.users, Jwt.VerifyRefreshToken(c, keys, cookie.value, nowMs).value.payload.id).value;
              r.body == Refreshed(Jwt.GenerateAccessToken(c, keys, IdentityOf(u), nowMs),
                                  SummaryOf(u, RefreshChildProfileId(u, db.children)))
    // Every failure is 401, except a database error whose message does not
    // mention `token`.
    ensures r.status != 200 ==> r.body.RefreshError?
    ensures r.status != 200 ==> r.status == 401 || r.status == 500
    ensures r.status == 500 <==> Http.Present(cookie) && db.fault.Some? && !Contains(db.fault.value, "token")
    ensures !Http.Present(cookie) ==> r == Reject(401, NO_COOKIE)
    ensures Http.Present(cookie) && db.fault.None? && !StoreAccepts(LookupToken(db.tokens, cookie.value), nowMs) ==>
              r == Reject(401, Jwt.INVALID_REFRESH)
  {
    if !Http.Present(cookie) then Reject(401, NO_COOKIE)
    else if db.fault.Some? then Caught(db.fault.value)
    else
      var token := cookie.value;
      if !StoreAccepts(LookupToken(db.tokens, token), nowMs) then Reject(401, Jwt.INVALID_REFRESH)
      else
        match Jwt.VerifyRefreshToken(c, keys, token, nowMs)
        case Err(m) =>
          Jwt.TokenErrorsAreAuthMessages();
          RefreshMessageMentionsToken();
          Caught(m)
        case Ok(decoded) =>
          match UserById(db.users, decoded.payload.id)
          case None => Reject(401, NO_USER)
          case Some(u) =>
            Http.Reply(200, Refreshed(Jwt.GenerateAccessToken(c, keys, IdentityOf(u), nowMs),
                                      SummaryOf(u, RefreshChildProfileId(u, db.children))), None)
  }

  lemma RefreshMessageMentionsToken()
    ensures Contains(Jwt.INVALID_REFRESH, "token")
  {
    assert MatchAt(Jwt.INVALID_REFRESH, "token", 27);
  }

  /** A refresh succeeds only for the user the stored row was issued to:
      with a well-formed store the token's `id` is the row's `user_id`. */
  lemma RefreshServesRowOwner(c: Jwt.Codec, keys: Jwt.Secrets, db: Database, cookie: Option<string>, nowMs: nat)
    requires WellFormedStore(c, keys, db.tokens)
    requires Refresh(c, keys, db, cookie, nowMs).status == 200
    ensures cookie.value in db.tokens
    ensures Refresh(c, keys, db, cookie, nowMs).body.user.id == db.tokens[cookie.value].userId
  {
    var d := Jwt.VerifyRefreshToken(c, keys, cookie.value, nowMs).value;
    assert d.payload == Jwt.RefreshClaims(db.tokens[cookie.value].userId, db.tokens[cookie.value].jti);
    assert First(db.users, (u: UserRow) => u.id == d.payload.id).value.id == d.payload.id;
  }

  /** PostgreSQL's message for a missing `refresh_tokens` table. */
  const MISSING_TABLE_MESSAGE := "relation \"refresh_tokens\" does not exist"

  /** The catch block tests only for `token`, so a database failure whose
      message names the `refresh_tokens` table is answered 401 with the raw
      database message, not 500. */
  lemma DatabaseErrorNamingTableIs401(c: Jwt.Codec, keys: Jwt.Secrets, db: Database, cookie: Option<string>, nowMs: nat)
    requires Http.Present(cookie)
    requires db.fault == Some(MISSING_TABLE_MESSAGE)
    ensures Refresh(c, keys, db, cookie, nowMs) == Reject(401, MISSING_TABLE_MESSAGE)
  {
    var m := db.fault.value;
    assert m[18] == 't' && m[19] == 'o' && m[20] == 'k' && m[21] == 'e' && m[22] == 'n';
    assert m[18..23] == "token";
    assert MatchAt(m, "token", 18);
  }
}

=== FILE: relationships.dfy ===
/** `POST`, `GET` and `DELETE /api/parent-child-relationships` of
    `src/app/api/parent-child-relationships/route.js`: a parent (or an
    admin) links to a child user; the link starts `pending` unless an admin
    creates it or auto-approval is asked for. The `parent_child_relationships`
    table is a sequence of rows in insertion order. */
module Relationships {
  import opened Wrappers
  import opened Strings
  import Jwt
  import Db
  import Http

  const ACTIVE := "active"
  const PENDING := "pending"
  const ALL := "all"
  const DEFAULT_TYPE := "parent"

  const EMAIL_REQUIRED := "子どものメールアドレスは必須です"
  const NOT_ALLOWED := "保護者または管理者のみが関係を作成できます"
  const CHILD_NOT_FOUND := "指定されたメールアドレスの子どもユーザーが見つかりません"
  const NO_PROFILE := "この子どもにはプロフィールが作成されていません"
  const ALREADY_ACTIVE := "この子どもとの関係は既に有効です"
  const ALREADY_PENDING := "この子どもとの関係は既に申請済みです"
  const CREATED := "子どもとの関係が正常に作成されました"
  const REQUESTED := "関係の申請が送信されました。承認をお待ちください"
  const CREATE_FAILED := "関係の作成に失敗しました"
  const NO_VIEW := "閲覧権限がありません"
  const LIST_FAILED := "関係一覧の取得に失敗しました"
  const TARGET_REQUIRED := "関係IDまたは子どものメールアドレスが必要です"
  const DELETE_CHILD_NOT_FOUND := "指定された子どもユーザーが見つかりません"
  const NOTHING_DELETED := "削除対象の関係が見つからないか、権限がありません"
  const DELETED := "関係が正常に削除されました"
  const DELETE_FAILED := "関係の削除に失敗しました"
  const AUTH_ERROR_PREFIX := "認証エラー: "

  /** A `parent_child_relationships` row. `approvedAt` is the approval
      instant in milliseconds. */
  datatype Relationship = Relationship(id: string, parentUserId: string, childUserId: string,
                                       relationshipType: string, status: string, createdBy: string,
                                       approvedAt: Option<nat>, approvedBy: Option<string>)

  datatype Tables = Tables(db: Db.Database, relationships: seq<Relationship>)

  datatype Body =
    | Created(message: string, relationship: Relationship, childName: string, childEmail: string)
    | Listed(relationships: seq<Relationship>, total: nat, userRole: Option<string>)
    | Deleted(message: string, deleted: Relationship)
    | Failure(error: string)

  datatype Outcome = Outcome(reply: Http.Reply<Body>, relationships: seq<Relationship>)

  function Fail(status: nat, error: string, rows: seq<Relationship>): Outcome {
    Outcome(Http.Reply(status, Failure(error), None), rows)
  }

  /** Each handler's catch block: 401 quoting an authentication message,
      otherwise 500 with the handler's own message; the table is untouched. */
  function Caught(message: string, failed: string, rows: seq<Relationship>): (out: Outcome)
    ensures out.relationships == rows && out.reply.body.Failure?
    ensures out.reply.status == 401 <==> Jwt.IsAuthMessage(message)
    ensures out.reply.status == 401 ==> out.reply.body.error == AUTH_ERROR_PREFIX + message
    ensures out.reply.status != 401 ==> out.reply.status == 500 && out.reply.body.error == failed
  {
    if Jwt.IsAuthMessage(message) then Fail(401, AUTH_ERROR_PREFIX + message, rows) else Fail(500, failed, rows)
  }

  /** `childEmail.toLowerCase().trim()`. */
  function NormalizeEmail(email: string): string {
    Trim(ToLower(email))
  }

  /** `SELECT ... FROM users WHERE email = $1 AND role = 'child'`. */
  function ChildUserByEmail(users: seq<Db.UserRow>, email: string): (r: Option<Db.UserRow>)
    ensures r.Some? ==> r.value in users && r.value.email == NormalizeEmail(email) && r.value.role == Db.CHILD
    ensures r.None? ==> forall u :: u in users ==> !(u.email == NormalizeEmail(email) && u.role == Db.CHILD)
  {
    Db.First(users, (u: Db.UserRow) => u.email == NormalizeEmail(email) && u.role == Db.CHILD)
  }

  predicate HasProfile(children: seq<Db.ChildProfile>, childUserId: string) {
    exists k :: 0 <= k < |children| && children[k].userId == Some(childUserId)
  }

  function HasProfileQuery(children: seq<Db.ChildProfile>, childUserId: string): (r: bool)
    ensures r <==> HasProfile(children, childUserId)
  {
    Db.First(children, (ch: Db.ChildProfile) => ch.userId == Some(childUserId)).Some?
  }

  /** The existing row between the pair, `rows[0]` of the pair query. */
  function PairRow(rows: seq<Relationship>, parentId: string, childId: string): Option<Relationship> {
    Db.First(rows, (r: Relationship) => r.parentUserId == parentId && r.childUserId == childId)
  }

  // ---------------------------------------------------------------------
  // POST

  /** The JSON body; `relationshipType` defaults only when absent, and
      `autoApprove` is its JavaScript truthiness. */
  datatype PostBody = PostBody(childEmail: Option<string>, relationshipType: Option<string>, autoApprove: bool)

  /** The row a creation inserts: active, approved now and by the creator,
      when an admin creates it or auto-approval is asked for; otherwise
      pending with no approval. */
  function NewRow(newId: string, creator: string, role: string, childId: string, kind: string,
                  autoApprove: bool, nowMs: nat): (r: Relationship)
    ensures r.status == ACTIVE <==> role == Db.ADMIN || autoApprove
    ensures r.status != ACTIVE ==> r.status == PENDING
    ensures r.approvedBy == Some(creator) <==> r.status == ACTIVE
    ensures r.approvedBy.None? <==> r.status != ACTIVE
    ensures r.approvedAt.Some? <==> r.status == ACTIVE
    ensures r.parentUserId == creator && r.createdBy == creator && r.childUserId == childId && r.id == newId
  {
    var active := role == Db.ADMIN || autoApprove;
    Relationship(newId, creator, childId, kind, if active then ACTIVE else PENDING, creator,
                 if active then Some(nowMs) else None, if active then Some(creator) else None)
  }

  /** The insert once the caller, the child and its profile are known. */
  function Create(t: Tables, creator: string, role: string, child: Db.UserRow, body: PostBody,
                  newId: string, nowMs: nat): (out: Outcome)
    // A pending or active link between the pair is never duplicated.
    ensures var existing := PairRow(t.relationships, creator, child.id);
            existing.Some? && (existing.value.status == ACTIVE || existing.value.status == PENDING) ==>
              out.reply.status == 409 && out.relationships == t.relationships
    // Otherwise exactly one row is appended.
    ensures var existing := PairRow(t.relationships, creator, child.id);
            !(existing.Some? && (existing.value.status == ACTIVE || existing.value.status == PENDING)) ==>
              && out.reply.status == 200 && out.reply.body.Created?
              && out.relationships == t.relationships + [out.reply.body.relationship]
              && out.reply.body.relationship ==
                   NewRow(newId, creator, role, child.id, body.relationshipType.GetOr(DEFAULT_TYPE), body.autoApprove, nowMs)
              && out.reply.body.message == (if out.reply.body.relationship.status == ACTIVE then CREATED else REQUESTED)
  {
    var existing := PairRow(t.relationships, creator, child.id);
    if existing.Some? && existing.value.status == ACTIVE then Fail(409, ALREADY_ACTIVE, t.relationships)
    else if existing.Some? && existing.value.status == PENDING then Fail(409, ALREADY_PENDING, t.relationships)
    else
      var row := NewRow(newId, creator, role, child.id, body.relationshipType.GetOr(DEFAULT_TYPE), body.autoApprove, nowMs);
      Outcome(Http.Reply(200, Created(if row.status == ACTIVE then CREATED else REQUESTED, row,
                                      child.firstName + " " + child.lastName, child.email), None),
              t.relationships + [row])
  }

  predicate MayCreate(role: Option<string>) {
    role == Some(Db.PARENT) || role == Some(Db.ADMIN)
  }

  /** `POST` after authentication and body parsing. The email is checked
      before the role, both before any query; a successful creation is by a
      parent or an admin, names the caller as parent and creator, and a
      child user that has a profile. */
  function Admit(t: Tables, user: Jwt.Payload, b: PostBody, newId: string, nowMs: nat): (out: Outcome)
    ensures out.reply.setCookie.None?
    ensures out.reply.status != 200 ==> out.relationships == t.relationships && out.reply.body.Failure?
    ensures !Http.Present(b.childEmail) ==> out == Fail(400, EMAIL_REQUIRED, t.relationships)
    ensures Http.Present(b.childEmail) && !MayCreate(Jwt.RoleOf(user)) ==> out == Fail(403, NOT_ALLOWED, t.relationships)
    ensures out.reply.status == 200 ==>
              && out.reply.body.Created?
              && |out.relationships| == |t.relationships| + 1
              && out.relationships[..|t.relationships|] == t.relationships
              && var row := out.reply.body.relationship;
                 && MayCreate(Jwt.RoleOf(user))
                 && row == out.relationships[|t.relationships|]
                 && row.parentUserId == user.id && row.createdBy == user.id
                 && (row.status == ACTIVE <==> Jwt.RoleOf(user) == Some(Db.ADMIN) || b.autoApprove)
                 && (row.approvedBy == Some(user.id) <==> row.status == ACTIVE)
                 && (exists u :: u in t.db.users && u.id == row.childUserId && u.role == Db.CHILD)
                 && HasProfile(t.db.children, row.childUserId)
    // Past the two checks: a failing database goes to the catch block; an
    // unknown child is 404, a child without a profile 400, and otherwise
    // the link is created.
    ensures Http.Present(b.childEmail) && MayCreate(Jwt.RoleOf(user)) && t.db.fault.Some? ==>
              out == Caught(t.db.fault.value, CREATE_FAILED, t.relationships)
    ensures Http.Present(b.childEmail) && MayCreate(Jwt.RoleOf(user)) && t.db.fault.None? ==>
              var child := ChildUserByEmail(t.db.users, b.childEmail.value);
              && (child.None? ==> out == Fail(404, CHILD_NOT_FOUND, t.relationships))
              && (child.Some? && !HasProfile(t.db.children, child.value.id) ==>
                    out == Fail(400, NO_PROFILE, t.relationships))
              && (child.Some? && HasProfile(t.db.children, child.value.id) ==>
                    out == Create(t, user.id, Jwt.RoleOf(user).value, child.value, b, newId, nowMs))
  {
    if !Http.Present(b.childEmail) then Fail(400, EMAIL_REQUIRED, t.relationships)
    else if !MayCreate(Jwt.RoleOf(user)) then Fail(403, NOT_ALLOWED, t.relationships)
    else if t.db.fault.Some? then Caught(t.db.fault.value, CREATE_FAILED, t.relationships)
    else FindChild(t, user, b, newId, nowMs)
  }

  /** The two lookups of `POST` on a working database: the child user by
      email, then its profile, then the insert. */
  function FindChild(t: Tables, user: Jwt.Payload, b: PostBody, newId: string, nowMs: nat): (out: Outcome)
    requires Http.Present(b.childEmail) && MayCreate(Jwt.RoleOf(user)) && t.db.fault.None?
    ensures out.reply.setCookie.None?
    ensures out.reply.status != 200 ==> out.relationships == t.relationships && out.reply.body.Failure?
    ensures out.reply.status == 200 ==>
              && out.reply.body.Created?
              && |out.relationships| == |t.relationships| + 1
              && out.relationships[..|t.relationships|] == t.relationships
              && var row := out.reply.body.relationship;
                 && row == out.relationships[|t.relationships|]
                 && row.parentUserId == user.id && row.createdBy == user.id
                 && (row.status == ACTIVE <==> Jwt.RoleOf(user) == Some(Db.ADMIN) || b.autoApprove)
                 && (row.approvedBy == Some(user.id) <==> row.status == ACTIVE)
                 && (exists u :: u in t.db.users && u.id == row.childUserId && u.role == Db.CHILD)
                 && HasProfile(t.db.children, row.childUserId)
    ensures var child := ChildUserByEmail(t.db.users, b.childEmail.value);
            && (child.None? ==> out == Fail(404, CHILD_NOT_FOUND, t.relationships))
            && (child.Some? && !HasProfile(t.db.children, child.value.id) ==>
                  out == Fail(400, NO_PROFILE, t.relationships))
            && (child.Some? && HasProfile(t.db.children, child.value.id) ==>
                  out == Create(t, user.id, Jwt.RoleOf(user).value, child.value, b, newId, nowMs))
  {
    match ChildUserByEmail(t.db.users, b.childEmail.value)
    case None => Fail(404, CHILD_NOT_FOUND, t.relationships)
    case Some(child) =>
      if !HasProfileQuery(t.db.children, child.id) then Fail(400, NO_PROFILE, t.relationships)
      else
        var role := Jwt.RoleOf(user).value;
        var out := Create(t, user.id, role, child, b, newId, nowMs);
        assert role == Db.ADMIN <==> Jwt.RoleOf(user) == Some(Db.ADMIN);
        assert out.reply.status == 200 ==>
                 out.relationships[..|t.relationships|] == t.relationships &&
                 out.reply.body.relationship.childUserId == child.id;
        assert child in t.db.users && child.role == Db.CHILD;
        out
  }

  /** `POST`. `newId` is the id the database assigns to an inserted row. */
  function Post(c: Jwt.Codec, keys: Jwt.Secrets, header: Option<string>, nowMs: nat,
                body: Result<PostBody, string>, t: Tables, newId: string): (out: Outcome)
    ensures out.reply.setCookie.None?
    ensures out.reply.status != 200 ==> out.relationships == t.relationships && out.reply.body.Failure?
    // Nothing is created without a verified access token and a parsed body.
    ensures out.reply.status == 200 ==> Jwt.VerifyAccessTokenFromHeader(c, keys, header, nowMs).Ok? && body.Ok?
    ensures Jwt.VerifyAccessTokenFromHeader(c, keys, header, nowMs).Ok? && body.Ok? ==>
              out == Admit(t, Jwt.VerifyAccessTokenFromHeader(c, keys, header, nowMs).value.payload, body.value, newId, nowMs)
    ensures Jwt.VerifyAccessTokenFromHeader(c, keys, header, nowMs).Err? ==> out.reply.status == 401
    // A body that does not parse goes to the catch block with its message.
    ensures Jwt.VerifyAccessTokenFromHeader(c, keys, header, nowMs).Ok? && body.Err? ==>
              out == Caught(body.error, CREATE_FAILED, t.relationships)
  {
    match Jwt.VerifyAccessTokenFromHeader(c, keys, header, nowMs)
    case Err(m) =>
      Jwt.HeaderGateFailuresAreAuthMessages(c, keys, header, nowMs);
      Caught(m, CREATE_FAILED, t.relationships)
    case Ok(user) =>
      match body
      case Err(m) => Caught(m, CREATE_FAILED, t.relationships)
      case Ok(b) => Admit(t, user.payload, b, newId, nowMs)
  }

  /** Asking again for a link just created, pending or active, is refused
      with the matching message and leaves the table as it was. */
  lemma {:induction false} RepeatedRequestRefused(t: Tables, creator: string, role: string, child: Db.UserRow,
                                                  body: PostBody, newId: string, nowMs: nat, again: PostBody,
                                                  newId2: string, nowMs2: nat)
    requires PairRow(t.relationships, creator, child.id).None?
    ensures var first := Create(t, creator, role, child, body, newId, nowMs);
            Create(t.(relationships := first.relationships), creator, role, child, again, newId2, nowMs2) ==
              Fail(409, if first.reply.body.relationship.status == ACTIVE then ALREADY_ACTIVE else ALREADY_PENDING,
                   first.relationships)
  {
    var first := Create(t, creator, role, child, body, newId, nowMs);
    var rows := first.relationships;
    var row := first.reply.body.relationship;
    var p := (r: Relationship) => r.parentUserId == creator && r.childUserId == child.id;
    assert rows[|rows| - 1] == row && p(row);
    assert forall k :: 0 <= k < |t.relationships| ==> !p(rows[k]) by {
      forall k | 0 <= k < |t.relationships| ensures !p(rows[k]) {
        assert rows[k] == t.relationships[k];
      }
    }
    assert PairRow(rows, creator, child.id) == Some(row);
  }

  // ---------------------------------------------------------------------
  // The insert statement

  /** A parameterised SQL statement: the placeholders `$k` its text uses and
      the number of parameters bound to it. */
  datatype Statement = Statement(placeholders: set<nat>, params: nat)

  /** PostgreSQL accepts the statement only when the placeholders are
      exactly `$1` to `$n` for the `n` parameters bound: a gap leaves a
      parameter whose type cannot be determined, and a placeholder past the
      last parameter has no value. */
  predicate Binds(st: Statement) {
    && (forall k :: k in st.placeholders ==> 1 <= k <= st.params)
    && (forall k: nat :: 1 <= k <= st.params ==> k in st.placeholders)
  }

  /** The insert as written: the approval time and approver go to `$6` and
      `$7` when present, while only four other parameters precede them. */
  function InsertStatementAsWritten(active: bool): (st: Statement)
    ensures st.params == if active then 6 else 4
    ensures !active ==> st.placeholders == {1, 2, 3, 4}
    ensures active ==> st.placeholders == {1, 2, 3, 4, 6, 7}
  {
    if active then Statement({1, 2, 3, 4, 6, 7}, 6) else Statement({1, 2, 3, 4}, 4)
  }

  /** As written, a pending insert binds, but every active insert (an admin's,
      or one with auto-approval) fails with a database error. */
  lemma ActiveInsertFailsAsWritten()
    ensures Binds(InsertStatementAsWritten(false))
    ensures !Binds(InsertStatementAsWritten(true))
  {
    var st := InsertStatementAsWritten(true);
    assert 5 !in st.placeholders && 1 <= 5 <= st.params;
  }

  /** The insert with the approval time and approver at `$5` and `$6`. */
  function InsertStatement(active: bool): (st: Statement)
    ensures st.params == if active then 6 else 4
  {
    if active then Statement({1, 2, 3, 4, 5, 6}, 6) else Statement({1, 2, 3, 4}, 4)
  }

  /** The corrected insert binds whichever status the row gets; it is the
      one `Create` stands for. */
  lemma InsertBinds(active: bool)
    ensures Binds(InsertStatement(active))
  {
    var st := InsertStatement(active);
  }

  // ---------------------------------------------------------------------
  // GET

  /** `searchParams.get('status') || 'active'`. */
  function StatusFilter(param: Option<string>): (s: string)
    ensures Http.Present(param) ==> s == param.value
    ensures !Http.Present(param) ==> s == ACTIVE
  {
    if Http.Present(param) then param.value else ACTIVE
  }

  predicate UserExists(users: seq<Db.UserRow>, id: string) {
    exists u :: u in users && u.id == id
  }

  /** The rows each role sees: a parent its own links, a child the links to
      it, an admin every link (all statuses when asked for `all`); the
      `JOIN users` drops links whose joined user is missing. */
  predicate Visible(users: seq<Db.UserRow>, role: string, uid: string, status: string, r: Relationship) {
    if role == Db.PARENT then r.parentUserId == uid && r.status == status && UserExists(users, r.childUserId)
    else if role == Db.CHILD then r.childUserId == uid && r.status == status && UserExists(users, r.parentUserId)
    else (status == ALL || r.status == status) && UserExists(users, r.parentUserId) && UserExists(users, r.childUserId)
  }

  predicate MayView(role: Option<string>) {
    role == Some(Db.PARENT) || role == Some(Db.CHILD) || role == Some(Db.ADMIN)
  }

  /** The rows a caller sees, in table order. */
  function VisibleRows(users: seq<Db.UserRow>, role: string, uid: string, status: string,
                       rows: seq<Relationship>): seq<Relationship> {
    Filter(rows, (r: Relationship) => Visible(users, role, uid, status, r))
  }

  /** `GET`, newest first (`ORDER BY created_at DESC`), where the table's
      order is the order of creation. */
  function Get(c: Jwt.Codec, keys: Jwt.Secrets, header: Option<string>, nowMs: nat,
               statusParam: Option<string>, t: Tables): (out: Outcome)
    ensures out.relationships == t.relationships && out.reply.setCookie.None?
    ensures Jwt.VerifyAccessTokenFromHeader(c, keys, header, nowMs).Ok? ==>
              var user := Jwt.VerifyAccessTokenFromHeader(c, keys, header, nowMs).value.payload;
              && (!MayView(Jwt.RoleOf(user)) ==> out.reply == Http.Reply(403, Failure(NO_VIEW), None))
              && (MayView(Jwt.RoleOf(user)) && t.db.fault.None? ==>
                    && out.reply.status == 200 && out.reply.body.Listed?
                    && out.reply.body.userRole == Jwt.RoleOf(user)
                    && out.reply.body.total == |out.reply.body.relationships|
                    && (forall r :: r in out.reply.body.relationships <==>
                          r in t.relationships &&
                          Visible(t.db.users, Jwt.RoleOf(user).value, user.id, StatusFilter(statusParam), r))
                    // Read from the end, the list is the visible rows in table
                    // order, each as often as it is stored.
                    && Reverse(out.reply.body.relationships) ==
                         VisibleRows(t.db.users, Jwt.RoleOf(user).value, user.id, StatusFilter(statusParam), t.relationships))
    ensures Jwt.VerifyAccessTokenFromHeader(c, keys, header, nowMs).Ok? ==>
              var user := Jwt.VerifyAccessTokenFromHeader(c, keys, header, nowMs).value.payload;
              MayView(Jwt.RoleOf(user)) && t.db.fault.Some? ==> out == Caught(t.db.fault.value, LIST_FAILED, t.relationships)
    // A token that does not verify goes to the catch block: 401 or 500.
    ensures Jwt.VerifyAccessTokenFromHeader(c, keys, header, nowMs).Err? ==>
              out == Caught(Jwt.VerifyAccessTokenFromHeader(c, keys, header, nowMs).error, LIST_FAILED, t.relationships)
    ensures out.reply.status == 200 ==> Jwt.VerifyAccessTokenFromHeader(c, keys, header, nowMs).Ok?
  {
    match Jwt.VerifyAccessTokenFromHeader(c, keys, header, nowMs)
    case Err(m) => Caught(m, LIST_FAILED, t.relationships)
    case Ok(user) =>
      var role := Jwt.RoleOf(user.payload);
      if !MayView(role) then Fail(403, NO_VIEW, t.relationships)
      else if t.db.fault.Some? then Caught(t.db.fault.value, LIST_FAILED, t.relationships)
      else
        var status := StatusFilter(statusParam);
        var visible := VisibleRows(t.db.users, role.value, user.payload.id, status, t.relationships);
        var rows := Reverse(visible);
        ReverseKeepsElements(visible);
        ReverseReverse(visible);
        Outcome(Http.Reply(200, Listed(rows, |rows|, role), None), t.relationships)
  }

  lemma ReverseKeepsElements<T>(xs: seq<T>)
    ensures forall x :: x in Reverse(xs) <==> x in xs
  {
    var r := Reverse(xs);
    forall x | x in xs ensures x in r {
      var i :| 0 <= i < |xs| && xs[i] == x;
      assert r[|xs| - 1 - i] == x;
    }
  }

  lemma ReverseReverse<T>(xs: seq<T>)
    ensures Reverse(Reverse(xs)) == xs
  {
  }

  /** An admin's `all` is no status at all: it lists every joined row,
      whatever its status; for a parent or a child `all` is just a status no
      row has unless one was stored under that name. */
  lemma AdminAllSeesEveryStatus(users: seq<Db.UserRow>, uid: string, r: Relationship)
    requires UserExists(users, r.parentUserId) && UserExists(users, r.childUserId)
    ensures Visible(users, Db.ADMIN, uid, ALL, r)
    ensures r.status != ALL ==> !Visible(users, Db.PARENT, uid, ALL, r) && !Visible(users, Db.CHILD, uid, ALL, r)
  {
  }

  // ---------------------------------------------------------------------
  // DELETE

  /** Which rows a deletion targets. */
  datatype Target = ById(id: string) | ByChild(childUserId: string)

  /** The `WHERE` clause of each delete: an admin's names only the target,
      anybody else's also requires the caller as parent or child (by id) or
      as parent (by child). */
  predicate InScope(target: Target, role: Option<string>, uid: string, r: Relationship) {
    match target
    case ById(id) =>
      r.id == id && (role == Some(Db.ADMIN) || r.parentUserId == uid || r.childUserId == uid)
    case ByChild(cid) =>
      r.childUserId == cid && (role == Some(Db.ADMIN) || r.parentUserId == uid)
  }

  /** Runs a scoped delete: the rows in scope go, all others stay in order;
      an empty deletion is 404. */
  function DeleteWhere(rows: seq<Relationship>, target: Target, role: Option<string>, uid: string): (out: Outcome)
    ensures out.relationships == Filter(rows, (r: Relationship) => !InScope(target, role, uid, r))
    ensures out.reply.status == 404 <==> forall r :: r in rows ==> !InScope(target, role, uid, r)
    ensures out.reply.status != 404 ==> out.reply.status == 200 && out.reply.body.Deleted? &&
                                        out.reply.body.deleted in rows &&
                                        InScope(target, role, uid, out.reply.body.deleted)
  {
    var removed := Filter(rows, (r: Relationship) => InScope(target, role, uid, r));
    var kept := Filter(rows, (r: Relationship) => !InScope(target, role, uid, r));
    if |removed| == 0 then
      assert forall r :: r in rows ==> !InScope(target, role, uid, r);
      Fail(404, NOTHING_DELETED, kept)
    else
      assert removed[0] in removed;
      Outcome(Http.Reply(200, Deleted(DELETED, removed[0]), None), kept)
  }

  /** `DELETE`, by relationship id or else by the child's email. */
  function Delete(c: Jwt.Codec, keys: Jwt.Secrets, header: Option<string>, nowMs: nat,
                  idParam: Option<string>, emailParam: Option<string>, t: Tables): (out: Outcome)
    ensures out.reply.setCookie.None?
    // Nothing is deleted except rows in the caller's scope.
    ensures forall r :: r in t.relationships && r !in out.relationships ==>
              && Jwt.VerifyAccessTokenFromHeader(c, keys, header, nowMs).Ok?
              && var user := Jwt.VerifyAccessTokenFromHeader(c, keys, header, nowMs).value.payload;
                 (Http.Present(idParam) ==> InScope(ById(idParam.value), Jwt.RoleOf(user), user.id, r)) &&
                 (!Http.Present(idParam) ==>
                    (Http.Present(emailParam) &&
                     exists u :: u in t.db.users && InScope(ByChild(u.id), Jwt.RoleOf(user), user.id, r)))
    ensures forall r :: r in out.relationships ==> r in t.relationships
    ensures out.reply.status != 200 && out.reply.status != 404 ==> out.relationships == t.relationships
    ensures Jwt.VerifyAccessTokenFromHeader(c, keys, header, nowMs).Ok? ==>
              (!Http.Present(idParam) && !Http.Present(emailParam) <==>
                 out == Fail(400, TARGET_REQUIRED, t.relationships))
    // By id, with a working database, the outcome is exactly the scoped delete.
    ensures Jwt.VerifyAccessTokenFromHeader(c, keys, header, nowMs).Ok? && Http.Present(idParam) && t.db.fault.None? ==>
              var user := Jwt.VerifyAccessTokenFromHeader(c, keys, header, nowMs).value.payload;
              out == DeleteWhere(t.relationships, ById(idParam.value), Jwt.RoleOf(user), user.id)
    // By email, an unknown child is 404; a known one is the scoped delete
    // of the links to that child.
    ensures Jwt.VerifyAccessTokenFromHeader(c, keys, header, nowMs).Ok? && !Http.Present(idParam) &&
            Http.Present(emailParam) && t.db.fault.None? ==>
              var user := Jwt.VerifyAccessTokenFromHeader(c, keys, header, nowMs).value.payload;
              && (ChildUserByEmail(t.db.users, emailParam.value).None? ==>
                    out == Fail(404, DELETE_CHILD_NOT_FOUND, t.relationships))
              && (ChildUserByEmail(t.db.users, emailParam.value).Some? ==>
                    out == DeleteWhere(t.relationships, ByChild(ChildUserByEmail(t.db.users, emailParam.value).value.id),
                                       Jwt.RoleOf(user), user.id))
    // A token that does not verify, or a failing database once a target is
    // given, goes to the catch block.
    ensures Jwt.VerifyAccessTokenFromHeader(c, keys, header, nowMs).Err? ==>
              out == Caught(Jwt.VerifyAccessTokenFromHeader(c, keys, header, nowMs).error, DELETE_FAILED, t.relationships)
    ensures Jwt.VerifyAccessTokenFromHeader(c, keys, header, nowMs).Ok? &&
            (Http.Present(idParam) || Http.Present(emailParam)) && t.db.fault.Some? ==>
              out == Caught(t.db.fault.value, DELETE_FAILED, t.relationships)
  {
    match Jwt.VerifyAccessTokenFromHeader(c, keys, header, nowMs)
    case Err(m) => Caught(m, DELETE_FAILED, t.relationships)
    case Ok(user) =>
      var role := Jwt.RoleOf(user.payload);
      var uid := user.payload.id;
      if !Http.Present(idParam) && !Http.Present(emailParam) then Fail(400, TARGET_REQUIRED, t.relationships)
      else if t.db.fault.Some? then Caught(t.db.fault.value, DELETE_FAILED, t.relationships)
      else if Http.Present(idParam) then DeleteWhere(t.relationships, ById(idParam.value), role, uid)
      else
        match ChildUserByEmail(t.db.users, emailParam.value)
        case None => Fail(404, DELETE_CHILD_NOT_FOUND, t.relationships)
        case Some(child) => DeleteWhere(t.relationships, ByChild(child.id), role, uid)
  }

  /** A caller who is not an admin never removes a link it is no party to:
      by id it must be the parent or the child, by email the parent. */
  lemma NonAdminDeletesOnlyOwnLinks(c: Jwt.Codec, keys: Jwt.Secrets, header: Option<string>, nowMs: nat,
                                    idParam: Option<string>, emailParam: Option<string>, t: Tables, r: Relationship)
    requires r in t.relationships
    requires r !in Delete(c, keys, header, nowMs, idParam, emailParam, t).relationships
    ensures Jwt.VerifyAccessTokenFromHeader(c, keys, header, nowMs).Ok?
    ensures var user := Jwt.VerifyAccessTokenFromHeader(c, keys, header, nowMs).value.payload;
            Jwt.RoleOf(user) != Some(Db.ADMIN) ==>
              && (Http.Present(idParam) ==> r.parentUserId == user.id || r.childUserId == user.id)
              && (!Http.Present(idParam) ==> r.parentUserId == user.id)
  {
  }

  /** Kept and deleted rows together are the table before the delete. */
  lemma DeleteKeepsTheRest(rows: seq<Relationship>, target: Target, role: Option<string>, uid: string)
    ensures |DeleteWhere(rows, target, role, uid).relationships| +
            |Filter(rows, (r: Relationship) => InScope(target, role, uid, r))| == |rows|
  {
    FilterPartitions(rows, (r: Relationship) => InScope(target, role, uid, r),
                     (r: Relationship) => !InScope(target, role, uid, r));
  }
}

=== FILE: session.dfy ===
/** Properties of the three session routes taken together: what a login
    enables, how long it lasts, and what logout revokes. */
module Session {
  import opened Wrappers
  import Jwt
  import opened Db
  import Http
  import Login
  import Refresh
  import Logout

  /** The refresh token a successful login stores and puts in the cookie. */
  function SessionToken(out: Login.Outcome): (t: string)
    requires out.reply.setCookie.Some?
  {
    out.reply.setCookie.value.value
  }

  /** Within the refresh token's seven days, in second resolution, the whole
      millisecond instant is also before the row's `expires_at`. */
  lemma {:induction false} WithinTokenLifetime(loginMs: nat, nowMs: nat)
    requires Jwt.Seconds(nowMs) < Jwt.Seconds(loginMs) + Jwt.REFRESH_TTL
    ensures nowMs < loginMs + Login.SESSION_MS
  {
    var a, b := loginMs / 1000, nowMs / 1000;
    assert b + 1 <= a + Jwt.REFRESH_TTL;
    assert nowMs < (b + 1) * 1000;
    assert (b + 1) * 1000 <= (a + Jwt.REFRESH_TTL) * 1000;
    assert a * 1000 <= loginMs;
  }

  /** A user who finds itself in the table by id: the first row with that
      id exists. */
  lemma UserFindable(users: seq<UserRow>, u: UserRow)
    requires u in users
    ensures UserById(users, u.id).Some?
  {
    var k :| 0 <= k < |users| && users[k] == u;
    assert users[k].id == u.id;
  }

  /** Login then refresh: the cookie a successful login sets is accepted by
      the refresh route for the rest of the refresh token's lifetime, as long
      as the database stays up and the session is not logged out. */
  lemma LoginThenRefresh(c: Jwt.Codec, keys: Jwt.Secrets, db: Database, body: Option<Login.Credentials>,
                         compare: (string, string) -> bool, random16: seq<Jwt.byte>, loginMs: nat,
                         production: bool, nowMs: nat)
    requires |random16| == 16 && Jwt.Lawful(c)
    requires Login.Login(c, keys, db, body, compare, random16, loginMs, production).reply.status == 200
    requires loginMs <= nowMs && Jwt.Seconds(nowMs) < Jwt.Seconds(loginMs) + Jwt.REFRESH_TTL
    ensures var out := Login.Login(c, keys, db, body, compare, random16, loginMs, production);
            Refresh.Refresh(c, keys, out.db, Some(SessionToken(out)), nowMs).status == 200
  {
    var out := Login.Login(c, keys, db, body, compare, random16, loginMs, production);
    var u := Login.CheckCredentials(db.users, body.value.email.value, body.value.password.value, compare).value;
    var jti := Jwt.GenerateJti(random16);
    var token := SessionToken(out);
    assert token == Jwt.GenerateRefreshToken(c, keys, u.id, jti, loginMs);
    WithinTokenLifetime(loginMs, nowMs);
    assert StoreAccepts(LookupToken(out.db.tokens, token), nowMs);
    assert Jwt.VerifyRefreshToken(c, keys, token, nowMs).Ok?;
    assert Jwt.VerifyRefreshToken(c, keys, token, nowMs).value.payload.id == u.id;
    UserFindable(out.db.users, u);
  }

  /** The stored expiry is never the check that decides: at the row's own
      `expires_at` the store check still passes (it rejects only a later
      instant), but the token's `exp` has already been reached, so the
      refresh is refused with the token message. */
  lemma RefreshAtStoredExpiryRejected(c: Jwt.Codec, keys: Jwt.Secrets, db: Database, body: Option<Login.Credentials>,
                                      compare: (string, string) -> bool, random16: seq<Jwt.byte>, loginMs: nat,
                                      production: bool)
    requires |random16| == 16 && Jwt.Lawful(c)
    requires Login.Login(c, keys, db, body, compare, random16, loginMs, production).reply.status == 200
    ensures var out := Login.Login(c, keys, db, body, compare, random16, loginMs, production);
            var token := SessionToken(out);
            var expiresAt := loginMs + Login.SESSION_MS;
            && token in out.db.tokens && out.db.tokens[token].expiresAt == expiresAt
            && StoreAccepts(LookupToken(out.db.tokens, token), expiresAt)
            && Refresh.Refresh(c, keys, out.db, Some(token), expiresAt) == Refresh.Reject(401, Jwt.INVALID_REFRESH)
  {
    var out := Login.Login(c, keys, db, body, compare, random16, loginMs, production);
    var u := Login.CheckCredentials(db.users, body.value.email.value, body.value.password.value, compare).value;
    var token := SessionToken(out);
    var expiresAt := loginMs + Login.SESSION_MS;
    assert Jwt.Seconds(expiresAt) == Jwt.Seconds(loginMs) + Jwt.REFRESH_TTL;
    assert Jwt.VerifyRefreshToken(c, keys, token, expiresAt).Err?;
    Refresh.RefreshMessageMentionsToken();
  }

  /** Logout then refresh: once logout has deleted the row, the same cookie
      is refused, whatever the token's own lifetime. */
  lemma LogoutThenRefreshRejected(c: Jwt.Codec, keys: Jwt.Secrets, db: Database, token: string,
                                  production: bool, nowMs: nat)
    requires token != "" && db.fault.None?
    ensures var after := Logout.Logout(db, Some(token), production).db;
            Refresh.Refresh(c, keys, after, Some(token), nowMs) == Refresh.Reject(401, Jwt.INVALID_REFRESH)
  {
  }

  /** The access token a login returns passes the `Bearer` gate of every
      protected route for fifteen minutes, carrying exactly the user's
      five fields. */
  lemma LoginAccessTokenAuthenticates(c: Jwt.Codec, keys: Jwt.Secrets, db: Database, body: Option<Login.Credentials>,
                                      compare: (string, string) -> bool, random16: seq<Jwt.byte>, loginMs: nat,
                                      production: bool, nowMs: nat)
    requires |random16| == 16 && Jwt.Lawful(c)
    requires Login.Login(c, keys, db, body, compare, random16, loginMs, production).reply.status == 200
    requires Jwt.Seconds(nowMs) < Jwt.Seconds(loginMs) + Jwt.ACCESS_TTL
    ensures var out := Login.Login(c, keys, db, body, compare, random16, loginMs, production);
            var data := out.reply.body.data.value;
            var header := Some(Jwt.BEARER + data.accessToken);
            && Jwt.VerifyAccessTokenFromHeader(c, keys, header, nowMs).Ok?
            && Jwt.VerifyAccessTokenFromHeader(c, keys, header, nowMs).value.payload ==
                 Jwt.AccessClaims(data.user.id, data.user.email, data.user.role, data.user.firstName, data.user.lastName)
  {
    var out := Login.Login(c, keys, db, body, compare, random16, loginMs, production);
    Jwt.BearerHeaderRoundTrip(c, keys, out.reply.body.data.value.accessToken, nowMs);
  }
}

=== FILE: strings.dfy ===
/** String operations the JavaScript source takes from the language runtime:
    `startsWith`, `endsWith`, `includes`, `split` on a one-character
    separator, `trim` and `toLowerCase`. */
module Strings {

  predicate StartsWith(s: string, prefix: string) {
    |prefix| <= |s| && s[..|prefix|] == prefix
  }

  predicate EndsWith(s: string, suffix: string) {
    |suffix| <= |s| && s[|s| - |suffix|..] == suffix
  }

  /** `sub` occurs in `s` starting at index `i`. */
  predicate MatchAt(s: string, sub: string, i: int) {
    0 <= i <= |s| - |sub| && s[i..i + |sub|] == sub
  }

  /** `s.includes(sub)`: some window of `s` equals `sub`. */
  predicate Contains(s: string, sub: string) {
    exists i | 0 <= i <= |s| - |sub| :: MatchAt(s, sub, i)
  }

  /** Text around a match keeps the match. */
  lemma ContainsInContext(a: string, sub: string, b: string)
    ensures Contains(a + sub + b, sub)
  {
    assert (a + sub + b)[|a|..|a| + |sub|] == sub;
    assert MatchAt(a + sub + b, sub, |a|);
  }

  /** A non-empty pattern whose first character never occurs cannot match. */
  lemma NotContainsWithoutFirstChar(s: string, sub: string)
    requires |sub| > 0 && sub[0] !in s
    ensures !Contains(s, sub)
  {
  }

  /** The white space that JavaScript's `trim` and the regular-expression
      class `\s` both recognise (WhiteSpace and LineTerminator of ECMA-262). */
  predicate IsSpace(c: char) {
    var u := c as int;
    (9 <= u <= 13) || u == 0x20 || u == 0xA0 || u == 0x1680 ||
    (0x2000 <= u <= 0x200A) || u == 0x2028 || u == 0x2029 || u == 0x202F ||
    u == 0x205F || u == 0x3000 || u == 0xFEFF
  }

  function TrimStart(s: string): (r: string)
    ensures |r| <= |s| && r == s[|s| - |r|..]
    ensures |r| > 0 ==> !IsSpace(r[0])
    ensures forall k :: 0 <= k < |s| - |r| ==> IsSpace(s[k])
    decreases |s|
  {
    if |s| > 0 && IsSpace(s[0]) then TrimStart(s[1..]) else s
  }

  function TrimEnd(s: string): (r: string)
    ensures |r| <= |s| && r == s[..|r|]
    ensures |r| > 0 ==> !IsSpace(r[|r| - 1])
    ensures forall k :: |r| <= k < |s| ==> IsSpace(s[k])
    decreases |s|
  {
    if |s| > 0 && IsSpace(s[|s| - 1]) then TrimEnd(s[..|s| - 1]) else s
  }

  /** `s.trim()`: the slice left after removing white space at both ends. */
  function Trim(s: string): string {
    TrimEnd(TrimStart(s))
  }

  /** `r` is `s` with white space at its ends cut off, starting at `i`. */
  predicate TrimmedAt(s: string, r: string, i: int) {
    0 <= i && i + |r| <= |s| && r == s[i..i + |r|] &&
    (forall k :: 0 <= k < i ==> IsSpace(s[k])) &&
    (forall k :: i + |r| <= k < |s| ==> IsSpace(s[k])) &&
    (|r| > 0 ==> !IsSpace(r[0]) && !IsSpace(r[|r| - 1]))
  }

  /** What `Trim` promises: a contiguous slice of the input with no white
      space at either end, everything cut off being white space. */
  lemma TrimIsTrimmedSlice(s: string)
    ensures exists i :: TrimmedAt(s, Trim(s), i)
  {
    var t := TrimStart(s);
    var i := |s| - |t|;
    TrimmedSliceAt(s, t, TrimEnd(t), i);
    assert TrimEnd(t) == Trim(s);
  }

  /** The two halves of `Trim` compose into one trimmed slice. */
  lemma TrimmedSliceAt(s: string, t: string, r: string, i: nat)
    requires i <= |s| && t == s[i..] && (forall k :: 0 <= k < i ==> IsSpace(s[k]))
    requires |t| > 0 ==> !IsSpace(t[0])
    requires |r| <= |t| && r == t[..|r|] && (|r| > 0 ==> !IsSpace(r[|r| - 1]))
    requires forall k :: |r| <= k < |t| ==> IsSpace(t[k])
    ensures TrimmedAt(s, r, i)
  {
    assert r == s[i..i + |r|];
    SpacesShift(s, t, |r|, i);
    if |r| > 0 {
      assert r[0] == t[0];
    }
  }

  /** White space at the end of a suffix is white space at the end of the
      whole string. */
  lemma SpacesShift(s: string, t: string, n: nat, i: nat)
    requires i <= |s| && t == s[i..] && n <= |t|
    requires forall k :: n <= k < |t| ==> IsSpace(t[k])
    ensures forall k :: i + n <= k < |s| ==> IsSpace(s[k])
  {
    forall k | i + n <= k < |s| ensures IsSpace(s[k]) {
      assert s[k] == t[k - i];
    }
  }

  /** Trimming adds no character. */
  lemma TrimKeepsAbsent(s: string, c: char)
    requires c !in s
    ensures c !in Trim(s)
  {
    TrimIsTrimmedSlice(s);
    var i :| TrimmedAt(s, Trim(s), i);
    assert forall k :: 0 <= k < |Trim(s)| ==> Trim(s)[k] == s[i + k];
  }

  /** Trimming twice is trimming once. */
  lemma TrimIdempotent(s: string)
    ensures Trim(Trim(s)) == Trim(s)
  {
    var r := Trim(s);
    TrimIsTrimmedSlice(s);
    var i :| TrimmedAt(s, r, i);
    assert TrimStart(r) == r;
    assert TrimEnd(r) == r;
  }

  function LowerChar(c: char): char {
    if 'A' <= c <= 'Z' then (c as int + 32) as char else c
  }

  /** `s.toLowerCase()` restricted to the ASCII letters. */
  function ToLower(s: string): (r: string)
    ensures |r| == |s|
    ensures forall k :: 0 <= k < |s| ==> r[k] == LowerChar(s[k])
  {
    seq(|s|, k requires 0 <= k < |s| => LowerChar(s[k]))
  }

  /** `s.split(sep)` for a one-character separator: the pieces between
      separators, in order, always at least one. */
  function Split(s: string, sep: char): (r: seq<string>)
    ensures |r| >= 1
    ensures forall k :: 0 <= k < |r| ==> sep !in r[k]
    decreases |s|
  {
    if |s| == 0 then [""]
    else
      var rest := Split(s[1..], sep);
      if s[0] == sep then [""] + rest
      else [[s[0]] + rest[0]] + rest[1..]
  }

  /** `pieces.join(sep)`. */
  function Join(pieces: seq<string>, sep: char): string
    requires |pieces| >= 1
    decreases |pieces|
  {
    if |pieces| == 1 then pieces[0] else pieces[0] + [sep] + Join(pieces[1..], sep)
  }

  /** Splitting loses nothing: joining the pieces back gives the input. */
  lemma {:induction false} SplitJoin(s: string, sep: char)
    ensures Join(Split(s, sep), sep) == s
    decreases |s|
  {
    if |s| > 0 {
      var rest := Split(s[1..], sep);
      SplitJoin(s[1..], sep);
      if s[0] == sep {
        assert Split(s, sep)[1..] == rest;
        assert s == [sep] + s[1..];
      } else {
        var r := Split(s, sep);
        if |rest| == 1 {
          assert r == [[s[0]] + rest[0]];
          assert s == [s[0]] + s[1..];
        } else {
          assert r[1..] == rest[1..];
          assert Join(rest, sep) == rest[0] + [sep] + Join(rest[1..], sep);
          assert s == [s[0]] + s[1..];
        }
      }
    }
  }

  /** The first piece of a split is the text before the first separator. */
  lemma {:induction false} SplitFirstPiece(s: string, sep: char)
    ensures sep !in s ==> Split(s, sep) == [s]
    ensures sep in s ==> |Split(s, sep)| >= 2
    ensures StartsWith(s, Split(s, sep)[0])
    decreases |s|
  {
    if |s| > 0 {
      SplitFirstPiece(s[1..], sep);
      if s[0] != sep {
        assert s == [s[0]] + s[1..];
        if sep !in s {
          assert sep !in s[1..];
        } else {
          assert sep in s[1..];
        }
      }
    }
  }

  /** The greedy regular-expression run `[^c]*` starting at index `i`: the
      longest stretch from `i` that holds no `c`. */
  function RunWithout(s: string, i: nat, c: char): (r: string)
    requires i <= |s|
    ensures c !in r
    ensures i + |r| <= |s| && r == s[i..i + |r|]
    ensures i + |r| == |s| || s[i + |r|] == c
    decreases |s| - i
  {
    if i == |s| || s[i] == c then "" else [s[i]] + RunWithout(s, i + 1, c)
  }

  /** A separator-free piece that sits at `i` and is followed by the
      separator or the end is the run from `i`. */
  lemma RunOfPiece(s: string, i: nat, piece: string, c: char)
    requires i + |piece| <= |s| && s[i..i + |piece|] == piece && c !in piece
    requires i + |piece| == |s| || s[i + |piece|] == c
    ensures RunWithout(s, i, c) == piece
  {
    RunWithoutStops(s, i, i + |piece|, c);
  }

  /** The run from `i` ends at the first `c`. */
  lemma RunWithoutStops(s: string, i: nat, j: nat, c: char)
    requires i <= j <= |s| && c !in s[i..j] && (j == |s| || s[j] == c)
    ensures RunWithout(s, i, c) == s[i..j]
  {
    var r := RunWithout(s, i, c);
    var seg := s[i..j];
    forall k | i <= k < j ensures s[k] != c {
      assert s[k] == seg[k - i];
    }
    forall k | i <= k < i + |r| ensures s[k] != c {
      assert s[k] == r[k - i];
    }
  }

  /** A joined string starts with its first piece, followed by the
      separator and the join of the rest when there is more than one. */
  lemma JoinHead(pieces: seq<string>, sep: char)
    requires |pieces| >= 1
    ensures var j := Join(pieces, sep);
            |pieces[0]| <= |j| && j[..|pieces[0]|] == pieces[0] &&
            (|pieces| == 1 ==> |j| == |pieces[0]|) &&
            (|pieces| >= 2 ==> |pieces[0]| < |j| && j[|pieces[0]|] == sep &&
                               j[|pieces[0]| + 1..] == Join(pieces[1..], sep))
  {
    if |pieces| >= 2 {
      var j := Join(pieces, sep);
      assert j == pieces[0] + [sep] + Join(pieces[1..], sep);
    }
  }

  /** The first piece of a split is the separator-free run from index 0. */
  lemma SplitFirstRun(s: string, sep: char)
    ensures Split(s, sep)[0] == RunWithout(s, 0, sep)
    ensures |Split(s, sep)| >= 2 ==> |Split(s, sep)[0]| < |s| && s[|Split(s, sep)[0]|] == sep
  {
    var pieces := Split(s, sep);
    SplitJoin(s, sep);
    JoinHead(pieces, sep);
    var n := |pieces[0]|;
    assert s[0..n] == pieces[0];
    RunWithoutStops(s, 0, n, sep);
  }

  /** The second piece is the separator-free run right after the first
      separator. */
  lemma SplitSecondRun(s: string, sep: char)
    requires sep in s
    ensures |Split(s, sep)| >= 2 && |Split(s, sep)[0]| < |s| && s[|Split(s, sep)[0]|] == sep
    ensures Split(s, sep)[1] == RunWithout(s, |Split(s, sep)[0]| + 1, sep)
  {
    SplitFirstPiece(s, sep);
    SplitJoin(s, sep);
    JoinSecondRun(Split(s, sep), sep, s);
  }

  /** In a join whose second piece is separator-free, that piece is the run
      right after the first separator. */
  lemma JoinSecondRun(pieces: seq<string>, sep: char, s: string)
    requires |pieces| >= 2 && Join(pieces, sep) == s
    requires sep !in pieces[1]
    ensures |pieces[0]| < |s| && s[|pieces[0]|] == sep
    ensures pieces[1] == RunWithout(s, |pieces[0]| + 1, sep)
  {
    JoinSecondSlice(pieces, sep, s);
    RunOfPiece(s, |pieces[0]| + 1, pieces[1], sep);
  }

  /** Where the second piece of a join sits, and what follows it. */
  lemma JoinSecondSlice(pieces: seq<string>, sep: char, s: string)
    requires |pieces| >= 2 && Join(pieces, sep) == s
    ensures |pieces[0]| < |s| && s[|pieces[0]|] == sep
    ensures |pieces[0]| + 1 + |pieces[1]| <= |s|
    ensures s[|pieces[0]| + 1..|pieces[0]| + 1 + |pieces[1]|] == pieces[1]
    ensures |pieces[0]| + 1 + |pieces[1]| == |s| || s[|pieces[0]| + 1 + |pieces[1]|] == sep
  {
    JoinHead(pieces, sep);
    var n := |pieces[0]|;
    var rest := pieces[1..];
    var t := Join(rest, sep);
    JoinHead(rest, sep);
    var m := |rest[0]|;
    assert s[n + 1..n + 1 + m] == t[..m];
    if n + 1 + m < |s| {
      assert s[n + 1 + m] == t[m];
    }
  }
}

=== FILE: validation.dfy ===
/** The validators of `src/utils/validation.js`. They accept any
    JavaScript value; a value that is not a string matters only through its
    truthiness. */
module Validation {
  import opened Strings
  import Jwt

  datatype JsValue = JsString(s: string) | JsOther(truthy: bool)

  predicate Truthy(v: JsValue) {
    if v.JsString? then v.s != "" else v.truthy
  }

  /** The character class `[0-9a-fA-F-]`. */
  predicate UuidChar(c: char) {
    ('0' <= c <= '9') || ('a' <= c <= 'f') || ('A' <= c <= 'F') || c == '-'
  }

  /** `isValidUUID`: 36 characters from the class, in any arrangement. */
  function IsValidUuid(v: JsValue): (ok: bool)
    ensures ok ==> v.JsString? && |v.s| == 36
    ensures ok <==> v.JsString? && |v.s| == 36 && forall k :: 0 <= k < |v.s| ==> UuidChar(v.s[k])
  {
    if !Truthy(v) || !v.JsString? then false
    else |v.s| == 36 && forall k :: 0 <= k < |v.s| ==> UuidChar(v.s[k])
  }

  /** The dash positions are not checked: 36 dashes pass. */
  lemma DashesAreNotPositional()
    ensures IsValidUuid(JsString(seq(36, _ => '-')))
  {
  }

  /** A session id (32 hex digits) is never mistaken for a UUID. */
  lemma JtiIsNotUuid(random16: seq<Jwt.byte>)
    requires |random16| == 16
    ensures !IsValidUuid(JsString(Jwt.GenerateJti(random16)))
  {
  }

  /** The character class `[^\s@]`. */
  predicate PlainChar(c: char) {
    !IsSpace(c) && c != '@'
  }

  predicate AllPlain(s: string) {
    forall k :: 0 <= k < |s| ==> PlainChar(s[k])
  }

  /** The pattern `^[^\s@]+@[^\s@]+\.[^\s@]+$` matched with the `@` at `at`
      and the separating dot at `dot`. */
  predicate EmailMatchAt(s: string, at: int, dot: int) {
    && 0 < at && at + 1 < dot < |s| - 1
    && s[at] == '@' && s[dot] == '.'
    && AllPlain(s[..at]) && AllPlain(s[at + 1..])
  }

  /** Some way of matching the pattern exists. */
  predicate EmailPattern(s: string) {
    exists at, dot | 0 <= at < dot < |s| :: EmailMatchAt(s, at, dot)
  }

  /** The first index of `c` in `s`, or -1. */
  function IndexOf(s: string, c: char): (r: int)
    ensures -1 <= r < |s|
    ensures r == -1 <==> c !in s
    ensures r >= 0 ==> s[r] == c && c !in s[..r]
    decreases |s|
  {
    if |s| == 0 then -1
    else if s[0] == c then 0
    else
      var r := IndexOf(s[1..], c);
      if r == -1 then -1
      else
        assert s[..r + 1] == [s[0]] + s[1..][..r];
        r + 1
  }

  /** One left-to-right reading of an address: the first `@` splits it; the
      local part must be non-empty, neither side may hold white space or a
      second `@`, and the domain must hold a dot that is neither its first
      nor its last character. */
  function EmailScan(s: string): bool {
    var at := IndexOf(s, '@');
    && at > 0
    && AllPlain(s[..at]) && AllPlain(s[at + 1..])
    && var domain := s[at + 1..];
       |domain| >= 3 && '.' in domain[1..|domain| - 1]
  }

  /** The scan accepts exactly the strings the pattern matches. */
  lemma {:induction false} EmailScanIsPattern(s: string)
    ensures EmailScan(s) <==> EmailPattern(s)
  {
    var at := IndexOf(s, '@');
    if EmailScan(s) {
      var domain := s[at + 1..];
      var inner := domain[1..|domain| - 1];
      var j :| 0 <= j < |inner| && inner[j] == '.';
      assert s[at + 2 + j] == '.';
      assert EmailMatchAt(s, at, at + 2 + j);
    }
    if EmailPattern(s) {
      var a, d :| 0 <= a < d < |s| && EmailMatchAt(s, a, d);
      NoAtBefore(s, a);
      var domain := s[at + 1..];
      assert domain[1..|domain| - 1][d - at - 2] == '.';
    }
  }

  /** A string with no `@` before index `a` and one at `a` has its first
      `@` there. */
  lemma NoAtBefore(s: string, a: int)
    requires 0 <= a < |s| && s[a] == '@' && AllPlain(s[..a])
    ensures IndexOf(s, '@') == a
  {
    var local := s[..a];
    forall k | 0 <= k < a ensures s[k] != '@' {
      assert s[k] == local[k];
    }
    var r := IndexOf(s, '@');
    var before := s[..r];
    forall k | 0 <= k < r ensures s[k] != '@' {
      assert s[k] == before[k];
    }
  }

  /** `isValidEmail`. */
  function IsValidEmail(v: JsValue): (ok: bool)
    ensures ok <==> v.JsString? && EmailPattern(v.s)
  {
    if !Truthy(v) || !v.JsString? then false
    else
      EmailScanIsPattern(v.s);
      EmailScan(v.s)
  }

  /** The four conditions in words: exactly one `@`, no white space, a
      non-empty local part, and a dot in the domain that is neither its first
      nor its last character. */
  lemma {:induction false} EmailInWords(s: string, at: int)
    requires 0 <= at < |s| && s[at] == '@'
    ensures EmailPattern(s) <==>
              && '@' !in s[..at] && '@' !in s[at + 1..]
              && (forall k :: 0 <= k < |s| ==> !IsSpace(s[k]))
              && at > 0
              && exists d :: at + 1 < d < |s| - 1 && s[d] == '.'
  {
    EmailScanIsPattern(s);
    var words := && '@' !in s[..at] && '@' !in s[at + 1..]
                 && (forall k :: 0 <= k < |s| ==> !IsSpace(s[k]))
                 && at > 0
                 && exists d :: at + 1 < d < |s| - 1 && s[d] == '.';
    if words {
      var d :| at + 1 < d < |s| - 1 && s[d] == '.';
      var local, domain := s[..at], s[at + 1..];
      assert AllPlain(local) by {
        forall k | 0 <= k < |local| ensures PlainChar(local[k]) {
          assert local[k] == s[k];
        }
      }
      assert AllPlain(domain) by {
        forall k | 0 <= k < |domain| ensures PlainChar(domain[k]) {
          assert domain[k] == s[at + 1 + k];
        }
      }
      assert EmailMatchAt(s, at, d);
    }
    if EmailPattern(s) {
      var a, d :| 0 <= a < d < |s| && EmailMatchAt(s, a, d);
      var local, domain := s[..a], s[a + 1..];
      forall k | 0 <= k < |s| && k != a ensures PlainChar(s[k]) {
        if k < a { assert s[k] == local[k]; }
        else { assert s[k] == domain[k - a - 1]; }
      }
      assert a == at;
      assert '@' !in local && '@' !in domain;
    }
  }

  /** `sanitizeString`: the trimmed string, or `""` for a falsy or
      non-string value. */
  function Sanitize(v: JsValue): (r: string)
    ensures |r| > 0 ==> !IsSpace(r[0]) && !IsSpace(r[|r| - 1])
    ensures !v.JsString? ==> r == ""
    ensures v.JsString? ==> exists i :: TrimmedAt(v.s, r, i)
  {
    if !Truthy(v) || !v.JsString? then
      assert v.JsString? ==> TrimmedAt(v.s, "", 0);
      ""
    else
      TrimIsTrimmedSlice(v.s);
      Trim(v.s)
  }

  /** Sanitising a sanitised string changes nothing. */
  lemma SanitizeIdempotent(v: JsValue)
    ensures Sanitize(JsString(Sanitize(v))) == Sanitize(v)
  {
    if Truthy(v) && v.JsString? {
      TrimIdempotent(v.s);
    }
  }
}

=== FILE: with_auth.dfy ===
/** `withAuth` of `src/lib/withAuth.js`: the wrapper every protected API
    route runs behind. It verifies the `Authorization` header, checks the
    caller's role against the route's list, and runs the handler; anything
    thrown on the way becomes a JSON reply with an `error` field. A handler is a
    function from the verified token and the route parameters to its
    result, or to the message it throws. */
module WithAuth {
  import opened Wrappers
  import opened Strings
  import opened Jwt

  const FORBIDDEN_ROLE := "この操作を行う権限がありません。"
  const UNEXPECTED := "サーバー内部でエラーが発生しました。"

  /** The wrapper's reply: the handler's own result, or one of the
      wrapper's `error` replies with its status. */
  datatype Reply<R> = Handled(result: R) | Rejected(status: nat, error: string)

  /** An empty list only authenticates; otherwise the token's `role` claim
      must be in it (a payload without one never is). */
  predicate RoleAllowed(allowedRoles: seq<string>, p: Payload) {
    |allowedRoles| == 0 || (RoleOf(p).Some? && RoleOf(p).value in allowedRoles)
  }

  /** The catch block: authentication messages are 401 with the message,
      anything else a generic 500. */
  function Caught<R>(message: string): (r: Reply<R>)
    ensures r.Rejected?
    ensures r.status == 401 <==> IsAuthMessage(message)
    ensures r.status == 401 ==> r.error == message
    ensures r.status != 401 ==> r.status == 500 && r.error == UNEXPECTED
  {
    if IsAuthMessage(message) then Rejected(401, message) else Rejected(500, UNEXPECTED)
  }

  function WithAuth<P, R>(handler: (Decoded, P) -> Result<R, string>, allowedRoles: seq<string>,
                          c: Codec, keys: Secrets, header: Option<string>, params: P, nowMs: nat): (r: Reply<R>)
    // A bad or missing header, or a token that fails verification, is 401
    // with the token layer's own message.
    ensures VerifyAccessTokenFromHeader(c, keys, header, nowMs).Err? ==>
              r == Rejected(401, VerifyAccessTokenFromHeader(c, keys, header, nowMs).error)
    // A verified caller whose role is not listed is 403.
    ensures VerifyAccessTokenFromHeader(c, keys, header, nowMs).Ok? &&
            !RoleAllowed(allowedRoles, VerifyAccessTokenFromHeader(c, keys, header, nowMs).value.payload) ==>
              r == Rejected(403, FORBIDDEN_ROLE)
    // Otherwise the handler runs on the verified token; its result is
    // returned as is and its failure goes through the catch block.
    ensures VerifyAccessTokenFromHeader(c, keys, header, nowMs).Ok? &&
            RoleAllowed(allowedRoles, VerifyAccessTokenFromHeader(c, keys, header, nowMs).value.payload) ==>
              var out := handler(VerifyAccessTokenFromHeader(c, keys, header, nowMs).value, params);
              (out.Ok? ==> r == Handled(out.value)) &&
              (out.Err? ==> r == Caught(out.error) && (r.status == 401 <==> IsAuthMessage(out.error)))
  {
    match VerifyAccessTokenFromHeader(c, keys, header, nowMs)
    case Err(m) =>
      HeaderGateFailuresAreAuthMessages(c, keys, header, nowMs);
      Caught(m)
    case Ok(user) =>
      if !RoleAllowed(allowedRoles, user.payload) then Rejected(403, FORBIDDEN_ROLE)
      else
        match handler(user, params)
        case Ok(v) => Handled(v)
        case Err(m) => Caught(m)
  }

  /** The handler runs only for a verified, permitted caller: a request
      the wrapper refuses gets the same reply whatever the handler is. */
  lemma RejectionIgnoresHandler<P, R>(h1: (Decoded, P) -> Result<R, string>, h2: (Decoded, P) -> Result<R, string>,
                                      allowedRoles: seq<string>, c: Codec, keys: Secrets,
                                      header: Option<string>, params: P, nowMs: nat)
    requires VerifyAccessTokenFromHeader(c, keys, header, nowMs).Err? ||
             !RoleAllowed(allowedRoles, VerifyAccessTokenFromHeader(c, keys, header, nowMs).value.payload)
    ensures WithAuth(h1, allowedRoles, c, keys, header, params, nowMs) ==
            WithAuth(h2, allowedRoles, c, keys, header, params, nowMs)
    ensures WithAuth(h1, allowedRoles, c, keys, header, params, nowMs).Rejected?
  {
  }

  /** A handled request carried `Bearer ` and a token the access secret
      signed, still unexpired, and the handler saw exactly its claims. */
  lemma HandledMeansAuthenticated<P, R>(handler: (Decoded, P) -> Result<R, string>, allowedRoles: seq<string>,
                                        c: Codec, keys: Secrets, header: Option<string>, params: P, nowMs: nat)
    requires Lawful(c)
    requires WithAuth(handler, allowedRoles, c, keys, header, params, nowMs).Handled?
    ensures header.Some? && StartsWith(header.value, BEARER)
    ensures var d := VerifyAccessTokenFromHeader(c, keys, header, nowMs).value;
            && header.value == BEARER + c.sign(d.payload, keys.access, d.iat, d.exp - d.iat)
            && Seconds(nowMs) < d.exp
            && RoleAllowed(allowedRoles, d.payload)
            && handler(d, params).Ok?
            && WithAuth(handler, allowedRoles, c, keys, header, params, nowMs).result == handler(d, params).value
  {
    var h := header.value;
    assert h == h[..|BEARER|] + h[|BEARER|..];
  }

  /** With no role list, every verified caller reaches the handler. */
  lemma EmptyRoleListOnlyAuthenticates<P, R>(handler: (Decoded, P) -> Result<R, string>, c: Codec, keys: Secrets,
                                             header: Option<string>, params: P, nowMs: nat)
    requires VerifyAccessTokenFromHeader(c, keys, header, nowMs).Ok?
    requires handler(VerifyAccessTokenFromHeader(c, keys, header, nowMs).value, params).Ok?
    ensures WithAuth(handler, [], c, keys, header, params, nowMs).Handled?
  {
  }
}

=== FILE: wrappers.dfy ===
/** Failure-carrying datatypes, and the first-match search, shared by every
    module of the model.
    JavaScript's `null`/`undefined` become `None`; a thrown `Error` whose
    message matters becomes `Err(message)`. */
module Wrappers {

  datatype Option<+T> = None | Some(value: T) {
    /** The value, or a default when absent. */
    function GetOr(default: T): T {
      match this
      case Some(v) => v
      case None => default
    }
  }

  datatype Result<+T, +E> = Ok(value: T) | Err(error: E)

  /** The position of the first element satisfying `p`: the search behind
      `Array.prototype.find`, a `for ... of` loop with `break`, and `rows[0]`
      of a filtered query. */
  function FirstIndex<T>(xs: seq<T>, p: T -> bool): (r: Option<nat>)
    ensures r.Some? ==> r.value < |xs| && p(xs[r.value]) &&
                        forall j :: 0 <= j < r.value ==> !p(xs[j])
    ensures r.None? <==> forall k :: 0 <= k < |xs| ==> !p(xs[k])
  {
    if |xs| == 0 then None
    else if p(xs[0]) then Some(0)
    else
      match FirstIndex(xs[1..], p)
      case None => None
      case Some(i) => Some(i + 1)
  }

  /** The elements satisfying `p`, in their order: a `WHERE` clause over a
      table kept in insertion order. */
  function Filter<T>(xs: seq<T>, p: T -> bool): (r: seq<T>)
    ensures forall i :: 0 <= i < |r| ==> r[i] in xs && p(r[i])
    ensures forall i :: 0 <= i < |xs| && p(xs[i]) ==> xs[i] in r
    ensures |r| <= |xs|
  {
    if |xs| == 0 then []
    else
      var rest := Filter(xs[1..], p);
      assert forall i :: 0 < i < |xs| ==> xs[i] == xs[1..][i - 1];
      if p(xs[0]) then [xs[0]] + rest else rest
  }

  /** Every element goes to exactly one side of a filter and of the filter
      by the opposite condition. */
  lemma {:induction false} FilterPartitions<T>(xs: seq<T>, p: T -> bool, q: T -> bool)
    requires forall i :: 0 <= i < |xs| ==> q(xs[i]) == !p(xs[i])
    ensures |Filter(xs, p)| + |Filter(xs, q)| == |xs|
  {
    if |xs| > 0 {
      FilterPartitions(xs[1..], p, q);
    }
  }

  /** The elements in the opposite order. */
  function Reverse<T>(xs: seq<T>): (r: seq<T>)
    ensures |r| == |xs|
    ensures forall i :: 0 <= i < |xs| ==> r[i] == xs[|xs| - 1 - i]
  {
    if |xs| == 0 then [] else [xs[|xs| - 1]] + Reverse(xs[..|xs| - 1])
  }
}
